=== FILE: README.md ===
# Thesis-Builder conversion core in Dafny

Thesis-Builder turns a thesis written as one JSON file per page into
LaTeX. Each page holds a section level, a title, content blocks (text,
image, table, code or listing, equation) and references. This project
models the part of it that produces text:

- **`create_latex_text`** (module `Segmenter`). It keeps `\ref{...}`
  groups and `$...$` maths verbatim and escapes everything around them.
  It then turns every blank line into `\par`.
- **`process_plain_text`** (module `Escaper`). It runs the character
  tables (LaTeX specials, Polish letters, symbols, signs, super- and
  subscripts), then the regular-expression rewrites: citations,
  headings, bold, italic, percentages and micro units.
- **`process_content_block`** with its renderers (module `Blocks`). This
  covers inline text and text files, the list pass that wraps `- ` lines
  in `itemize`, figures, tables, code listings and equations.
- **`process_page`** and **`collect_bibliography`** (module `Pages`).
  The first writes the page fragment through an ASCII encoder with
  `backslashreplace`. The second merges every page's references into a
  `.bib` file.
- **`fix_fragment_encoding`** and **`fix_page_file`** (module
  `Transliterate`). These are the two byte loops that turn UTF-8 Polish
  letters into LaTeX accents.
- **The fragment filter and sort of `create_main_tex`** (module
  `Fragments`).
- **The PNG writer of `create_simple_image`** (module `Png`). This covers
  its raw scanlines, its chunk layout and its IHDR header.

Module `Text` holds the Python string built-ins that the core relies on:
- `str.replace` (leftmost, non-overlapping);
- `strip`;
- `split('\n')` and `'\n'.join`;
- `str(n)` and `int(s)`;
- the ASCII character classes `\d`, `\w` and `\s`.

Each loop of the source is a `method`. Its `ensures` ties the result to a
specification function, and the properties are proved as lemmas about
that function.

The lemmas state what the code does, including these behaviours, which
are easy to miss:

- **Overlapping matches are emitted twice.** In `$\ref{a}$` the
  maths span and the `\ref` span overlap. The output is
  `$\ref{a}$\ref{a}\$`.
- **`70%` becomes `70\textbackslash{}%`.** Table entries are
  replaced one after another, so every backslash that an earlier entry
  introduces is escaped again by the backslash entry. After that, the
  rules `(\d+)%`, `~70%` and the heading rules can never fire.
- **Headings from a text file are escaped twice.** `# w` becomes
  `\textbackslash{}chapter\textbackslash{}{w\textbackslash{}}`. An inline
  heading is escaped once and is correct.
- **`ó` and `Ó` are missing from the transliteration table.** The table
  maps the byte pairs C5 B3 and C5 93 to them. Their UTF-8 forms are
  C3 B3 and C3 93. A genuine `ó` therefore becomes `??`.

## Model

| member | source | states |
|---|---|---|
| Segmenter.DelimMatch | assembler.py:47-48 | a `\ref{…}` or `$…$` match found at an index is a well-formed delimited group, and any group starting there is the one found |
| Segmenter.Scan | assembler.py:47-52 | `finditer` yields only genuine matches of its pattern, left to right and without overlap |
| Segmenter.MergeIsPermutation | assembler.py:55-61 | the combined match list holds exactly the reference matches plus the maths matches |
| Segmenter.SpansSorted | assembler.py:55-61 | the combined match list is ordered by start position and is a permutation of both lists |
| Segmenter.MergeChain | assembler.py:61-78 | when reference and maths matches do not overlap, the merged list is again a left-to-right chain |
| Segmenter.BuildSegments | assembler.py:64-80 | the segmentation loop produces the segments the specification function defines |
| Segmenter.CreateLatexText | assembler.py:44-98 | the method computes the reference definition: segments rendered, joined, blank lines turned into `\par` |
| Segmenter.RenderSegments | assembler.py:83-93 | rendering each segment in order and joining gives the rendered text |
| Segmenter.RenderSegment | assembler.py:85-90 | protected segments are kept verbatim and plain segments go through the escaper |
| Segmenter.LatexTextOf | assembler.py:93-96 | the output is the rendered segments with every `\n\n` replaced by `\n\par\n` |
| Segmenter.KeptAreCovered | assembler.py:67-78 | the protected segments are exactly the matched substrings, in order |
| Segmenter.SegsRoundTrip | assembler.py:67-80 | concatenating the segments' raw text gives back the input from the starting index |
| Segmenter.SegmentsRoundTrip | assembler.py:64-80 | without overlapping matches, the segments partition the input: their raw text is the input |
| Segmenter.ProtectedSegmentsAreMatches | assembler.py:67-78 | every protected segment is the text of one match, in match order |
| Segmenter.NoSpansEscapesAll | assembler.py:44-98 | text with no reference or maths is escaped as a whole, then paragraph breaks are inserted |
| Segmenter.ParBreaksHead | assembler.py:96 | the paragraph replacement keeps the text non-empty and keeps whether it starts with a line feed |
| Segmenter.NoBlankLineAfterParBreaks | assembler.py:96 | text without three line feeds in a row has no blank line left after the replacement |
| Segmenter.ParBreakHasNoBlankLine | assembler.py:96 | the inserted `\n\par\n` holds no blank line |
| Segmenter.OverlapSpans | assembler.py:47-61 | in `$\ref{a}$` the reference match lies inside the maths match |
| Segmenter.OverlapSegments | assembler.py:64-80 | the overlapping input yields three segments, the reference among them twice over |
| Segmenter.OverlapIsDuplicated | assembler.py:44-98 | overlapping matches duplicate the reference in the output instead of dropping it |
| Escaper.EscapeTableIsCharMap | assembler.py:103-117 | the sequential special-character table acts as one per-character map |
| Escaper.EscapeOfChar | assembler.py:103-117 | each character's image under the table is its per-character escape |
| Escaper.EscapeMarked | assembler.py:103-117 | `& % # _ { }` come out as `\textbackslash{}` followed by the character, because the backslash entry runs after them |
| Escaper.EscapeBackslash | assembler.py:103-117 | a backslash comes out as `\textbackslash{}` |
| Escaper.EscapeDollar | assembler.py:103-117 | a dollar sign comes out as `\$`, since its entry follows the backslash entry |
| Escaper.EscapeOther | assembler.py:103-117 | every character outside the table is kept |
| Escaper.ApplyRulesConcat | assembler.py:117 | the character tables distribute over concatenation |
| Escaper.ApplyRulesRemoves | assembler.py:117 | after a table whose outputs are ASCII, none of its non-ASCII source characters remains |
| Escaper.TablesRemoveTheirCharacters | assembler.py:120-170 | after the Polish and symbol tables, none of their characters and no `μ` remains |
| Escaper.AsciiRulesIdle | assembler.py:120-170 | the non-ASCII tables leave ASCII text unchanged |
| Escaper.CiteMatch | assembler.py:173 | a citation match is `[`, one or more word characters and `]`, and any such match at the index is the one found |
| Escaper.HeadingMatch | assembler.py:176-179 | a heading match starts at a line start with the marker and runs to the end of that line |
| Escaper.CloseFromSound | assembler.py:180-181 | the lazy closing delimiter found is the first one after the opening, on the same line |
| Escaper.CloseFromFinds | assembler.py:180-181 | the first closing delimiter on the line is always found |
| Escaper.EmphMatchSound | assembler.py:180-181 | a bold or italic match is a non-empty group between delimiters on one line |
| Escaper.EmphMatchComplete | assembler.py:180-181 | any such group at the index is the one found |
| Escaper.PercentMatch | assembler.py:184 | a percent match is one or more digits followed by `%` |
| Escaper.MicroMatch | assembler.py:186-187 | a micro match is digits, spaces, a micro sign and one of the unit letters |
| Escaper.ProcessPlainText | assembler.py:100-189 | the method, looping over each table, computes the reference definition of the escaper |
| Escaper.EscapedIsShielded | assembler.py:103-117 | after the special table every `#`, `%` and `~` directly follows a `}` |
| Escaper.ApplyRulesShielded | assembler.py:120-170 | the Polish, symbol, sign and script tables keep that property |
| Escaper.CiteShielded | assembler.py:173 | the citation rewrite keeps that property |
| Escaper.EmphShielded | assembler.py:180-181 | the bold and italic rewrites keep that property |
| Escaper.HeadingsInert | assembler.py:176-179 | on such text the four heading rules change nothing |
| Escaper.PercentInert | assembler.py:184 | on such text the `(\d+)%` rule changes nothing |
| Escaper.PercentAndTildeInert | assembler.py:184-185 | on such text neither the percent rule nor the `~70%` replacement changes anything |
| Escaper.InertRules | assembler.py:100-189 | for every input the escaper equals the tables, citations, bold, italic and micro units alone |
| Escaper.EscapeEachChars | assembler.py:103-117 | escaped text holds only input characters, word characters and `\ { } $` |
| Escaper.EscapeKeepsLines | assembler.py:103-117 | escaping adds no line feed |
| Escaper.EscapeEachAscii | assembler.py:103-117 | escaping ASCII text gives ASCII text |
| Escaper.MicroNeedsSign | assembler.py:186-187 | the micro rule can match only in non-ASCII text |
| Escaper.PlainTextOnAscii | assembler.py:100-189 | on ASCII text without `[` or `*` the escaper is exactly the per-character escape |
| Escaper.PercentExample | assembler.py:100-189 | `70%` becomes `70\textbackslash{}%` |
| Escaper.DollarExample | assembler.py:100-189 | `$5` becomes `\$5` |
| Blocks.LeadingHashesUnique | assembler.py:326-331 | the count of leading `#` is the one number with all `#` before it and none at it |
| Blocks.CountLeadingHashes | assembler.py:326-331 | the counting loop returns the length of the leading run of `#` |
| Blocks.HeadingLineOf | assembler.py:358-384 | a file line is turned into its heading command, or is kept |
| Blocks.ProcessInlineText | assembler.py:321-347 | the inline text block, with its heading-level loop, computes the reference definition |
| Blocks.ProcessFileText | assembler.py:348-419 | the text-file block computes headings, then the escaper, then the list pass |
| Blocks.Classified | assembler.py:401-407 | each line is classified as a list item or another line, one class per line |
| Blocks.RunEnd | assembler.py:406-409 | a run of list items ends at the first non-item line or at the end |
| Blocks.ListPass | assembler.py:393-419 | the list pass computes the itemize definition over the classified lines |
| Blocks.ItemizeLines | assembler.py:395-416 | the nested loops produce exactly the itemize definition |
| Blocks.ItemRun | assembler.py:403-409 | the inner loop stops at the end of the run of list lines and emits the opening line and one `\item` line per list line, in order |
| Blocks.ItemizeIsLocal | assembler.py:395-416 | the list pass equals a line-by-line emission in which each line decides its own output |
| Blocks.RunsBalance | assembler.py:403-412 | every `\begin{itemize}` emitted has its `\end{itemize}` |
| Blocks.ListPassLength | assembler.py:393-419 | the output has the input lines plus two lines per run of items |
| Blocks.ItemPerListLine | assembler.py:406-408 | the output has one `\item` line per list line of the input |
| Blocks.CaptionAndLabel | assembler.py:231-235 | the text is empty exactly when neither field is given; a given caption opens it as `\caption{…}` around the escaped caption; a given label closes it as `\label{…}`; with only one field given, only that field's line is written |
| Blocks.CaptionLines | assembler.py:231-235 | when the rendered caption and the label are one line each, the lines are the caption line if given, then the label line if given, and nothing else |
| Blocks.FigureLatex | assembler.py:212-239 | a figure opens with the centred include of the resolved image path, then has exactly the caption and label text, then closes with `\end{figure}` |
| Blocks.ColumnSpecColumns | assembler.py:256 | the column specification has one `c` per column of the first row |
| Blocks.TableLatex | assembler.py:241-272 | a table with no rows gives nothing; otherwise it is a tabular over every row, then exactly the caption and label text, closed by `\end{table}` |
| Blocks.ProcessTable | assembler.py:241-272 | the row loop computes the table definition |
| Blocks.CodeLatex | assembler.py:274-296 | the code is wrapped verbatim in `minted` for its language, followed by exactly the caption and label text, inside a `listing` |
| Blocks.EquationLatex | assembler.py:298-313 | the output opens the `equation` environment, has the label line right after it when a label is given, and ends with the equation copied as it is followed by the closing line; its length leaves room for nothing else |
| Blocks.EquationLines | assembler.py:305-311 | on one-line fields the lines are exactly the opening line, the label line when given, the equation and the closing line, so there is no blank line |
| Blocks.EquationExample | assembler.py:305-311 | the equation `x` without a label gives `\begin{equation}`, `x` and `\end{equation}` on three lines |
| Blocks.KindOf | assembler.py:317-435 | the branch a kind name takes: `text`, `table`, `code` or `listing` (one branch), and no branch exactly for the names without a renderer |
| Blocks.ContentBlock | assembler.py:315-435 | image, table, code, listing and equation blocks give their renderer's output followed by a line feed; a text block gives the inline treatment when it has `text`, otherwise the file treatment when it has `textPath`, otherwise nothing; unknown kinds give nothing |
| Blocks.ProcessContentBlock | assembler.py:315-435 | the dispatch computes the content-block definition, so each kind gets its own renderer as stated for `ContentBlock` |
| Blocks.SimpleLatexText | assembler.py:44-98 | ASCII text on one line with no reference, maths, citation or emphasis is escaped per character |
| Blocks.InlineHeadingEscapedOnce | assembler.py:324-337 | an inline `# w` becomes `\chapter{w}` |
| Blocks.FileHeadingFirstPass | assembler.py:353-387 | in a text file `# w` first becomes `\chapter{w}` |
| Blocks.CommandEscapedAgain | assembler.py:390 | the escaper then escapes that heading command's backslash and braces |
| Blocks.FileHeadingEscapedTwice | assembler.py:348-419 | a file heading `# w` ends up as `\textbackslash{}chapter\textbackslash{}{w\textbackslash{}}` |
| Pages.ProcessPage | assembler.py:437-508 | the fragment is the heading, each block in order and the reference comments, passed through the ASCII encoder |
| Pages.WriteBlocks | assembler.py:488-497 | the blocks' fragments are written in order |
| Pages.WriteReferences | assembler.py:500-505 | the comment header and one comment line per reference are written, and nothing when there are no references |
| Pages.ReferencesAreComments | assembler.py:500-505 | the reference lines are whole LaTeX comment lines whatever the references hold, provided none spans lines |
| Pages.HexRoundTrip | assembler.py:468 | reading back the hexadecimal digits of an escape gives the number whenever it fits |
| Pages.CharEscapeRoundTrip | assembler.py:468 | a non-ASCII character is written as a backslash, `x`, `u` or `U`, and digits denoting its code point |
| Pages.BackslashReplaceIsAscii | assembler.py:468 | whatever the fragment holds, the file is ASCII |
| Pages.BackslashReplaceAscii | assembler.py:468 | an ASCII fragment is written unchanged |
| Pages.AcuteEExample | assembler.py:468 | an `é` that the escaper leaves alone reaches the file as `\xe9` |
| Pages.Collect | assembler.py:530-537 | the merged identifiers are distinct and are exactly the dictionary's keys |
| Pages.LastWriterWins | assembler.py:530-537 | an identifier is present exactly when some counted reference has it, with the citation of the last one |
| Pages.OrderOfFirstInsertion | assembler.py:530-537 | later pages never reorder identifiers already stored |
| Pages.CollectReferences | assembler.py:530-537 | the merge loop computes the collection definition |
| Pages.BibEntry | assembler.py:546-552 | a citation that is already a BibTeX entry is written as it is, anything else becomes an `@misc` entry; each ends with a blank line |
| Pages.Bibliography | assembler.py:510-558 | there is no bibliography exactly when no reference has both an identifier and a citation |
| Transliterate.PolishLetter | compiler.py:47-92 | only 0xC4 and 0xC5 lead bytes are listed, each to non-empty ASCII LaTeX |
| Transliterate.TurnAt | compiler.py:38-99 | one turn copies an ASCII byte, translates a listed pair, or emits `?`, consuming one or two bytes |
| Transliterate.FixFragmentEncoding | compiler.py:38-99 | the compiler's byte loop computes the decoding definition |
| Transliterate.FixPageFile | create_ascii_thesis.py:33-111 | the ASCII builder's byte loop computes the decoding definition |
| Transliterate.AsciiPrefix | compiler.py:38-99 | ASCII bytes are copied unchanged and in order, whatever follows them |
| Transliterate.AsciiUnchanged | create_ascii_thesis.py:33-111 | ASCII input comes out of both loops unchanged |
| Transliterate.ListedPair | compiler.py:47-92 | a listed pair becomes its LaTeX letter and both bytes are consumed |
| Transliterate.UnlistedPair | compiler.py:90-92 | 0xC4 or 0xC5 before an unlisted byte gives one `?` for the pair |
| Transliterate.LeadSwallowsAscii | compiler.py:47-63 | a lead byte followed by the ASCII letter `a` loses the letter |
| Transliterate.OtherLeadByte | create_ascii_thesis.py:105-107 | any other byte from 128 up consumes only itself, as `?` in one loop and `\textbf{?}` in the other |
| Transliterate.TrailingHighByte | create_ascii_thesis.py:108-110 | a high byte in the last position gives `?` in both loops |
| Transliterate.OutputIsAscii | compiler.py:38-99 | both loops emit only ASCII |
| Transliterate.PageLonger | create_ascii_thesis.py:105-107 | the builder's output is longer by nine characters per other lead byte |
| Transliterate.LoopsAgree | create_ascii_thesis.py:33-111 | the two loops agree exactly when no other lead byte occurs |
| Transliterate.DecodeEncoded | compiler.py:38-99 | text made of ASCII and listed letters, encoded, comes out as its LaTeX rendering |
| Transliterate.PolishTextSameInBoth | create_ascii_thesis.py:33-111 | both loops render such text identically |
| Transliterate.TableAgainstUtf8 | compiler.py:64-89 | every listed pair is the UTF-8 form of its letter, except the two `ó` entries |
| Transliterate.GenuineOAcute | compiler.py:64-95 | the genuine UTF-8 `ó` is not recognised and becomes `??` |
| Fragments.NoMatchNoNumber | compiler.py:119 | there is no sort key exactly when `page_(\d+)` matches nowhere |
| Fragments.LeftmostMatch | compiler.py:119 | the key is the number captured by the leftmost match |
| Fragments.PageFileName | compiler.py:117-119 | a fragment name written for page `n` is kept and sorts under `n`, and its `_fixed` and `_ascii` copies are dropped |
| Fragments.KeptNames | compiler.py:117-118 | the kept names are exactly the listed names that pass the filter |
| Fragments.SortSorted | compiler.py:117-119 | the sort orders entries by page number |
| Fragments.SortStable | compiler.py:117-119 | entries with equal keys keep their order |
| Fragments.StableSortUnique | compiler.py:117-119 | any stable sort by page number gives this order |
| Fragments.FragmentOrder | compiler.py:117-119 | the sort fails exactly when some kept name has no page number |
| Fragments.FragmentOrderMembers | compiler.py:117-119 | the list is a permutation of the kept names |
| Fragments.FragmentOrderSorted | compiler.py:117-119 | the list ascends by page number |
| Fragments.FragmentOrderStable | compiler.py:117-119 | names with the same page number keep the listing's order |
| Png.BuildRawData | create_simple_image.py:36-66 | the nested loops compute the raw image data definition |
| Png.AppendRow | create_simple_image.py:39-66 | the inner loop appends the pixels of one row |
| Png.RawDataLength | create_simple_image.py:36-66 | the image data is `height` scanlines of `1 + 3 * width` bytes |
| Png.ImageLayout | create_simple_image.py:36-66 | each scanline starts with filter byte 0, and each pixel is black or white as the pattern says |
| Png.PixelLayout | create_simple_image.py:36-66 | the same layout, stated at the offset where the rows before row `y` end |
| Png.OnlyBlackAndWhite | create_simple_image.py:36-66 | every byte of the image data is 0x00 or 0xFF |
| Png.GridImage | create_simple_image.py:41-46 | in the grid, a pixel is black exactly on lines every 20 pixels, 2 wide |
| Png.CrossImage | create_simple_image.py:47-53 | in the cross, a pixel is black exactly on the central vertical and horizontal strokes |
| Png.FrameImage | create_simple_image.py:54-60 | in the frame, a pixel is black exactly in a band 10 pixels wide on the left and top and 9 pixels wide on the right and bottom, or strictly between a third and two thirds of the width and of the height (a rectangle when width and height differ) |
| Png.BorderImage | create_simple_image.py:61-66 | any other pattern gives a black border around a white image |
| Png.BigEndianRoundTrip | create_simple_image.py:33 | a packed 32-bit big-endian number reads back as itself |
| Png.ChunkFields | create_simple_image.py:29-33 | a chunk reads back as its length, type, data and the CRC of type and data |
| Png.IhdrFields | create_simple_image.py:73 | the header holds the width and height, bit depth 8, colour type 2 (RGB) and zero method fields |

## Left out

- File system access is a parameter or is left out. This covers the glob for a page's JSON files, `os.listdir`, the directory filters, `makedirs` and the file writes. `load_external_text` and the image path resolution are function parameters of the model.
- Pages.ProcessPage: models the one JSON file it processes. The source returns after the first file that `glob` yields, and returns false when there is none. That choice depends on the file system.
- JSON schema validation (`validate_json`) and logging are left out. Validation failure returning false is outside the model.
- Pages.ProcessPage: the source catches an exception from a content block and returns false, leaving a half-written file. The typed model has no such exceptions: a missing `type`, a `null` field and a non-string table cell cannot be expressed.
- Pages.WriteReferences: the `KeyError` on a reference without `id` or `citation` in the fragment writer is not modelled. A missing field is the empty string.
- Regular-expression classes are ASCII only. Python's `\d`, `\w` and `\s` on `str` also match other Unicode digits, letters and spaces.
- Transliterate.FixFragmentEncoding: models the bytes the loop sees and the string it builds. Reading the file, and writing it with `errors='replace'` to a derived output path, are left out. The output is ASCII, so that encoding changes nothing.
- Transliterate.FixPageFile: the builder's result is encoded to bytes. Since it is ASCII, the model keeps it as a string.
- Png: zlib compression and the CRC-32 are not modelled. The CRC is a parameter. The PNG signature, the IDAT and IEND chunks and the command line are left out. A width or height of 2^32 or more, where `struct.pack` raises, is excluded by `requires`. A negative width or height, where `struct.pack` also raises, is excluded by the `nat` type of the sizes.
- `assemble_all_pages`, `create_main_tex` apart from its fragment list, the LaTeX compilation and the scripts' main entry points are not part of this model.

=== FILE: blocks.dfy ===
/** Content blocks (`process_content_block` and the renderers it calls,
    assembler.py:212-435): text given inline or through a file, the list
    pass, figures, tables, code listings and equations. */
module Blocks {
  import opened Text
  import opened Escaper
  import opened Segmenter

  /** The `data` object of a block; `None` is a key that is not there. */
  datatype BlockData = BlockData(
    text: Option<string>, textPath: Option<string>, imagePath: Option<string>,
    caption: Option<string>, labelId: Option<string>, tableData: Option<seq<seq<string>>>,
    code: Option<string>, language: Option<string>, equation: Option<string>)

  datatype Block = Block(kind: string, data: BlockData)

  /** `data.get(key, default)`. */
  function Get(o: Option<string>, default: string): string {
    if o.Some? then o.value else default
  }

  // ---------------------------------------------------------------------
  // Headings

  /** The number of `#` characters `t` starts with. */
  function LeadingHashes(t: string): (n: nat)
    ensures n <= |t|
    ensures forall k :: 0 <= k < n ==> t[k] == '#'
    ensures n < |t| ==> t[n] != '#'
  {
    if t == [] || t[0] != '#' then 0 else 1 + LeadingHashes(t[1..])
  }

  lemma {:induction false} LeadingHashesUnique(t: string, n: nat)
    requires n <= |t| && (forall k :: 0 <= k < n ==> t[k] == '#') && (n < |t| ==> t[n] != '#')
    ensures n == LeadingHashes(t)
  {
    if n > 0 {
      LeadingHashesUnique(t[1..], n - 1);
    }
  }

  /** The loop that counts the heading level: one step per `#`, stopping
      at the first other character. */
  method CountLeadingHashes(t: string) returns (n: nat)
    ensures n == LeadingHashes(t)
  {
    n := 0;
    while n < |t| && t[n] == '#'
      invariant n <= |t| && forall k :: 0 <= k < n ==> t[k] == '#'
    {
      n := n + 1;
    }
    LeadingHashesUnique(t, n);
  }

  /** Levels 1 to 4 are chapter to subsubsection; deeper levels are paragraphs. */
  function HeadingCommand(level: int): string {
    if level == 1 then "\\chapter"
    else if level == 2 then "\\section"
    else if level == 3 then "\\subsection"
    else if level == 4 then "\\subsubsection"
    else "\\paragraph"
  }

  /** A heading command around the escaped text after the leading `#`s. */
  function Heading(t: string): string {
    var n := LeadingHashes(t);
    HeadingCommand(n) + "{" + LatexText(Strip(t[n..])) + "}"
  }

  /** Text given inline: a heading when it starts with `#`, otherwise
      escaped text; a blank line follows either way. */
  function InlineText(t: string): string {
    if StartsWith(t, "#") then Heading(t) + "\n\n" else LatexText(t) + "\n\n"
  }

  /** One line of a text file: a line whose stripped form starts with `#`
      becomes a heading, any other line is kept. */
  function HeadingLine(line: string): string {
    var st := Strip(line);
    if StartsWith(st, "#") then Heading(st) else line
  }

  function HeadingLines(lines: seq<string>): (r: seq<string>)
    ensures |r| == |lines|
  {
    if lines == [] then [] else HeadingLines(lines[..|lines| - 1]) + [HeadingLine(lines[|lines| - 1])]
  }

  // ---------------------------------------------------------------------
  // The list pass

  /** A line of converted text as the list pass sees it: a list line
      (its stripped form starts with a dash and a space) carrying what
      follows the dash and the space, or any other line. */
  datatype Line = Item(body: string) | Other(text: string)

  function Classify(line: string): Line {
    var st := Strip(line);
    if StartsWith(st, "- ") then Item(st[2..]) else Other(line)
  }

  function Classified(lines: seq<string>): (cs: seq<Line>)
    ensures |cs| == |lines|
    ensures forall k :: 0 <= k < |lines| ==> cs[k] == Classify(lines[k])
  {
    seq(|lines|, k requires 0 <= k < |lines| => Classify(lines[k]))
  }

  const BeginItemize: string := "\\begin{itemize}"
  const EndItemize: string := "\\end{itemize}"

  function ItemLine(l: Line): string
    requires l.Item?
  {
    "\\item " + l.body
  }

  /** End of the run of list lines starting at `i`. */
  function RunEnd(cs: seq<Line>, i: nat): (n: nat)
    requires i <= |cs|
    ensures i <= n <= |cs|
    ensures forall k :: i <= k < n ==> cs[k].Item?
    ensures n < |cs| ==> cs[n].Other?
    decreases |cs| - i
  {
    if i == |cs| || cs[i].Other? then i else RunEnd(cs, i + 1)
  }

  function ItemLines(cs: seq<Line>, i: nat, n: nat): seq<string>
    requires i <= n <= |cs| && forall k :: i <= k < n ==> cs[k].Item?
    decreases n - i
  {
    if i == n then [] else [ItemLine(cs[i])] + ItemLines(cs, i + 1, n)
  }

  /** The lines after the list pass, from line `i` on: a maximal run of list
      lines becomes an itemize environment with one item per line, any
      other line is copied. */
  function Itemize(cs: seq<Line>, i: nat): seq<string>
    requires i <= |cs|
    decreases |cs| - i
  {
    if i == |cs| then []
    else if cs[i].Item? then
      var n := RunEnd(cs, i);
      [BeginItemize] + ItemLines(cs, i, n) + [EndItemize] + Itemize(cs, n)
    else [cs[i].text] + Itemize(cs, i + 1)
  }

  /** The list pass: an outer loop over the lines and an inner loop over
      each run of list lines. Whether a line is a list line depends on that
      line alone, so the lines are classified first. */
  method ListPass(lines: seq<string>) returns (out: seq<string>)
    ensures out == Itemize(Classified(lines), 0)
  {
    out := ItemizeLines(Classified(lines));
  }

  method ItemizeLines(cs: seq<Line>) returns (out: seq<string>)
    ensures out == Itemize(cs, 0)
  {
    out := [];
    var i := 0;
    while i < |cs|
      invariant i <= |cs|
      invariant out + Itemize(cs, i) == Itemize(cs, 0)
      decreases |cs| - i
    {
      if cs[i].Item? {
        ghost var start := i;
        var items, n := ItemRun(cs, i);
        ItemizeRun(cs, start);
        ghost var before := out;
        out := out + (items + [EndItemize]);
        LinesRegroup(before, items + [EndItemize], Itemize(cs, n));
        i := n;
      } else {
        ghost var before := out;
        out := out + [cs[i].text];
        LinesRegroup(before, [cs[i].text], Itemize(cs, i + 1));
        i := i + 1;
      }
    }
  }

  /** The inner loop: the opening line and the items of the run that starts at `start`. */
  method ItemRun(cs: seq<Line>, start: nat) returns (items: seq<string>, n: nat)
    requires start < |cs| && cs[start].Item?
    ensures n == RunEnd(cs, start)
    ensures items == [BeginItemize] + ItemLines(cs, start, n)
  {
    ghost var end := RunEnd(cs, start);
    items := [BeginItemize];
    n := start;
    while n < |cs| && cs[n].Item?
      invariant start <= n <= end
      invariant items + ItemLines(cs, n, end) == [BeginItemize] + ItemLines(cs, start, end)
      decreases |cs| - n
    {
      ItemLinesStep(cs, n, end);
      ghost var before := items;
      items := items + [ItemLine(cs[n])];
      LinesRegroup(before, [ItemLine(cs[n])], ItemLines(cs, n + 1, end));
      n := n + 1;
    }
    assert ItemLines(cs, n, end) == [];
  }

  lemma {:induction false} LinesRegroup(a: seq<string>, b: seq<string>, c: seq<string>)
    ensures a + b + c == a + (b + c)
  {
  }

  lemma {:induction false} ItemLinesStep(cs: seq<Line>, i: nat, n: nat)
    requires i < n <= |cs| && forall k :: i <= k < n ==> cs[k].Item?
    ensures ItemLines(cs, i, n) == [ItemLine(cs[i])] + ItemLines(cs, i + 1, n)
  {
  }

  lemma {:induction false} ItemizeRun(cs: seq<Line>, i: nat)
    requires i < |cs| && cs[i].Item?
    ensures Itemize(cs, i) == ([BeginItemize] + ItemLines(cs, i, RunEnd(cs, i)) + [EndItemize]) + Itemize(cs, RunEnd(cs, i))
  {
  }

  /** What line `k` contributes, judged from it and its two neighbours: an
      opening line before the first line of a run, the line itself or its
      item, and a closing line after the last line of a run. */
  function Emit(cs: seq<Line>, k: nat): seq<string>
    requires k < |cs|
  {
    if cs[k].Item? then
      (if k == 0 || cs[k - 1].Other? then [BeginItemize] else []) +
      [ItemLine(cs[k])] +
      (if k + 1 == |cs| || cs[k + 1].Other? then [EndItemize] else [])
    else [cs[k].text]
  }

  function EmitFrom(cs: seq<Line>, i: nat): seq<string>
    requires i <= |cs|
    decreases |cs| - i
  {
    if i == |cs| then [] else Emit(cs, i) + EmitFrom(cs, i + 1)
  }

  lemma {:induction false} RunEmits(cs: seq<Line>, j: nat, n: nat)
    requires 0 < j <= |cs| && n == RunEnd(cs, j) && cs[j - 1].Item?
    ensures EmitFrom(cs, j) == ItemLines(cs, j, n) + (if j < n then [EndItemize] else []) + EmitFrom(cs, n)
    decreases n - j
  {
    if j < n {
      RunEmits(cs, j + 1, n);
      ItemLinesStep(cs, j, n);
      var tail: seq<string> := if j + 1 < n then [] else [EndItemize];
      var close: seq<string> := if j + 1 < n then [EndItemize] else [];
      var items := ItemLines(cs, j + 1, n);
      var rest := EmitFrom(cs, n);
      assert EmitFrom(cs, j + 1) == items + close + rest;
      assert Emit(cs, j) == [ItemLine(cs[j])] + tail;
      assert EmitFrom(cs, j) == ([ItemLine(cs[j])] + tail) + EmitFrom(cs, j + 1);
      RunRegroup([ItemLine(cs[j])], tail, items, close, rest);
    } else {
      assert ItemLines(cs, j, n) == [];
    }
  }

  /** Regrouping the pieces of a run after its first line: the closing
      line comes either after the current line or after the rest of the run. */
  lemma {:induction false} RunRegroup(x: seq<string>, tail: seq<string>, items: seq<string>, close: seq<string>, rest: seq<string>)
    requires (tail == [] && close == [EndItemize]) || (tail == [EndItemize] && items == [] && close == [])
    ensures (x + tail) + (items + close + rest) == (x + items) + [EndItemize] + rest
  {
  }

  /** The list pass is a line-by-line rewrite: each output piece depends
      only on a line and its neighbours. */
  lemma {:induction false} ItemizeIsLocal(cs: seq<Line>, i: nat)
    requires i <= |cs| && (0 < i < |cs| && cs[i].Item? ==> cs[i - 1].Other?)
    ensures Itemize(cs, i) == EmitFrom(cs, i)
    decreases |cs| - i
  {
    if i < |cs| {
      if cs[i].Item? {
        var n := RunEnd(cs, i);
        ItemizeIsLocal(cs, n);
        RunStartEmits(cs, i);
      } else {
        ItemizeIsLocal(cs, i + 1);
      }
    }
  }

  lemma {:induction false} RunStartEmits(cs: seq<Line>, i: nat)
    requires i < |cs| && cs[i].Item? && (i > 0 ==> cs[i - 1].Other?)
    ensures EmitFrom(cs, i) == [BeginItemize] + ItemLines(cs, i, RunEnd(cs, i)) + [EndItemize] + EmitFrom(cs, RunEnd(cs, i))
  {
    var n := RunEnd(cs, i);
    assert n == RunEnd(cs, i + 1);
    RunEmits(cs, i + 1, n);
    ItemLinesStep(cs, i, n);
    var tail: seq<string> := if i + 1 < n then [] else [EndItemize];
    var close: seq<string> := if i + 1 < n then [EndItemize] else [];
    assert Emit(cs, i) == [BeginItemize] + [ItemLine(cs[i])] + tail;
    EmitRegroup([BeginItemize], [ItemLine(cs[i])], tail, ItemLines(cs, i + 1, n), close, EmitFrom(cs, n));
  }

  /** Regrouping the pieces around the first line of a run: the closing
      line comes either after that line or after the rest of the run. */
  lemma {:induction false} EmitRegroup(b: seq<string>, x: seq<string>, tail: seq<string>, items: seq<string>, close: seq<string>, rest: seq<string>)
    requires (tail == [] && close == [EndItemize]) || (tail == [EndItemize] && items == [] && close == [])
    ensures (b + x + tail) + (items + close + rest) == b + (x + items) + [EndItemize] + rest
  {
  }

  /** Number of list lines from `i` on that open a run. */
  function RunStarts(cs: seq<Line>, i: nat): nat
    requires i <= |cs|
    decreases |cs| - i
  {
    if i == |cs| then 0
    else (if cs[i].Item? && (i == 0 || !cs[i - 1].Item?) then 1 else 0) + RunStarts(cs, i + 1)
  }

  /** Number of list lines from `i` on that close a run. */
  function RunEnds(cs: seq<Line>, i: nat): nat
    requires i <= |cs|
    decreases |cs| - i
  {
    if i == |cs| then 0
    else (if cs[i].Item? && (i + 1 == |cs| || cs[i + 1].Other?) then 1 else 0) + RunEnds(cs, i + 1)
  }

  /** Every run that is opened is closed; starting inside a run sees one
      more close than opening. */
  lemma {:induction false} RunsBalance(cs: seq<Line>, i: nat)
    requires i <= |cs|
    ensures RunEnds(cs, i) == RunStarts(cs, i)
      + (if 0 < i < |cs| && cs[i - 1].Item? && cs[i].Item? then 1 else 0)
    decreases |cs| - i
  {
    if i < |cs| {
      RunsBalance(cs, i + 1);
    }
  }

  lemma {:induction false} EmitLength(cs: seq<Line>, i: nat)
    requires i <= |cs|
    ensures |EmitFrom(cs, i)| == |cs| - i + RunStarts(cs, i) + RunEnds(cs, i)
    decreases |cs| - i
  {
    if i < |cs| {
      EmitLength(cs, i + 1);
    }
  }

  /** The list pass keeps one line per input line and adds an opening and
      a closing line per run of list lines. */
  lemma {:induction false} ListPassLength(cs: seq<Line>)
    ensures |Itemize(cs, 0)| == |cs| + 2 * RunStarts(cs, 0)
  {
    ItemizeIsLocal(cs, 0);
    EmitLength(cs, 0);
    RunsBalance(cs, 0);
  }

  /** Output lines of the list pass that start with `\item `. */
  function CountItemLines(out: seq<string>): nat {
    if out == [] then 0 else (if StartsWith(out[0], "\\item ") then 1 else 0) + CountItemLines(out[1..])
  }

  function CountItems(cs: seq<Line>, i: nat): nat
    requires i <= |cs|
    decreases |cs| - i
  {
    if i == |cs| then 0 else (if cs[i].Item? then 1 else 0) + CountItems(cs, i + 1)
  }

  lemma {:induction false} CountItemLinesAppend(a: seq<string>, b: seq<string>)
    ensures CountItemLines(a + b) == CountItemLines(a) + CountItemLines(b)
  {
    if a == [] {
      assert a + b == b;
    } else {
      assert (a + b)[0] == a[0];
      assert (a + b)[1..] == a[1..] + b;
      CountItemLinesAppend(a[1..], b);
    }
  }

  lemma {:induction false} CountSingle(x: string)
    ensures CountItemLines([x]) == if StartsWith(x, "\\item ") then 1 else 0
  {
    assert [x][1..] == [];
  }

  lemma {:induction false} EmitCountsItems(cs: seq<Line>, i: nat)
    requires i <= |cs|
    requires forall k :: 0 <= k < |cs| && cs[k].Other? ==> !StartsWith(cs[k].text, "\\item ")
    ensures CountItemLines(EmitFrom(cs, i)) == CountItems(cs, i)
    decreases |cs| - i
  {
    if i < |cs| {
      EmitCountsItems(cs, i + 1);
      CountItemLinesAppend(Emit(cs, i), EmitFrom(cs, i + 1));
      if cs[i].Item? {
        EmitItemCount(cs, i);
      } else {
        CountSingle(cs[i].text);
      }
    }
  }

  /** A list line contributes exactly one `\item` line, whatever opening
      or closing line comes with it. */
  lemma {:induction false} EmitItemCount(cs: seq<Line>, i: nat)
    requires i < |cs| && cs[i].Item?
    ensures CountItemLines(Emit(cs, i)) == 1
  {
    var pre := if i == 0 || cs[i - 1].Other? then [BeginItemize] else [];
    var post := if i + 1 == |cs| || cs[i + 1].Other? then [EndItemize] else [];
    assert Emit(cs, i) == pre + ([ItemLine(cs[i])] + post);
    CountItemLinesAppend(pre, [ItemLine(cs[i])] + post);
    CountItemLinesAppend([ItemLine(cs[i])], post);
    CountSingle(ItemLine(cs[i]));
    ConcatEnds("\\item ", cs[i].body);
    if pre != [] {
      CountSingle(BeginItemize);
      assert BeginItemize[1] != "\\item "[1];
    }
    if post != [] {
      CountSingle(EndItemize);
      assert EndItemize[1] != "\\item "[1];
    }
  }

  /** When no line outside a list already reads `\item `, the list pass
      produces exactly one `\item` line per list line. */
  lemma {:induction false} ItemPerListLine(cs: seq<Line>)
    requires forall k :: 0 <= k < |cs| && cs[k].Other? ==> !StartsWith(cs[k].text, "\\item ")
    ensures CountItemLines(Itemize(cs, 0)) == CountItems(cs, 0)
  {
    ItemizeIsLocal(cs, 0);
    EmitCountsItems(cs, 0);
  }

  // ---------------------------------------------------------------------
  // Text blocks

  /** Text read from a file: headings line by line, the whole text escaped
      again, then the list pass; no blank line is appended. */
  function FileText(external: string): string {
    var processed := Join(HeadingLines(Split(external, '\n')), '\n');
    Join(Itemize(Classified(Split(LatexText(processed), '\n')), 0), '\n')
  }

  method HeadingLineOf(line: string) returns (h: string)
    ensures h == HeadingLine(line)
  {
    var st := Strip(line);
    if StartsWith(st, "#") {
      var level := CountLeadingHashes(st);
      var content := CreateLatexText(Strip(st[level..]));
      h := HeadingCommand(level) + "{" + content + "}";
    } else {
      h := line;
    }
  }

  method ProcessInlineText(t: string) returns (r: string)
    ensures r == InlineText(t)
  {
    if StartsWith(t, "#") {
      var level := CountLeadingHashes(t);
      var content := CreateLatexText(Strip(t[level..]));
      r := HeadingCommand(level) + "{" + content + "}" + "\n\n";
    } else {
      var body := CreateLatexText(t);
      r := body + "\n\n";
    }
  }

  method ProcessFileText(external: string) returns (r: string)
    ensures r == FileText(external)
  {
    var lines := Split(external, '\n');
    var processed: seq<string> := [];
    for k := 0 to |lines|
      invariant processed == HeadingLines(lines[..k])
    {
      var h := HeadingLineOf(lines[k]);
      HeadingLinesSnoc(lines, k);
      processed := processed + [h];
    }
    assert lines[..|lines|] == lines;
    var result := CreateLatexText(Join(processed, '\n'));
    var final := ListPass(Split(result, '\n'));
    r := Join(final, '\n');
  }

  // ---------------------------------------------------------------------
  // Renderers

  /** The caption line (escaped) and the label line (as given), each only
      when its field is non-empty. */
  function CaptionAndLabel(caption: string, labelId: string): (r: string)
    ensures r == [] <==> caption == [] && labelId == []
    ensures caption != [] ==> StartsWith(r, "\\caption{" + LatexText(caption) + "}\n")
    ensures labelId != [] ==> EndsWith(r, "\\label{" + labelId + "}\n")
    ensures caption == [] ==> r == (if labelId != [] then "\\label{" + labelId + "}\n" else "")
    ensures labelId == [] ==> r == (if caption != [] then "\\caption{" + LatexText(caption) + "}\n" else "")
  {
    var captionLine := if caption != [] then "\\caption{" + LatexText(caption) + "}\n" else "";
    var labelLine := if labelId != [] then "\\label{" + labelId + "}\n" else "";
    ConcatEnds(captionLine, labelLine);
    assert caption == [] ==> captionLine + labelLine == labelLine;
    assert labelId == [] ==> captionLine + labelLine == captionLine;
    captionLine + labelLine
  }

  /** When the rendered caption and the label are one line each, the
      caption and label text splits into the caption line when a caption is
      given, then the label line when a label is given, and nothing else. */
  lemma {:induction false} CaptionLines(caption: string, labelId: string)
    requires '\n' !in LatexText(caption) && '\n' !in labelId
    ensures Split(CaptionAndLabel(caption, labelId), '\n') ==
      (if caption != [] then ["\\caption{" + LatexText(caption) + "}"] else []) +
      (if labelId != [] then ["\\label{" + labelId + "}"] else []) + [""]
  {
    CaptionTextLines(caption != [], LatexText(caption), labelId);
  }

  /** CaptionLines over the rendered caption text. */
  lemma {:induction false} CaptionTextLines(given: bool, t: string, labelId: string)
    requires '\n' !in t && '\n' !in labelId
    ensures Split((if given then "\\caption{" + t + "}\n" else "") +
                  (if labelId != [] then "\\label{" + labelId + "}\n" else ""), '\n') ==
      (if given then ["\\caption{" + t + "}"] else []) +
      (if labelId != [] then ["\\label{" + labelId + "}"] else []) + [""]
  {
    var c, l := "\\caption{" + t + "}", "\\label{" + labelId + "}";
    Bracketed("\\caption{", t);
    Bracketed("\\label{", labelId);
    var captionLine := if given then c + "\n" else "";
    var labelLine := if labelId != [] then l + "\n" else "";
    assert c + "\n" == "\\caption{" + t + "}\n";
    assert l + "\n" == "\\label{" + labelId + "}\n";
    OptionalLines(captionLine, c, labelLine, l);
  }

  /** A command opening without a line feed, one-line text and a closing
      brace make one line. */
  lemma {:induction false} Bracketed(opening: string, t: string)
    requires forall i :: 0 <= i < |opening| ==> opening[i] != '\n'
    requires '\n' !in t
    ensures '\n' !in opening + t + "}"
  {
    var s := opening + t + "}";
    forall i | 0 <= i < |s| ensures s[i] != '\n' {
      if i < |opening| {
        assert s[i] == opening[i];
      } else if i < |opening| + |t| {
        assert s[i] == t[i - |opening|];
      }
    }
  }

  /** Two optional lines, each ended by a line feed, split into those lines
      and an empty rest. */
  lemma {:induction false} OptionalLines(first: string, a: string, second: string, b: string)
    requires '\n' !in a && '\n' !in b
    requires (first == [] || first == a + "\n") && (second == [] || second == b + "\n")
    ensures Split(first + second, '\n') ==
      (if first != [] then [a] else []) + (if second != [] then [b] else []) + [""]
  {
    assert Split([], '\n') == [[]];
    if second != [] {
      LeadLine(b, []);
      assert b + "\n" + [] == second;
    }
    if first != [] {
      LeadLine(a, second);
      assert a + "\n" + second == first + second;
    } else {
      assert first + second == second;
    }
  }

  const FigureHead: string := "\\begin{figure}[htbp]\n\\centering\n"

  function FigureOpening(resolved: string): string {
    FigureHead + "\\includegraphics[width=0.8\\textwidth]{" + resolved + "}\n"
  }

  /** A figure; `resolved` is the image path relative to the build directory.
      The caption and label lines sit between the include line and the
      closing line. */
  function FigureLatex(resolved: string, caption: string, labelId: string): (r: string)
    ensures StartsWith(r, FigureOpening(resolved))
    ensures EndsWith(r, "\\end{figure}\n")
    ensures |r| == |FigureOpening(resolved)| + |CaptionAndLabel(caption, labelId)| + |"\\end{figure}\n"|
    ensures OccursAt(r, CaptionAndLabel(caption, labelId), |FigureOpening(resolved)|)
  {
    var head := FigureOpening(resolved);
    var body := head + CaptionAndLabel(caption, labelId);
    ConcatEnds(head, CaptionAndLabel(caption, labelId));
    StartsWithConcat(body, "\\end{figure}\n", head);
    ConcatEnds(body, "\\end{figure}\n");
    Middle(head, CaptionAndLabel(caption, labelId), "\\end{figure}\n");
    body + "\\end{figure}\n"
  }

  /** `'|'.join(['c'] * n)`. */
  function ColumnSpec(n: nat): string {
    Join(seq(n, _ => "c"), '|')
  }

  /** The column specification names one centred column per cell of the
      first row. */
  lemma {:induction false} ColumnSpecColumns(n: nat)
    requires n > 0
    ensures Split(ColumnSpec(n), '|') == seq(n, _ => "c")
  {
    var cols := seq(n, _ => "c");
    forall p | p in cols ensures '|' !in p {
    }
    SplitJoin(cols, '|');
  }

  /** `sep.join(parts)` for a separator of any length. */
  function JoinWith(parts: seq<string>, sep: string): string {
    if parts == [] then []
    else if |parts| == 1 then parts[0]
    else parts[0] + sep + JoinWith(parts[1..], sep)
  }

  /** One table row: escaped cells separated by ` & `, then the row end. */
  function RowLatex(row: seq<string>): string {
    JoinWith(seq(|row|, k requires 0 <= k < |row| => LatexText(row[k])), " & ") + " \\\\ \\hline\n"
  }

  function TableRows(rows: seq<seq<string>>): string {
    if rows == [] then [] else TableRows(rows[..|rows| - 1]) + RowLatex(rows[|rows| - 1])
  }

  function TableHead(columns: nat): string {
    "\\begin{table}[htbp]\n\\centering\n" + "\\begin{tabular}{" + ColumnSpec(columns) + "}\n\\hline\n"
  }

  lemma {:induction false} TextRegroup(a: string, b: string, c: string)
    ensures a + b + c == a + (b + c)
  {
  }

  lemma {:induction false} TableRowsStep(rows: seq<seq<string>>, k: nat)
    requires k < |rows|
    ensures TableRows(rows[..k + 1]) == TableRows(rows[..k]) + RowLatex(rows[k])
  {
    assert rows[..k + 1][..k] == rows[..k];
  }

  function TableOpening(rows: seq<seq<string>>): string
    requires rows != []
  {
    TableHead(|rows[0]|) + TableRows(rows) + "\\end{tabular}\n"
  }

  /** A table; no table at all when there are no rows. The caption and
      label lines sit between the tabular and the closing line. */
  function TableLatex(rows: seq<seq<string>>, caption: string, labelId: string): (r: string)
    ensures r == [] <==> rows == []
    ensures rows != [] ==> StartsWith(r, TableOpening(rows))
    ensures rows != [] ==> EndsWith(r, "\\end{table}\n")
    ensures rows != [] ==> |r| == |TableOpening(rows)| + |CaptionAndLabel(caption, labelId)| + |"\\end{table}\n"|
    ensures rows != [] ==> OccursAt(r, CaptionAndLabel(caption, labelId), |TableOpening(rows)|)
  {
    if rows == [] then ""
    else
      var head := TableOpening(rows);
      var body := head + CaptionAndLabel(caption, labelId);
      ConcatEnds(head, CaptionAndLabel(caption, labelId));
      StartsWithConcat(body, "\\end{table}\n", head);
      ConcatEnds(body, "\\end{table}\n");
      Middle(head, CaptionAndLabel(caption, labelId), "\\end{table}\n");
      body + "\\end{table}\n"
  }

  /** The table builder: the rows are appended one by one. */
  method ProcessTable(rows: seq<seq<string>>, caption: string, labelId: string) returns (r: string)
    ensures r == TableLatex(rows, caption, labelId)
  {
    if rows == [] {
      return "";
    }
    r := TableHead(|rows[0]|);
    for k := 0 to |rows|
      invariant r == TableHead(|rows[0]|) + TableRows(rows[..k])
    {
      TableRowsStep(rows, k);
      var row := RowLatex(rows[k]);
      TextRegroup(TableHead(|rows[0]|), TableRows(rows[..k]), row);
      r := r + row;
    }
    assert rows[..|rows|] == rows;
    r := r + "\\end{tabular}\n" + CaptionAndLabel(caption, labelId) + "\\end{table}\n";
  }

  function CodeHead(language: string): string {
    "\\begin{listing}[H]\n" + "\\begin{minted}[breaklines, linenos]{" + language + "}\n"
  }

  function CodeOpening(code: string, language: string): string {
    CodeHead(language) + code + "\n" + "\\end{minted}\n"
  }

  /** A code listing: the code is copied as it is, on lines of its own. The
      caption and label lines sit between the minted block and the closing
      line. */
  function CodeLatex(code: string, language: string, caption: string, labelId: string): (r: string)
    ensures StartsWith(r, CodeOpening(code, language))
    ensures EndsWith(r, "\\end{listing}\n")
    ensures |r| == |CodeOpening(code, language)| + |CaptionAndLabel(caption, labelId)| + |"\\end{listing}\n"|
    ensures OccursAt(r, CaptionAndLabel(caption, labelId), |CodeOpening(code, language)|)
  {
    var head := CodeOpening(code, language);
    var tail := CaptionAndLabel(caption, labelId) + "\\end{listing}\n";
    ConcatEnds(head, tail);
    ConcatEnds(CaptionAndLabel(caption, labelId), "\\end{listing}\n");
    EndsWithConcat(head, tail, "\\end{listing}\n");
    Middle(head, CaptionAndLabel(caption, labelId), "\\end{listing}\n");
    assert head + tail == head + CaptionAndLabel(caption, labelId) + "\\end{listing}\n";
    head + tail
  }

  /** An equation: the label line, when there is one, follows the opening
      line, and the equation is copied as it is right after it. */
  function EquationLatex(equation: string, labelId: string): (r: string)
    ensures StartsWith(r, "\\begin{equation}\n")
    ensures labelId != [] ==> OccursAt(r, "\\label{" + labelId + "}\n", |"\\begin{equation}\n"|)
    ensures EndsWith(r, equation + "\n\\end{equation}\n")
    ensures |r| == |"\\begin{equation}\n"| + (if labelId != [] then |labelId| + 9 else 0) + |equation| + |"\n\\end{equation}\n"|
  {
    var head := "\\begin{equation}" + "\n";
    var labelLine := if labelId != [] then "\\label{" + labelId + "}" + "\n" else "";
    var tail := equation + "\n" + "\\end{equation}" + "\n";
    ConcatEnds(head, labelLine);
    StartsWithConcat(head + labelLine, tail, head);
    ConcatEnds(head + labelLine, tail);
    if labelId != [] then
      assert (head + labelLine + tail)[|head|..|head| + |labelLine|] == labelLine;
      head + labelLine + tail
    else head + labelLine + tail
  }

  /** On one-line fields the equation environment has no blank line: the
      opening line, the label line when given, the equation, the closing
      line. */
  lemma {:induction false} EquationLines(equation: string, labelId: string)
    requires '\n' !in equation && '\n' !in labelId
    ensures Split(EquationLatex(equation, labelId), '\n') ==
      ["\\begin{equation}"] + (if labelId != [] then ["\\label{" + labelId + "}"] else []) +
      [equation, "\\end{equation}", ""]
  {
    var b, labelText := "\\begin{equation}", "\\label{" + labelId + "}";
    var labelLine := if labelId != [] then labelText + "\n" else "";
    var body := equation + "\n" + "\\end{equation}" + "\n";
    assert EquationLatex(equation, labelId) == b + "\n" + labelLine + body;
    assert '\n' !in b && '\n' !in labelText;
    HeadLines(b, labelLine, labelText, body);
    EquationBodyLines(equation);
  }

  /** An opening line and an optional second line split off in front of the rest. */
  lemma {:induction false} HeadLines(first: string, second: string, text: string, rest: string)
    requires '\n' !in first && '\n' !in text && (second == [] || second == text + "\n")
    ensures Split(first + "\n" + second + rest, '\n') ==
      [first] + (if second != [] then [text] else []) + Split(rest, '\n')
  {
    if second == [] {
      assert first + "\n" + second + rest == first + "\n" + rest;
      LeadLine(first, rest);
    } else {
      assert first + "\n" + second + rest == first + "\n" + (text + "\n" + rest);
      LeadLine(first, text + "\n" + rest);
      LeadLine(text, rest);
    }
  }

  /** A first line without a line feed splits off as one element. */
  lemma {:induction false} LeadLine(first: string, rest: string)
    requires '\n' !in first
    ensures Split(first + "\n" + rest, '\n') == [first] + Split(rest, '\n')
  {
    SplitPrefix(first, rest, '\n');
    assert first + "\n" + rest == first + ("\n" + rest);
  }

  lemma {:induction false} EquationBodyLines(equation: string)
    requires '\n' !in equation
    ensures Split(equation + "\n" + "\\end{equation}" + "\n", '\n') == [equation, "\\end{equation}", ""]
  {
    assert '\n' !in "\\end{equation}";
    TwoLines(equation, "\\end{equation}");
  }

  /** Two lines, each ended by a line feed, split into the two lines and an empty rest. */
  lemma {:induction false} TwoLines(a: string, c: string)
    requires '\n' !in a && '\n' !in c
    ensures Split(a + "\n" + c + "\n", '\n') == [a, c, []]
  {
    LeadLine(c, []);
    assert c + "\n" + [] == c + "\n";
    assert Split([], '\n') == [[]];
    LeadLine(a, c + "\n");
    assert a + "\n" + (c + "\n") == a + "\n" + c + "\n";
  }

  /** The equation `x` without a label gives three lines and no blank one. */
  lemma EquationExample()
    ensures EquationLatex("x", "") == "\\begin{equation}\nx\n\\end{equation}\n"
  {
    var r := EquationLatex("x", "");
    assert r == "\\begin{equation}" + "\n" + "" + ("x" + "\n" + "\\end{equation}" + "\n");
  }

  // ---------------------------------------------------------------------
  // Dispatch

  /** The block kinds that have a renderer. */
  predicate IsRendered(kind: string) {
    kind == "image" || kind == "table" || kind == "code" || kind == "equation" || kind == "listing"
  }

  /** The branches of the dispatcher, one per kind name it tests for. */
  datatype BlockKind = TextKind | ImageKind | TableKind | CodeKind | EquationKind | UnknownKind

  /** Which branch a kind name takes; `listing` shares the code branch. */
  function KindOf(kind: string): (k: BlockKind)
    ensures k == TextKind <==> kind == "text"
    ensures k == ImageKind <==> kind == "image"
    ensures k == EquationKind <==> kind == "equation"
    ensures k == TableKind <==> kind == "table"
    ensures k == CodeKind <==> kind == "code" || kind == "listing"
    ensures k == UnknownKind <==> kind != "text" && !IsRendered(kind)
  {
    if kind == "text" then TextKind
    else if kind == "image" then ImageKind
    else if kind == "table" then TableKind
    else if kind == "code" || kind == "listing" then CodeKind
    else if kind == "equation" then EquationKind
    else UnknownKind
  }

  function Rows(d: BlockData): seq<seq<string>> {
    if d.tableData.Some? then d.tableData.value else []
  }

  /** `process_content_block`. `load` gives the text of the file a text
      block names, `resolve` the path of an image relative to the build
      directory. */
  function ContentBlock(b: Block, load: string -> string, resolve: string -> string): (r: string)
    ensures b.kind != "text" && !IsRendered(b.kind) ==> r == ""
    ensures IsRendered(b.kind) ==> EndsWith(r, "\n")
    ensures b.kind == "table" && Rows(b.data) == [] ==> r == "\n"
    ensures b.kind == "code" || b.kind == "listing" ==>
      r == CodeLatex(Get(b.data.code, ""), Get(b.data.language, "text"), Get(b.data.caption, ""), Get(b.data.labelId, "")) + "\n"
    ensures b.kind == "text" && b.data.text.Some? ==> r == InlineText(b.data.text.value)
    ensures b.kind == "text" && b.data.text.None? && b.data.textPath.Some? ==> r == FileText(load(b.data.textPath.value))
    ensures b.kind == "text" && b.data.text.None? && b.data.textPath.None? ==> r == ""
    ensures b.kind == "image" ==>
      r == FigureLatex(resolve(Get(b.data.imagePath, "")), Get(b.data.caption, ""), Get(b.data.labelId, "")) + "\n"
    ensures b.kind == "table" ==> r == TableLatex(Rows(b.data), Get(b.data.caption, ""), Get(b.data.labelId, "")) + "\n"
    ensures b.kind == "equation" ==> r == EquationLatex(Get(b.data.equation, ""), Get(b.data.labelId, "")) + "\n"
  {
    var d := b.data;
    var caption := Get(d.caption, "");
    var labelId := Get(d.labelId, "");
    match KindOf(b.kind)
    case TextKind =>
      if d.text.Some? then InlineText(d.text.value)
      else if d.textPath.Some? then FileText(load(d.textPath.value))
      else ""
    case ImageKind => WithNewline(FigureLatex(resolve(Get(d.imagePath, "")), caption, labelId))
    case TableKind => WithNewline(TableLatex(Rows(d), caption, labelId))
    case CodeKind => WithNewline(CodeLatex(Get(d.code, ""), Get(d.language, "text"), caption, labelId))
    case EquationKind => WithNewline(EquationLatex(Get(d.equation, ""), labelId))
    case UnknownKind => ""
  }

  /** A rendered block followed by the blank line the dispatcher adds. */
  function WithNewline(s: string): (r: string)
    ensures |r| == |s| + 1 && r[..|s|] == s && EndsWith(r, "\n")
  {
    s + "\n"
  }

  method ProcessContentBlock(b: Block, load: string -> string, resolve: string -> string) returns (r: string)
    ensures r == ContentBlock(b, load, resolve)
  {
    var d := b.data;
    if b.kind == "text" {
      if d.text.Some? {
        r := ProcessInlineText(d.text.value);
      } else if d.textPath.Some? {
        r := ProcessFileText(load(d.textPath.value));
      } else {
        r := "";
      }
    } else if b.kind == "table" {
      r := ProcessTable(Rows(d), Get(d.caption, ""), Get(d.labelId, ""));
      r := r + "\n";
    } else {
      r := ContentBlock(b, load, resolve);
    }
  }

  // ---------------------------------------------------------------------
  // Headings given inline and headings read from a file

  lemma {:induction false} ScanAbsent(s: string, open: string, close: char, kind: Kind, i: nat)
    requires i <= |s| && forall j: nat :: !OccursAt(s, open, j)
    ensures Scan(s, open, close, kind, i) == []
    decreases |s| - i
  {
    if i < |s| {
      ScanAbsent(s, open, close, kind, i + 1);
    }
  }

  /** Text with no reference, no dollar, no bracket, no asterisk, no line
      feed and only ASCII characters is escaped character by character. */
  lemma {:induction false} SimpleLatexText(s: string)
    requires s != [] && IsAsciiString(s)
    requires '[' !in s && '*' !in s && '$' !in s && '\n' !in s
    requires forall j: nat :: !OccursAt(s, RefOpen, j)
    ensures LatexText(s) == EscapeEach(s)
  {
    ScanAbsent(s, RefOpen, '}', Ref, 0);
    forall j: nat ensures !OccursAt(s, "$", j) {
      OccursFirstChar(s, "$", j);
    }
    ScanAbsent(s, "$", '$', Math, 0);
    assert Spans(s) == [];
    NoSpansEscapesAll(s);
    PlainTextOnAscii(s);
    EscapeEachChars(s, '\n');
    ReplaceFirstCharAbsent(EscapeEach(s), "\n\n", ParBreak);
  }

  lemma {:induction false} AlnumLatexText(w: string)
    requires w != [] && IsAlnumString(w)
    ensures LatexText(w) == w
  {
    forall j: nat ensures !OccursAt(w, RefOpen, j) {
      OccursFirstChar(w, RefOpen, j);
    }
    SimpleLatexText(w);
    EscapeEachAlnum(w);
  }

  lemma {:induction false} HashWordParts(x: string, w: string)
    requires w != [] && IsAlnumString(w) && x == ['#', ' '] + w
    ensures Strip(x) == x && StartsWith(x, "#")
    ensures LeadingHashes(x) == 1 && Strip(x[1..]) == w
  {
    StripUnchanged(x);
    assert x[1..] == [' '] + w;
    assert LeadingHashes(x[1..]) == 0;
    assert SkipSpaces(x[1..], 0) == 1;
    assert TrimEnd(x[1..], |x[1..]|) == |x[1..]|;
    assert x[1..][1..|x[1..]|] == w;
  }

  /** `# w` is a level-one heading whose argument is `w`. */
  lemma {:induction false} HashWordHeading(x: string, w: string)
    requires w != [] && IsAlnumString(w) && x == ['#', ' '] + w
    ensures Strip(x) == x && StartsWith(x, "#")
    ensures Heading(x) == HeadingCommand(1) + "{" + w + "}"
  {
    HashWordParts(x, w);
    var n := LeadingHashes(x);
    var content := Strip(x[n..]);
    assert content == w;
    AlnumLatexText(content);
  }

  /** An inline heading is escaped once: `# w` gives `\chapter{w}`. */
  lemma {:induction false} InlineHeadingEscapedOnce(x: string, w: string)
    requires w != [] && IsAlnumString(w) && x == ['#', ' '] + w
    ensures InlineText(x) == HeadingCommand(1) + "{" + w + "}" + "\n\n"
  {
    HashWordHeading(x, w);
  }

  lemma {:induction false} EscapeEachSingle(x: char)
    ensures EscapeEach([x]) == EscapeChar(x)
  {
    assert [x][1..] == [];
  }

  lemma {:induction false} EscapeCommandOpen(c: string)
    requires IsAlnumString(c)
    ensures EscapeEach(['\\'] + c + ['{']) == "\\textbackslash{}" + c + "\\textbackslash{}{"
  {
    var bs := "\\textbackslash{}";
    EscapeEachConcat(['\\'] + c, ['{']);
    EscapeEachConcat(['\\'], c);
    EscapeEachAlnum(c);
    EscapeEachSingle('\\');
    EscapeEachSingle('{');
    assert EscapeEach(['\\'] + c + ['{']) == (bs + c) + (bs + ['{']);
    assert bs + ['{'] == "\\textbackslash{}{";
  }

  /** The command the heading pass wrote is escaped by the second pass. */
  lemma {:induction false} CommandEscapedAgain(h: string, c: string, w: string)
    requires c != [] && c[0] != 'r' && IsAlnumString(c) && w != [] && IsAlnumString(w)
    requires h == ['\\'] + c + ['{'] + w + ['}']
    ensures LatexText(h) == "\\textbackslash{}" + c + "\\textbackslash{}{" + w + "\\textbackslash{}}"
    ensures '\n' !in LatexText(h)
  {
    var p := ['\\'] + c + ['{'];
    assert h == p + w + ['}'];
    assert h[1] != RefOpen[1];
    assert forall k :: 0 < k < |h| ==> h[k] != RefOpen[0];
    forall j: nat ensures !OccursAt(h, RefOpen, j) {
      if j + |RefOpen| <= |h| {
        assert h[j..j + |RefOpen|][0] == h[j];
        assert h[j..j + |RefOpen|][1] == h[j + 1];
      }
    }
    SimpleLatexText(h);
    EscapeKeepsLines(h);
    CommandEscapeEach(c, w);
  }

  lemma {:induction false} CommandEscapeEach(c: string, w: string)
    requires IsAlnumString(c) && IsAlnumString(w)
    ensures EscapeEach(['\\'] + c + ['{'] + w + ['}']) == "\\textbackslash{}" + c + "\\textbackslash{}{" + w + "\\textbackslash{}}"
  {
    var p := ['\\'] + c + ['{'];
    EscapeEachConcat(p + w, ['}']);
    EscapeEachConcat(p, w);
    EscapeCommandOpen(c);
    EscapeEachAlnum(w);
    EscapeEachSingle('}');
  }

  lemma {:induction false} FileHeadingFirstPass(x: string, w: string)
    requires w != [] && IsAlnumString(w) && x == ['#', ' '] + w
    ensures Join(HeadingLines(Split(x, '\n')), '\n') == HeadingCommand(1) + "{" + w + "}"
  {
    assert '\n' !in x;
    SplitNoSep(x, '\n');
    HashWordHeading(x, w);
    HeadingLinesSingle(x);
  }

  lemma {:induction false} HeadingLinesSnoc(lines: seq<string>, k: nat)
    requires k < |lines|
    ensures HeadingLines(lines[..k + 1]) == HeadingLines(lines[..k]) + [HeadingLine(lines[k])]
  {
    assert lines[..k + 1][..k] == lines[..k];
  }

  lemma {:induction false} HeadingLinesSingle(x: string)
    ensures HeadingLines([x]) == [HeadingLine(x)]
  {
    assert [x][..0] == [];
  }

  lemma {:induction false} BackslashLineIsOther(u: string)
    requires u != [] && u[0] == '\\' && !IsSpace(u[|u| - 1])
    ensures Classify(u) == Other(u)
  {
    StripUnchanged(u);
    if |u| >= 2 {
      assert u[..2][0] != "- "[0];
    }
  }

  /** A single line that is not a list line passes the list pass unchanged. */
  lemma {:induction false} SingleLineListPass(u: string)
    requires u != [] && '\n' !in u && u[0] == '\\' && !IsSpace(u[|u| - 1])
    ensures Join(Itemize(Classified(Split(u, '\n')), 0), '\n') == u
  {
    SplitNoSep(u, '\n');
    BackslashLineIsOther(u);
    var cs := Classified([u]);
    assert cs == [Other(u)];
    assert Itemize(cs, 0) == [u] + Itemize(cs, 1);
  }

  /** Text whose heading pass gives one line `h`, which the second
      escaping pass turns into a line `u` that is not a list line. */
  lemma {:induction false} FileTextSingleLine(x: string, h: string, u: string)
    requires Join(HeadingLines(Split(x, '\n')), '\n') == h && LatexText(h) == u
    requires u != [] && '\n' !in u && u[0] == '\\' && !IsSpace(u[|u| - 1])
    ensures FileText(x) == u
  {
    SingleLineListPass(u);
  }

  lemma {:induction false} FileCommandEscapedTwice(x: string, w: string, c: string)
    requires w != [] && IsAlnumString(w) && x == ['#', ' '] + w
    requires HeadingCommand(1) == ['\\'] + c && c != [] && c[0] != 'r' && IsAlnumString(c)
    ensures FileText(x) == "\\textbackslash{}" + c + "\\textbackslash{}{" + w + "\\textbackslash{}}"
  {
    var h := ['\\'] + c + ['{'] + w + ['}'];
    FileHeadingFirstPass(x, w);
    CommandEscapedAgain(h, c, w);
    var u := "\\textbackslash{}" + c + "\\textbackslash{}{" + w + "\\textbackslash{}}";
    FileTextSingleLine(x, h, u);
  }

  /** A heading read from a file is escaped twice: the second escaping
      pass rewrites the backslash and the braces of `\chapter{w}`. */
  lemma {:induction false} FileHeadingEscapedTwice(x: string, w: string)
    requires w != [] && IsAlnumString(w) && x == ['#', ' '] + w
    ensures FileText(x) == "\\textbackslash{}" + "chapter" + "\\textbackslash{}{" + w + "\\textbackslash{}}"
  {
    var c := "chapter";
    assert HeadingCommand(1) == ['\\'] + c;
    FileCommandEscapedTwice(x, w, c);
  }
}

=== FILE: escaper.dfy ===
/** The plain-text escaper (`process_plain_text`, assembler.py:100-189):
    three character tables applied entry by entry in the order they are
    written, then the regular-expression passes for citations, headings,
    bold, italic, percentages and micro units.  Each `re.sub` is a scanner
    that tries the pattern at every index from left to right and, after a
    match, resumes at its end (leftmost, non-overlapping). */
module Escaper {
  import opened Text

  /** One table entry: a character and the text that replaces it. */
  type Rule = (char, string)

  /** The names of the LaTeX commands for `~` and `^`. */
  const TildeName := "textasciitilde{}"
  const CaretName := "textasciicircum{}"

  /** The structural-character table, in its insertion order. */
  const EscapeRules: seq<Rule> := [
    ('&', "\\&"), ('%', "\\%"), ('#', "\\#"), ('_', "\\_"), ('{', "\\{"), ('}', "\\}"),
    ('~', "\\" + TildeName), ('^', "\\" + CaretName), ('\\', "\\textbackslash{}"), ('$', "\\$")
  ]

  /** Polish letters, lower case then upper case. */
  const PolishRules: seq<Rule> := [
    ('\U{0105}', "\\k{a}"), ('\U{0107}', "\\'c"), ('\U{0119}', "\\k{e}"), ('\U{0142}', "\\l{}"),
    ('\U{0144}', "\\'n"), ('\U{00F3}', "\\'o"), ('\U{015B}', "\\'s"), ('\U{017A}', "\\'z"),
    ('\U{017C}', "\\.z"), ('\U{0104}', "\\k{A}"), ('\U{0106}', "\\'C"), ('\U{0118}', "\\k{E}"),
    ('\U{0141}', "\\L{}"), ('\U{0143}', "\\'N"), ('\U{00D3}', "\\'O"), ('\U{015A}', "\\'S"),
    ('\U{0179}', "\\'Z"), ('\U{017B}', "\\.Z")
  ]

  /** Scientific symbols, in their insertion order: the signs (the first
      entry is GREEK SMALL LETTER MU, U+03BC), the superscript digits and
      the subscript digits. */
  const SymbolRules: seq<Rule> := SignRules + SuperscriptRules + SubscriptRules

  const SignRules: seq<Rule> := [
    ('\U{03BC}', "$\\mu$"), ('\U{00B1}', "$\\pm$"), ('\U{00B0}', "$^{\\circ}$"), ('\U{2248}', "$\\approx$"),
    ('\U{2265}', "$\\geq$"), ('\U{2264}', "$\\leq$"), ('\U{207B}', "$^{-}$")
  ]

  const SuperscriptRules: seq<Rule> := [
    ('\U{00B9}', "$^{1}$"), ('\U{00B2}', "$^{2}$"), ('\U{00B3}', "$^{3}$"), ('\U{2074}', "$^{4}$"),
    ('\U{2075}', "$^{5}$"), ('\U{2076}', "$^{6}$"), ('\U{2077}', "$^{7}$"), ('\U{2078}', "$^{8}$"),
    ('\U{2079}', "$^{9}$"), ('\U{2070}', "$^{0}$")
  ]

  const SubscriptRules: seq<Rule> := [
    ('\U{2081}', "$_{1}$"), ('\U{2082}', "$_{2}$"), ('\U{2083}', "$_{3}$"), ('\U{2084}', "$_{4}$")
  ]

  /** The text after `text = text.replace(char, replacement)` has run for
      every entry of `rules`, first entry first. */
  function ApplyRules(rules: seq<Rule>, s: string): string
    decreases |rules|
  {
    if rules == [] then s
    else ReplaceChar(ApplyRules(rules[..|rules| - 1], s), rules[|rules| - 1].0, rules[|rules| - 1].1)
  }

  lemma {:induction false} ApplyRulesStep(rules: seq<Rule>, k: nat, s: string)
    requires k < |rules|
    ensures ApplyRules(rules[..k + 1], s) == ReplaceChar(ApplyRules(rules[..k], s), rules[k].0, rules[k].1)
  {
    assert rules[..k + 1][..k] == rules[..k];
  }

  lemma {:induction false} ApplyRulesConcat(rules: seq<Rule>, a: string, b: string)
    ensures ApplyRules(rules, a + b) == ApplyRules(rules, a) + ApplyRules(rules, b)
  {
    if rules != [] {
      var n := |rules| - 1;
      ApplyRulesConcat(rules[..n], a, b);
      ReplaceCharConcat(ApplyRules(rules[..n], a), ApplyRules(rules[..n], b), rules[n].0, rules[n].1);
    }
  }

  lemma {:induction false} ApplyRulesAbsent(rules: seq<Rule>, t: string)
    requires forall r :: r in rules ==> r.0 !in t
    ensures ApplyRules(rules, t) == t
  {
    if rules != [] {
      var n := |rules| - 1;
      assert forall r :: r in rules[..n] ==> r in rules;
      ApplyRulesAbsent(rules[..n], t);
      assert rules[n] in rules;
      ReplaceCharAbsent(t, rules[n].0, rules[n].1);
    }
  }

  // ---------------------------------------------------------------------
  // The structural-character table as a per-character map

  /** What the ten structural-character entries, applied in order, turn one
      character into.  The backslash entry is ninth, so it rewrites the
      backslash that the first eight entries introduced; the dollar entry
      is last, so its backslash survives. */
  function EscapeChar(c: char): string {
    if c in "&%#_{}" then "\\textbackslash{}" + [c]
    else if c == '~' then "\\textbackslash{}" + TildeName
    else if c == '^' then "\\textbackslash{}" + CaretName
    else if c == '\\' then "\\textbackslash{}"
    else if c == '$' then "\\$"
    else [c]
  }

  function EscapeEach(s: string): string {
    if s == [] then [] else EscapeChar(s[0]) + EscapeEach(s[1..])
  }

  /** ASCII letters and digits. */
  predicate IsAlnumString(s: string) {
    forall k :: 0 <= k < |s| ==> 'a' <= s[k] <= 'z' || 'A' <= s[k] <= 'Z' || '0' <= s[k] <= '9'
  }

  /** Letters and digits pass through the table unchanged. */
  lemma {:induction false} EscapeEachAlnum(s: string)
    requires IsAlnumString(s)
    ensures EscapeEach(s) == s
  {
    if s != [] {
      EscapeEachAlnum(s[1..]);
      EscapeCharAlnum(s[0]);
      EscapeEachCons(s[0], s[1..], [s[0]]);
      assert s == [s[0]] + s[1..];
    }
  }

  lemma {:induction false} EscapeCharAlnum(c: char)
    requires 'a' <= c <= 'z' || 'A' <= c <= 'Z' || '0' <= c <= '9'
    ensures EscapeChar(c) == [c]
  {
    assert c !in "&%#_{}";
  }

  lemma {:induction false} EscapeEachConcat(a: string, b: string)
    ensures EscapeEach(a + b) == EscapeEach(a) + EscapeEach(b)
  {
    if a == [] {
      assert a + b == b;
    } else {
      assert (a + b)[1..] == a[1..] + b;
      EscapeEachConcat(a[1..], b);
    }
  }

  lemma {:induction false} StepAbsent(rules: seq<Rule>, k: nat, s: string, t: string)
    requires k < |rules| && ApplyRules(rules[..k], s) == t && rules[k].0 !in t
    ensures ApplyRules(rules[..k + 1], s) == t
  {
    ApplyRulesStep(rules, k, s);
    ReplaceCharAbsent(t, rules[k].0, rules[k].1);
  }

  lemma {:induction false} StagesAbsent(rules: seq<Rule>, k: nat, m: nat, s: string, t: string)
    requires k <= m <= |rules|
    requires ApplyRules(rules[..k], s) == t
    requires forall j :: k <= j < m ==> rules[j].0 !in t
    ensures ApplyRules(rules[..m], s) == t
    decreases m - k
  {
    if m > k {
      StagesAbsent(rules, k, m - 1, s, t);
      StepAbsent(rules, m - 1, s, t);
    }
  }

  lemma {:induction false} PrefixUntouched(rules: seq<Rule>, k: nat, c: char)
    requires k <= |rules|
    requires forall j :: 0 <= j < k ==> rules[j].0 != c
    ensures ApplyRules(rules[..k], [c]) == [c]
  {
    if k == 0 {
      assert rules[..0] == [];
    } else {
      PrefixUntouched(rules, k - 1, c);
      StepAbsent(rules, k - 1, [c], [c]);
    }
  }

  lemma {:induction false} BackslashLead(tail: string)
    requires '\\' !in tail
    ensures ReplaceChar("\\" + tail, '\\', "\\textbackslash{}") == "\\textbackslash{}" + tail
  {
    ReplaceCharConcat("\\", tail, '\\', "\\textbackslash{}");
    ReplaceCharAbsent(tail, '\\', "\\textbackslash{}");
    ReplaceCharSingle('\\', '\\', "\\textbackslash{}");
  }

  lemma {:induction false} NoDollarAfterBackslash(tail: string)
    requires '$' !in tail
    ensures '$' !in "\\textbackslash{}" + tail
  {
  }

  /** A character whose entry k < 8 gives `\` + `tail` ends up as
      `\textbackslash{}` + `tail`. */
  lemma {:induction false} ThroughBackslash(rules: seq<Rule>, c: char, k: nat, tail: string)
    requires |rules| == 10 && rules[8] == ('\\', "\\textbackslash{}") && rules[9].0 == '$'
    requires k < 8 && rules[k].0 == c && rules[k].1 == "\\" + tail
    requires forall j :: 0 <= j < k ==> rules[j].0 != c
    requires forall j :: k < j < 8 ==> rules[j].0 != '\\' && rules[j].0 !in tail
    requires '\\' !in tail && '$' !in tail
    ensures ApplyRules(rules, [c]) == "\\textbackslash{}" + tail
  {
    PrefixUntouched(rules, k, c);
    ApplyRulesStep(rules, k, [c]);
    ReplaceCharSingle(c, c, "\\" + tail);
    StagesAbsent(rules, k + 1, 8, [c], "\\" + tail);
    ApplyRulesStep(rules, 8, [c]);
    BackslashLead(tail);
    NoDollarAfterBackslash(tail);
    StepAbsent(rules, 9, [c], "\\textbackslash{}" + tail);
    assert rules[..10] == rules;
  }

  lemma {:induction false} EscapeThroughBackslash(c: char, k: nat, tail: string)
    requires k < 8 && EscapeRules[k].0 == c && EscapeRules[k].1 == "\\" + tail
    requires forall j :: 0 <= j < k ==> EscapeRules[j].0 != c
    requires forall j :: k < j < 8 ==> EscapeRules[j].0 !in tail
    requires '\\' !in tail && '$' !in tail
    ensures ApplyRules(EscapeRules, [c]) == "\\textbackslash{}" + tail
  {
    ThroughBackslash(EscapeRules, c, k, tail);
  }

  lemma EscapeBackslash()
    ensures ApplyRules(EscapeRules, ['\\']) == "\\textbackslash{}"
  {
    var r := EscapeRules;
    BackslashNineRules();
    NoDollarAfterBackslash("");
    assert "\\textbackslash{}" + "" == "\\textbackslash{}";
    StepAbsent(r, 9, ['\\'], "\\textbackslash{}");
    assert r[..10] == r;
  }

  /** The first eight entries leave a backslash alone and the ninth rewrites it. */
  lemma BackslashNineRules()
    ensures ApplyRules(EscapeRules[..9], ['\\']) == "\\textbackslash{}"
  {
    var r := EscapeRules;
    PrefixUntouched(r, 8, '\\');
    ApplyRulesStep(r, 8, ['\\']);
    ReplaceCharSingle('\\', '\\', "\\textbackslash{}");
  }

  lemma EscapeDollar()
    ensures ApplyRules(EscapeRules, ['$']) == "\\$"
  {
    var r := EscapeRules;
    PrefixUntouched(r, 9, '$');
    ApplyRulesStep(r, 9, ['$']);
    ReplaceCharSingle('$', '$', "\\$");
    assert r[..10] == r;
  }

  lemma {:induction false} EscapeOther(c: char)
    requires c !in "&%#_{}~^\\$"
    ensures ApplyRules(EscapeRules, [c]) == [c]
  {
    PrefixUntouched(EscapeRules, 10, c);
    assert EscapeRules[..10] == EscapeRules;
  }

  lemma {:induction false} EscapeMarked(c: char)
    requires c in "&%#_{}"
    ensures ApplyRules(EscapeRules, [c]) == "\\textbackslash{}" + [c]
  {
    if c in "&%#" { EscapeMarkedFirst(c); } else { EscapeMarkedLast(c); }
  }

  lemma {:induction false} EscapeMarkedFirst(c: char)
    requires c in "&%#"
    ensures ApplyRules(EscapeRules, [c]) == "\\textbackslash{}" + [c]
  {
    if c == '&' { EscapeThroughBackslash(c, 0, [c]); }
    else if c == '%' { EscapeThroughBackslash(c, 1, [c]); }
    else { EscapeThroughBackslash(c, 2, [c]); }
  }

  lemma {:induction false} EscapeMarkedLast(c: char)
    requires c in "_{}"
    ensures ApplyRules(EscapeRules, [c]) == "\\textbackslash{}" + [c]
  {
    if c == '_' { EscapeThroughBackslash(c, 3, [c]); }
    else if c == '{' { EscapeThroughBackslash(c, 4, [c]); }
    else { EscapeThroughBackslash(c, 5, [c]); }
  }

  lemma {:induction false} TildeTail(tail: string)
    requires tail == TildeName
    ensures '\\' !in tail && '$' !in tail && '^' !in tail
  {
    assert tail == "textasc" + "iitilde" + "{}";
  }

  lemma {:induction false} CaretTail(tail: string)
    requires tail == CaretName
    ensures '\\' !in tail && '$' !in tail
  {
    assert tail == "textasc" + "iicircu" + "m{}";
  }

  lemma {:induction false} EscapeTilde(c: char, tail: string)
    requires c == '~' && tail == TildeName
    ensures ApplyRules(EscapeRules, [c]) == "\\textbackslash{}" + tail == EscapeChar(c)
  {
    TildeTail(tail);
    assert EscapeRules[6].1 == "\\" + tail;
    EscapeThroughBackslash(c, 6, tail);
  }

  lemma {:induction false} EscapeCaret(c: char, tail: string)
    requires c == '^' && tail == CaretName
    ensures ApplyRules(EscapeRules, [c]) == "\\textbackslash{}" + tail == EscapeChar(c)
  {
    CaretTail(tail);
    assert EscapeRules[7].1 == "\\" + tail;
    EscapeThroughBackslash(c, 7, tail);
  }

  /** The ten table entries, applied one after another, act on each
      character separately, as `EscapeChar` says. */
  lemma {:induction false} EscapeOfChar(c: char)
    ensures ApplyRules(EscapeRules, [c]) == EscapeChar(c)
  {
    if c in "&%#_{}" { EscapeMarked(c); }
    else if c == '~' { EscapeTilde(c, TildeName); }
    else if c == '^' { EscapeCaret(c, CaretName); }
    else if c == '\\' { EscapeBackslash(); }
    else if c == '$' { EscapeDollar(); }
    else { EscapeOther(c); }
  }

  lemma {:induction false} EscapeTableIsCharMap(s: string)
    ensures ApplyRules(EscapeRules, s) == EscapeEach(s)
  {
    if s != [] {
      calc {
        ApplyRules(EscapeRules, s);
        { assert s == [s[0]] + s[1..]; }
        ApplyRules(EscapeRules, [s[0]] + s[1..]);
        { ApplyRulesConcat(EscapeRules, [s[0]], s[1..]); }
        ApplyRules(EscapeRules, [s[0]]) + ApplyRules(EscapeRules, s[1..]);
        { EscapeOfChar(s[0]); EscapeTableIsCharMap(s[1..]); }
        EscapeChar(s[0]) + EscapeEach(s[1..]);
      }
    } else {
      ApplyRulesAbsent(EscapeRules, s);
    }
  }

  /** The Polish and symbol tables only emit ASCII and only replace
      characters outside ASCII. */
  predicate AsciiRules(rules: seq<Rule>) {
    forall j :: 0 <= j < |rules| ==> rules[j].0 >= 128 as char && IsAsciiString(rules[j].1)
  }

  lemma {:induction false} AsciiExcludes(t: string, x: char)
    requires IsAsciiString(t) && x >= 128 as char
    ensures x !in t
  {
  }

  lemma PolishRulesAscii()
    ensures AsciiRules(PolishRules)
  {
  }

  lemma SymbolRulesAscii()
    ensures AsciiRules(SymbolRules)
  {
    SignRulesAscii();
    SuperscriptRulesAscii();
    SubscriptRulesAscii();
    AsciiRulesJoin(SignRules, SuperscriptRules);
    AsciiRulesJoin(SignRules + SuperscriptRules, SubscriptRules);
  }

  lemma SignRulesAscii()
    ensures AsciiRules(SignRules)
  {
  }

  lemma SuperscriptRulesAscii()
    ensures AsciiRules(SuperscriptRules)
  {
  }

  lemma SubscriptRulesAscii()
    ensures AsciiRules(SubscriptRules)
  {
  }

  lemma {:induction false} AsciiRulesJoin(a: seq<Rule>, b: seq<Rule>)
    requires AsciiRules(a) && AsciiRules(b)
    ensures AsciiRules(a + b)
  {
    forall j | 0 <= j < |a + b| ensures (a + b)[j].0 >= 128 as char && IsAsciiString((a + b)[j].1) {
      if j < |a| { assert (a + b)[j] == a[j]; } else { assert (a + b)[j] == b[j - |a|]; }
    }
  }

  lemma {:induction false} ApplyRulesRemoves(rules: seq<Rule>, k: nat, s: string)
    requires k < |rules| && AsciiRules(rules)
    ensures rules[k].0 !in ApplyRules(rules, s)
    decreases |rules|
  {
    var n := |rules| - 1;
    var x := rules[k].0;
    ReplaceCharChars(ApplyRules(rules[..n], s), rules[n].0, rules[n].1, x);
    if k < n {
      ApplyRulesRemoves(rules[..n], k, s);
    }
    AsciiExcludes(rules[n].1, x);
  }

  /** After the Polish and symbol tables no character of either table is
      left; in particular GREEK SMALL LETTER MU (U+03BC) is gone before the
      micro-unit pass, whose `[µμ]` can then only meet MICRO SIGN (U+00B5). */
  lemma {:induction false} TablesRemoveTheirCharacters(s: string)
    ensures forall k :: 0 <= k < |PolishRules| ==> PolishRules[k].0 !in ApplyRules(SymbolRules, ApplyRules(PolishRules, s))
    ensures forall k :: 0 <= k < |SymbolRules| ==> SymbolRules[k].0 !in ApplyRules(SymbolRules, ApplyRules(PolishRules, s))
    ensures '\U{03BC}' !in ApplyRules(SymbolRules, ApplyRules(PolishRules, s))
  {
    PolishRulesAscii();
    SymbolRulesAscii();
    var t := ApplyRules(PolishRules, s);
    forall k | 0 <= k < |PolishRules|
      ensures PolishRules[k].0 !in ApplyRules(SymbolRules, t)
    {
      ApplyRulesRemoves(PolishRules, k, s);
      ApplyRulesKeepsAbsent(SymbolRules, t, PolishRules[k].0);
    }
    forall k | 0 <= k < |SymbolRules|
      ensures SymbolRules[k].0 !in ApplyRules(SymbolRules, t)
    {
      ApplyRulesRemoves(SymbolRules, k, t);
    }
    assert SymbolRules[0].0 == '\U{03BC}';
  }

  /** A non-ASCII character that is absent stays absent. */
  lemma {:induction false} ApplyRulesKeepsAbsent(rules: seq<Rule>, s: string, x: char)
    requires AsciiRules(rules) && x >= 128 as char && x !in s
    ensures x !in ApplyRules(rules, s)
    decreases |rules|
  {
    if rules != [] {
      var n := |rules| - 1;
      ApplyRulesKeepsAbsent(rules[..n], s, x);
      ReplaceCharChars(ApplyRules(rules[..n], s), rules[n].0, rules[n].1, x);
      AsciiExcludes(rules[n].1, x);
    }
  }

  /** On ASCII text the Polish and symbol tables change nothing. */
  lemma {:induction false} AsciiRulesIdle(rules: seq<Rule>, s: string)
    requires AsciiRules(rules) && IsAsciiString(s)
    ensures ApplyRules(rules, s) == s
  {
    forall r | r in rules ensures r.0 !in s {
      var j :| 0 <= j < |rules| && rules[j] == r;
      AsciiExcludes(s, r.0);
    }
    ApplyRulesAbsent(rules, s);
  }

  // ---------------------------------------------------------------------
  // Citations: `\[(\w+)\]` becomes `\cite{\1}`

  /** `s[i..e]` is `[`, one or more ASCII word characters, `]`. */
  ghost predicate IsCiteAt(s: string, i: nat, e: nat) {
    i + 3 <= e <= |s| && s[i] == '[' && s[e - 1] == ']' &&
    forall k :: i < k < e - 1 ==> IsWordChar(s[k])
  }

  /** End of the run of word characters starting at `j`. */
  function WordEnd(s: string, j: nat): (e: nat)
    requires j <= |s|
    ensures j <= e <= |s|
    ensures forall k :: j <= k < e ==> IsWordChar(s[k])
    ensures e < |s| ==> !IsWordChar(s[e])
    decreases |s| - j
  {
    if j == |s| || !IsWordChar(s[j]) then j else WordEnd(s, j + 1)
  }

  /** Where a citation starting at `i` ends, if one does. */
  function CiteMatch(s: string, i: nat): (r: Option<nat>)
    requires i <= |s|
    ensures r.Some? ==> IsCiteAt(s, i, r.value)
    ensures forall e: nat :: IsCiteAt(s, i, e) ==> r == Some(e)
  {
    if i < |s| && s[i] == '[' then
      var w := WordEnd(s, i + 1);
      if w > i + 1 && w < |s| && s[w] == ']' then Some(w + 1) else None
    else None
  }

  /** The output of the citation pass for `s[i..]`. */
  function CiteFrom(s: string, i: nat): string
    requires i <= |s|
    decreases |s| - i
  {
    if i == |s| then []
    else match CiteMatch(s, i)
      case Some(e) => "\\cite{" + s[i + 1..e - 1] + "}" + CiteFrom(s, e)
      case None => [s[i]] + CiteFrom(s, i + 1)
  }

  function Cite(s: string): string { CiteFrom(s, 0) }

  // ---------------------------------------------------------------------
  // Headings: `^#{n} (.+)$` with MULTILINE

  /** Index of the line feed that ends the line containing `j`, or `|s|`. */
  function LineEnd(s: string, j: nat): (e: nat)
    requires j <= |s|
    ensures j <= e <= |s|
    ensures forall k :: j <= k < e ==> s[k] != '\n'
    ensures e < |s| ==> s[e] == '\n'
    decreases |s| - j
  {
    if j == |s| || s[j] == '\n' then j else LineEnd(s, j + 1)
  }

  /** Where a heading with marker `p` starting at `i` ends, if one does:
      `i` begins a line, `p` follows, and at least one character precedes
      the end of the line. */
  function HeadingMatch(s: string, p: string, i: nat): (r: Option<nat>)
    requires i <= |s|
    ensures r.Some? ==> (i == 0 || s[i - 1] == '\n') && OccursAt(s, p, i) && i + |p| < r.value <= |s|
    ensures r.Some? ==> forall k :: i + |p| <= k < r.value ==> s[k] != '\n'
    ensures r.Some? ==> r.value == |s| || s[r.value] == '\n'
  {
    if (i == 0 || s[i - 1] == '\n') && OccursAt(s, p, i) then
      var e := LineEnd(s, i + |p|);
      if e > i + |p| then Some(e) else None
    else None
  }

  function HeadingFrom(s: string, p: string, cmd: string, i: nat): string
    requires i <= |s|
    decreases |s| - i
  {
    if i == |s| then []
    else match HeadingMatch(s, p, i)
      case Some(e) => cmd + "{" + s[i + |p|..e] + "}" + HeadingFrom(s, p, cmd, e)
      case None => [s[i]] + HeadingFrom(s, p, cmd, i + 1)
  }

  function Headings(s: string): string {
    var s1 := HeadingFrom(s, "# ", "\\chapter", 0);
    var s2 := HeadingFrom(s1, "## ", "\\section", 0);
    var s3 := HeadingFrom(s2, "### ", "\\subsection", 0);
    HeadingFrom(s3, "#### ", "\\subsubsection", 0)
  }

  // ---------------------------------------------------------------------
  // Bold and italic: `\*\*(.+?)\*\*` and `\*(.+?)\*`

  /** The lazy group `(.+?)` that starts at `g` ends at `c`: the delimiter
      occurs at `c`, nowhere strictly between `g` and `c`, and `s[g..c]` is
      non-empty and holds no line feed. */
  ghost predicate IsCloseAt(s: string, d: string, g: nat, c: nat) {
    g < c && OccursAt(s, d, c) && '\n' !in s[g..c] &&
    (forall k :: g < k < c ==> !OccursAt(s, d, k))
  }

  ghost predicate IsEmphAt(s: string, d: string, i: nat, c: nat) {
    OccursAt(s, d, i) && IsCloseAt(s, d, i + |d|, c)
  }

  /** Searches for the closing delimiter from `c` on. */
  function CloseFrom(s: string, d: string, g: nat, c: nat): (r: Option<nat>)
    requires d != [] && g < c <= |s|
    ensures r.Some? ==> c <= r.value && r.value + |d| <= |s|
    decreases |s| - c
  {
    if s[c - 1] == '\n' then None
    else if OccursAt(s, d, c) then Some(c)
    else if c == |s| then None
    else CloseFrom(s, d, g, c + 1)
  }

  /** What the search finds closes the group opened before `g`. */
  lemma {:induction false} CloseFromSound(s: string, d: string, g: nat, c: nat)
    requires d != [] && g < c <= |s| && CloseFrom(s, d, g, c).Some?
    ensures var e := CloseFrom(s, d, g, c).value;
      OccursAt(s, d, e) && '\n' !in s[c - 1..e] && forall k :: c <= k < e ==> !OccursAt(s, d, k)
    decreases |s| - c
  {
    var e := CloseFrom(s, d, g, c).value;
    if !OccursAt(s, d, c) {
      CloseFromSound(s, d, g, c + 1);
      assert s[c - 1..e] == [s[c - 1]] + s[c..e];
    }
  }

  lemma {:induction false} CloseFromFinds(s: string, d: string, g: nat, c0: nat, c: nat)
    requires d != [] && g < c0 <= c && IsCloseAt(s, d, g, c)
    ensures CloseFrom(s, d, g, c0) == Some(c)
    decreases c - c0
  {
    assert s[c0 - 1] != '\n';
    if !OccursAt(s, d, c0) {
      assert c0 != c;
      CloseFromFinds(s, d, g, c0 + 1, c);
    }
  }

  /** Where the emphasis group opened at `i` by delimiter `d` closes. */
  function EmphMatch(s: string, d: string, i: nat): (r: Option<nat>)
    requires d != [] && i <= |s|
    ensures r.Some? ==> i + |d| < r.value && r.value + |d| <= |s|
  {
    if OccursAt(s, d, i) && i + |d| < |s| then CloseFrom(s, d, i + |d|, i + |d| + 1) else None
  }

  /** What the search finds is a group the pattern describes. */
  lemma {:induction false} EmphMatchSound(s: string, d: string, i: nat)
    requires d != [] && i <= |s| && EmphMatch(s, d, i).Some?
    ensures IsEmphAt(s, d, i, EmphMatch(s, d, i).value)
  {
    CloseFromSound(s, d, i + |d|, i + |d| + 1);
  }

  /** The search misses no group: any closing delimiter the pattern allows is the one found. */
  lemma {:induction false} EmphMatchComplete(s: string, d: string, i: nat, c: nat)
    requires d != [] && i <= |s| && IsEmphAt(s, d, i, c)
    ensures EmphMatch(s, d, i) == Some(c)
  {
    EmphFinds(s, d, i, c);
  }

  lemma {:induction false} EmphFinds(s: string, d: string, i: nat, c: nat)
    requires d != [] && IsEmphAt(s, d, i, c)
    ensures i + |d| < |s| && CloseFrom(s, d, i + |d|, i + |d| + 1) == Some(c)
  {
    CloseFromFinds(s, d, i + |d|, i + |d| + 1, c);
  }

  function EmphFrom(s: string, d: string, cmd: string, i: nat): string
    requires d != [] && i <= |s|
    decreases |s| - i
  {
    if i == |s| then []
    else match EmphMatch(s, d, i)
      case Some(c) => cmd + "{" + s[i + |d|..c] + "}" + EmphFrom(s, d, cmd, c + |d|)
      case None => [s[i]] + EmphFrom(s, d, cmd, i + 1)
  }

  function Bold(s: string): string { EmphFrom(s, "**", "\\textbf", 0) }

  function Italic(s: string): string { EmphFrom(s, "*", "\\textit", 0) }

  // ---------------------------------------------------------------------
  // Numbers: `(\d+)%` and the micro units `(\d+)\s*([µμ])[mM]`, `...[Aa]`

  /** End of the run of ASCII digits starting at `j`. */
  function DigitEnd(s: string, j: nat): (e: nat)
    requires j <= |s|
    ensures j <= e <= |s|
    ensures forall k :: j <= k < e ==> IsDigit(s[k])
    ensures e < |s| ==> !IsDigit(s[e])
    decreases |s| - j
  {
    if j == |s| || !IsDigit(s[j]) then j else DigitEnd(s, j + 1)
  }

  /** End of the digits of a percentage starting at `i`, if one does. */
  function PercentMatch(s: string, i: nat): (r: Option<nat>)
    requires i <= |s|
    ensures r.Some? ==> i < r.value < |s| && s[r.value] == '%'
    ensures r.Some? ==> forall k :: i <= k < r.value ==> IsDigit(s[k])
  {
    if i < |s| && IsDigit(s[i]) then
      var e := DigitEnd(s, i);
      if e < |s| && s[e] == '%' then Some(e) else None
    else None
  }

  function PercentFrom(s: string, i: nat): string
    requires i <= |s|
    decreases |s| - i
  {
    if i == |s| then []
    else match PercentMatch(s, i)
      case Some(e) => s[i..e] + "\\%" + PercentFrom(s, e + 1)
      case None => [s[i]] + PercentFrom(s, i + 1)
  }

  function Percent(s: string): string { PercentFrom(s, 0) }

  predicate IsMicroSign(c: char) { c == '\U{00B5}' || c == '\U{03BC}' }

  /** For a micro unit starting at `i`: the end of its digits and the end
      of the whole match. */
  function MicroMatch(s: string, units: string, i: nat): (r: Option<(nat, nat)>)
    requires i <= |s|
    ensures r.Some? ==> i < r.value.0 < r.value.1 - 1 && r.value.1 <= |s|
    ensures r.Some? ==> forall k :: i <= k < r.value.0 ==> IsDigit(s[k])
    ensures r.Some? ==> forall k :: r.value.0 <= k < r.value.1 - 2 ==> IsSpace(s[k])
    ensures r.Some? ==> IsMicroSign(s[r.value.1 - 2]) && s[r.value.1 - 1] in units
  {
    if i < |s| && IsDigit(s[i]) then
      var e := DigitEnd(s, i);
      var f := SkipSpaces(s, e);
      if f + 1 < |s| && IsMicroSign(s[f]) && s[f + 1] in units then Some((e, f + 2)) else None
    else None
  }

  function MicroFrom(s: string, units: string, unit: char, i: nat): string
    requires i <= |s|
    decreases |s| - i
  {
    if i == |s| then []
    else match MicroMatch(s, units, i)
      case Some((e, f)) => s[i..e] + " $\\mu$" + [unit] + MicroFrom(s, units, unit, f)
      case None => [s[i]] + MicroFrom(s, units, unit, i + 1)
  }

  function Micro(s: string): string {
    MicroFrom(MicroFrom(s, "mM", 'm', 0), "Aa", 'A', 0)
  }

  // ---------------------------------------------------------------------
  // The whole escaper

  /** `process_plain_text`: the three tables, then the regular-expression
      passes and the literal `~70%` replacement in source order. */
  function PlainText(s: string): string {
    var t := ApplyRules(SymbolRules, ApplyRules(PolishRules, ApplyRules(EscapeRules, s)));
    var t := Headings(Cite(t));
    var t := Percent(Italic(Bold(t)));
    Micro(Replace(t, "~70%", "\\textasciitilde{}70\\%"))
  }

  /** The escaper as the source writes it: each table is walked entry by
      entry, reassigning the text. */
  method ProcessPlainText(s: string) returns (t: string)
    ensures t == PlainText(s)
  {
    t := s;
    for k := 0 to |EscapeRules|
      invariant t == ApplyRules(EscapeRules[..k], s)
    {
      ApplyRulesStep(EscapeRules, k, s);
      t := ReplaceChar(t, EscapeRules[k].0, EscapeRules[k].1);
    }
    assert EscapeRules[..|EscapeRules|] == EscapeRules;
    var escaped := t;
    for k := 0 to |PolishRules|
      invariant t == ApplyRules(PolishRules[..k], escaped)
    {
      ApplyRulesStep(PolishRules, k, escaped);
      t := ReplaceChar(t, PolishRules[k].0, PolishRules[k].1);
    }
    assert PolishRules[..|PolishRules|] == PolishRules;
    var polished := t;
    for k := 0 to |SymbolRules|
      invariant t == ApplyRules(SymbolRules[..k], polished)
    {
      ApplyRulesStep(SymbolRules, k, polished);
      t := ReplaceChar(t, SymbolRules[k].0, SymbolRules[k].1);
    }
    assert SymbolRules[..|SymbolRules|] == SymbolRules;
    t := Cite(t);
    t := Headings(t);
    t := Bold(t);
    t := Italic(t);
    t := Percent(t);
    t := Replace(t, "~70%", "\\textasciitilde{}70\\%");
    t := Micro(t);
  }

  // ---------------------------------------------------------------------
  // Why the heading, percent and `~70%` rules never fire

  /** The character at `k` is not a `#` or `%`, or it comes right after a
      `}`; for `k == 0`, `lead` says whether the text before ends in `}`. */
  predicate MarkCovered(t: string, k: nat, lead: bool)
    requires k < |t|
  {
    (t[k] == '#' || t[k] == '%') ==> if k == 0 then lead else t[k - 1] == '}'
  }

  /** No `~`, and every `#` and `%` comes right after a `}`. */
  predicate Shielded(t: string, lead: bool) {
    '~' !in t && forall k: nat :: k < |t| ==> MarkCovered(t, k, lead)
  }

  lemma {:induction false} ShieldedLead(t: string, a: bool, b: bool)
    requires Shielded(t, a) && (a ==> b)
    ensures Shielded(t, b)
  {
    forall k: nat | k < |t| ensures MarkCovered(t, k, b) {
      assert MarkCovered(t, k, a);
    }
  }

  lemma {:induction false} NoMarksShielded(t: string, lead: bool)
    requires '#' !in t && '%' !in t && '~' !in t
    ensures Shielded(t, lead)
  {
    forall k: nat | k < |t| ensures MarkCovered(t, k, lead) {
      assert t[k] in t;
    }
  }

  lemma {:induction false} ShieldedConcat(a: string, b: string, lead: bool)
    requires Shielded(a, lead)
    requires Shielded(b, if a == [] then lead else a[|a| - 1] == '}')
    ensures Shielded(a + b, lead)
  {
    var ab := a + b;
    var lb := if a == [] then lead else a[|a| - 1] == '}';
    forall k: nat | k < |ab| ensures MarkCovered(ab, k, lead) {
      if k < |a| {
        assert MarkCovered(a, k, lead);
        assert ab[k] == a[k];
        if k > 0 { assert ab[k - 1] == a[k - 1]; }
      } else {
        assert MarkCovered(b, k - |a|, lb);
        assert ab[k] == b[k - |a|];
        if k > |a| { assert ab[k - 1] == b[k - |a| - 1]; }
        else if k > 0 { assert ab[k - 1] == a[|a| - 1]; }
      }
    }
  }

  lemma {:induction false} ShieldedSlice(s: string, lead: bool, x: nat, y: nat)
    requires Shielded(s, lead) && x <= y <= |s|
    ensures Shielded(s[x..y], if x == 0 then lead else s[x - 1] == '}')
  {
    var t := s[x..y];
    var lt := if x == 0 then lead else s[x - 1] == '}';
    forall k: nat | k < |t| ensures MarkCovered(t, k, lt) {
      assert MarkCovered(s, x + k, lead);
      assert t[k] == s[x + k];
      if k > 0 { assert t[k - 1] == s[x + k - 1]; }
    }
  }

  lemma {:induction false} EscapeEachShielded(s: string)
    ensures Shielded(EscapeEach(s), false)
  {
    if s != [] {
      var c := s[0];
      EscapeEachShielded(s[1..]);
      var e := EscapeChar(c);
      if c in "&%#_{}" {
        NoMarksShielded("\\textbackslash{}", false);
        ShieldedConcat("\\textbackslash{}", [c], false);
      } else if c == '~' || c == '^' || c == '\\' || c == '$' {
        NoMarksShielded(e, false);
      } else {
        NoMarksShielded(e, false);
      }
      ShieldedLead(EscapeEach(s[1..]), false, e[|e| - 1] == '}');
      ShieldedConcat(e, EscapeEach(s[1..]), false);
    }
  }

  /** After the structural-character table every `#` and `%` follows a
      `}` and no `~` is left. */
  lemma {:induction false} EscapedIsShielded(s: string)
    ensures Shielded(ApplyRules(EscapeRules, s), false)
  {
    EscapeTableIsCharMap(s);
    EscapeEachShielded(s);
  }

  /** An entry that neither replaces `}`, `#` or `%` nor emits `#`, `%` or `~`. */
  predicate SafeRule(r: Rule) {
    r.0 != '}' && r.0 != '#' && r.0 != '%' && '#' !in r.1 && '%' !in r.1 && '~' !in r.1
  }

  lemma {:induction false} ShieldedTail(s: string, lead: bool)
    requires s != [] && Shielded(s, lead)
    ensures Shielded(s[1..], s[0] == '}')
  {
    ShieldedSlice(s, lead, 1, |s|);
    assert s[1..|s|] == s[1..];
  }

  lemma {:induction false} ReplaceCharShielded(s: string, r: Rule, lead: bool)
    requires SafeRule(r) && Shielded(s, lead)
    ensures Shielded(ReplaceChar(s, r.0, r.1), lead)
  {
    if s != [] {
      ShieldedTail(s, lead);
      ReplaceCharShielded(s[1..], r, s[0] == '}');
      var rest := ReplaceChar(s[1..], r.0, r.1);
      if s[0] == r.0 {
        NoMarksShielded(r.1, lead);
        ShieldedLead(rest, false, if r.1 == [] then lead else r.1[|r.1| - 1] == '}');
        ShieldedConcat(r.1, rest, lead);
      } else {
        ShieldedSlice(s, lead, 0, 1);
        assert s[0..1] == [s[0]];
        ShieldedConcat([s[0]], rest, lead);
      }
    }
  }

  lemma {:induction false} ApplyRulesShielded(rules: seq<Rule>, s: string, lead: bool)
    requires forall j :: 0 <= j < |rules| ==> SafeRule(rules[j])
    requires Shielded(s, lead)
    ensures Shielded(ApplyRules(rules, s), lead)
    decreases |rules|
  {
    if rules != [] {
      var n := |rules| - 1;
      ApplyRulesShielded(rules[..n], s, lead);
      ReplaceCharShielded(ApplyRules(rules[..n], s), rules[n], lead);
    }
  }

  lemma PolishRulesSafe()
    ensures forall j :: 0 <= j < |PolishRules| ==> SafeRule(PolishRules[j])
  {
  }

  lemma SymbolRulesSafe()
    ensures forall j :: 0 <= j < |SymbolRules| ==> SafeRule(SymbolRules[j])
  {
    SignRulesSafe();
    SuperscriptRulesSafe();
    SubscriptRulesSafe();
    SafeRulesJoin(SignRules, SuperscriptRules);
    SafeRulesJoin(SignRules + SuperscriptRules, SubscriptRules);
  }

  lemma SignRulesSafe()
    ensures forall j :: 0 <= j < |SignRules| ==> SafeRule(SignRules[j])
  {
  }

  lemma SuperscriptRulesSafe()
    ensures forall j :: 0 <= j < |SuperscriptRules| ==> SafeRule(SuperscriptRules[j])
  {
  }

  lemma SubscriptRulesSafe()
    ensures forall j :: 0 <= j < |SubscriptRules| ==> SafeRule(SubscriptRules[j])
  {
  }

  lemma {:induction false} SafeRulesJoin(a: seq<Rule>, b: seq<Rule>)
    requires forall j :: 0 <= j < |a| ==> SafeRule(a[j])
    requires forall j :: 0 <= j < |b| ==> SafeRule(b[j])
    ensures forall j :: 0 <= j < |a + b| ==> SafeRule((a + b)[j])
  {
    forall j | 0 <= j < |a + b| ensures SafeRule((a + b)[j]) {
      if j < |a| { assert (a + b)[j] == a[j]; } else { assert (a + b)[j] == b[j - |a|]; }
    }
  }

  lemma {:induction false} CiteShielded(s: string, i: nat)
    requires Shielded(s, false) && i <= |s|
    ensures Shielded(CiteFrom(s, i), i > 0 && s[i - 1] == '}')
    decreases |s| - i
  {
    if i < |s| {
      match CiteMatch(s, i)
      case Some(e) =>
        CiteShielded(s, e);
        CiteStepMatch(s, i, e);
      case None =>
        CiteShielded(s, i + 1);
        CiteStepPlain(s, i);
    }
  }

  /** One citation replaced, the rest already shielded. */
  lemma {:induction false} CiteStepMatch(s: string, i: nat, e: nat)
    requires Shielded(s, false) && i < |s| && CiteMatch(s, i) == Some(e)
    requires e <= |s| && Shielded(CiteFrom(s, e), s[e - 1] == '}')
    ensures Shielded(CiteFrom(s, i), i > 0 && s[i - 1] == '}')
  {
    CiteWordUnmarked(s, i, e);
    CiteGroupShielded(s[i + 1..e - 1], CiteFrom(s, e), s[e - 1] == '}', CiteFrom(s, i), i > 0 && s[i - 1] == '}');
  }

  /** The cited key holds word characters only, so no `#`, `%` or `~`. */
  lemma {:induction false} CiteWordUnmarked(s: string, i: nat, e: nat)
    requires i < |s| && CiteMatch(s, i) == Some(e)
    ensures i + 1 <= e - 1 < e <= |s|
    ensures var w := s[i + 1..e - 1]; '#' !in w && '%' !in w && '~' !in w
  {
    var w := s[i + 1..e - 1];
    forall k | 0 <= k < |w| ensures IsWordChar(w[k]) {
      assert w[k] == s[i + 1 + k];
    }
  }

  lemma {:induction false} CiteGroupShielded(w: string, rest: string, restLead: bool, whole: string, lead: bool)
    requires '#' !in w && '%' !in w && '~' !in w
    requires Shielded(rest, restLead)
    requires whole == "\\cite{" + w + "}" + rest
    ensures Shielded(whole, lead)
  {
    var rep := "\\cite{" + w + "}";
    NoMarksShielded(rep, lead);
    ShieldedLead(rest, restLead, true);
    ShieldedConcat(rep, rest, lead);
  }

  /** One character copied, the rest already shielded. */
  lemma {:induction false} CiteStepPlain(s: string, i: nat)
    requires Shielded(s, false) && i < |s| && CiteMatch(s, i).None?
    requires Shielded(CiteFrom(s, i + 1), s[i] == '}')
    ensures Shielded(CiteFrom(s, i), i > 0 && s[i - 1] == '}')
  {
    var rest := CiteFrom(s, i + 1);
    assert CiteFrom(s, i) == [s[i]] + rest;
    ShieldedSlice(s, false, i, i + 1);
    assert s[i..i + 1] == [s[i]];
    ShieldedConcat([s[i]], rest, i > 0 && s[i - 1] == '}');
  }

  /** The replacement for one emphasis match keeps the text shielded. */
  lemma {:induction false} EmphGroupShielded(s: string, d: string, cmd: string, i: nat, c: nat, rest: string, restLead: bool, whole: string, lead: bool)
    requires Shielded(s, false) && d != [] && '}' !in d
    requires '#' !in cmd && '%' !in cmd && '~' !in cmd
    requires 0 < i + |d| <= c <= |s| && s[i + |d| - 1] != '}'
    requires Shielded(rest, restLead)
    requires whole == cmd + "{" + s[i + |d|..c] + "}" + rest
    ensures Shielded(whole, lead)
  {
    ShieldedLead(rest, restLead, true);
    var g := i + |d|;
    ShieldedSlice(s, false, g, c);
    var open := cmd + "{";
    NoMarksShielded(open, lead);
    ShieldedConcat(open, s[g..c], lead);
    NoMarksShielded("}", lead);
    ShieldedConcat(open + s[g..c], "}", lead);
    ShieldedConcat(open + s[g..c] + "}", rest, lead);
  }

  lemma {:induction false} EmphShielded(s: string, d: string, cmd: string, i: nat)
    requires Shielded(s, false) && i <= |s|
    requires d != [] && '}' !in d
    requires '#' !in cmd && '%' !in cmd && '~' !in cmd
    ensures Shielded(EmphFrom(s, d, cmd, i), i > 0 && s[i - 1] == '}')
    decreases |s| - i, 1
  {
    if i < |s| {
      match EmphMatch(s, d, i)
      case Some(c) => EmphStepMatch(s, d, cmd, i, c);
      case None => EmphStepPlain(s, d, cmd, i);
    }
  }

  /** One emphasis group replaced, then the rest of the text. */
  lemma {:induction false} EmphStepMatch(s: string, d: string, cmd: string, i: nat, c: nat)
    requires Shielded(s, false) && i < |s|
    requires d != [] && '}' !in d
    requires '#' !in cmd && '%' !in cmd && '~' !in cmd
    requires EmphMatch(s, d, i) == Some(c)
    ensures Shielded(EmphFrom(s, d, cmd, i), i > 0 && s[i - 1] == '}')
    decreases |s| - i, 0
  {
    EmphOpenNotBrace(s, d, i);
    EmphFromMatch(s, d, cmd, i, c);
    var rest := EmphFrom(s, d, cmd, c + |d|);
    EmphShielded(s, d, cmd, c + |d|);
    EmphGroupShielded(s, d, cmd, i, c, rest, c + |d| > 0 && s[c + |d| - 1] == '}', EmphFrom(s, d, cmd, i), i > 0 && s[i - 1] == '}');
  }

  /** The text of a group starts right after its opening delimiter, which
      does not end in `}`. */
  lemma {:induction false} EmphOpenNotBrace(s: string, d: string, i: nat)
    requires d != [] && '}' !in d && i <= |s| && EmphMatch(s, d, i).Some?
    ensures i + |d| <= |s| && s[i + |d| - 1] != '}'
  {
    EmphMatchSound(s, d, i);
    assert s[i + |d| - 1] == s[i..i + |d|][|d| - 1];
    assert d[|d| - 1] in d;
  }

  lemma {:induction false} EmphFromMatch(s: string, d: string, cmd: string, i: nat, c: nat)
    requires d != [] && i < |s| && EmphMatch(s, d, i) == Some(c)
    ensures EmphFrom(s, d, cmd, i) == cmd + "{" + s[i + |d|..c] + "}" + EmphFrom(s, d, cmd, c + |d|)
  {
    var m := EmphMatch(s, d, i);
    assert m == Some(c);
    var g := cmd + "{" + s[i + |d|..c] + "}";
    assert EmphFrom(s, d, cmd, i) == g + EmphFrom(s, d, cmd, c + |d|);
  }

  /** One character copied, then the rest of the text. */
  lemma {:induction false} EmphStepPlain(s: string, d: string, cmd: string, i: nat)
    requires Shielded(s, false) && i < |s|
    requires d != [] && '}' !in d
    requires '#' !in cmd && '%' !in cmd && '~' !in cmd
    requires EmphMatch(s, d, i).None?
    ensures Shielded(EmphFrom(s, d, cmd, i), i > 0 && s[i - 1] == '}')
    decreases |s| - i, 0
  {
    var rest := EmphFrom(s, d, cmd, i + 1);
    assert EmphFrom(s, d, cmd, i) == [s[i]] + rest;
    EmphShielded(s, d, cmd, i + 1);
    ShieldedSlice(s, false, i, i + 1);
    assert s[i..i + 1] == [s[i]];
    ShieldedConcat([s[i]], rest, i > 0 && s[i - 1] == '}');
  }

  /** A `#` that follows a `}` cannot start a heading line. */
  lemma {:induction false} HeadingBlocked(s: string, p: string, i: nat)
    requires p != [] && p[0] == '#' && i < |s|
    requires s[i] == '#' ==> i > 0 && s[i - 1] == '}'
    ensures HeadingMatch(s, p, i) == None
  {
    if OccursAt(s, p, i) {
      assert s[i] == s[i..i + |p|][0];
    }
  }

  lemma {:induction false} HeadingInert(s: string, p: string, cmd: string, i: nat)
    requires Shielded(s, false) && p != [] && p[0] == '#' && i <= |s|
    ensures HeadingFrom(s, p, cmd, i) == s[i..]
    decreases |s| - i
  {
    if i < |s| {
      assert MarkCovered(s, i, false);
      HeadingBlocked(s, p, i);
      HeadingInert(s, p, cmd, i + 1);
      assert s[i..] == [s[i]] + s[i + 1..];
    }
  }

  lemma {:induction false} HeadingsInert(s: string)
    requires Shielded(s, false)
    ensures Headings(s) == s
  {
    HeadingInert(s, "# ", "\\chapter", 0);
    HeadingInert(s, "## ", "\\section", 0);
    HeadingInert(s, "### ", "\\subsection", 0);
    HeadingInert(s, "#### ", "\\subsubsection", 0);
  }

  /** A `%` that follows a `}` cannot end a percentage. */
  lemma {:induction false} PercentBlocked(s: string, i: nat)
    requires Shielded(s, false) && i < |s|
    ensures PercentMatch(s, i) == None
  {
    var r := PercentMatch(s, i);
    var e := if r.Some? then r.value else i;
    assert MarkCovered(s, e, false);
  }

  lemma {:induction false} PercentInert(s: string, i: nat)
    requires Shielded(s, false) && i <= |s|
    ensures PercentFrom(s, i) == s[i..]
    decreases |s| - i
  {
    if i < |s| {
      PercentBlocked(s, i);
      assert PercentFrom(s, i) == [s[i]] + PercentFrom(s, i + 1);
      PercentInert(s, i + 1);
      assert s[i..] == [s[i]] + s[i + 1..];
    }
  }

  /** The three tables leave every `#` and `%` after a `}` and no `~`. */
  lemma {:induction false} TablesShielded(s: string)
    ensures Shielded(ApplyRules(SymbolRules, ApplyRules(PolishRules, ApplyRules(EscapeRules, s))), false)
  {
    var t0 := ApplyRules(EscapeRules, s);
    EscapedIsShielded(s);
    PolishRulesSafe();
    SymbolRulesSafe();
    var t1 := ApplyRules(PolishRules, t0);
    ApplyRulesShielded(PolishRules, t0, false);
    ApplyRulesShielded(SymbolRules, t1, false);
  }

  lemma {:induction false} CiteThenHeadings(t: string)
    requires Shielded(t, false)
    ensures Shielded(Cite(t), false) && Headings(Cite(t)) == Cite(t)
  {
    CiteShielded(t, 0);
    HeadingsInert(Cite(t));
  }

  lemma {:induction false} EmphKeepsShielded(c: string)
    requires Shielded(c, false)
    ensures Shielded(Italic(Bold(c)), false)
  {
    EmphShielded(c, "**", "\\textbf", 0);
    EmphShielded(Bold(c), "*", "\\textit", 0);
  }

  lemma {:induction false} PercentAndTildeInert(it: string)
    requires Shielded(it, false)
    ensures Replace(Percent(it), "~70%", "\\textasciitilde{}70\\%") == it
  {
    PercentInert(it, 0);
    assert it[0..] == it;
    ReplaceFirstCharAbsent(it, "~70%", "\\textasciitilde{}70\\%");
  }

  /** The passes that can fire.  The heading rules, `(\d+)%` and the
      `~70%` replacement leave the text as it is, whatever the input. */
  lemma {:induction false} InertRules(s: string)
    ensures PlainText(s) ==
      Micro(Italic(Bold(Cite(ApplyRules(SymbolRules, ApplyRules(PolishRules, ApplyRules(EscapeRules, s)))))))
  {
    var t := ApplyRules(SymbolRules, ApplyRules(PolishRules, ApplyRules(EscapeRules, s)));
    TablesShielded(s);
    CiteThenHeadings(t);
    EmphKeepsShielded(Cite(t));
    PercentAndTildeInert(Italic(Bold(Cite(t))));
  }

  // ---------------------------------------------------------------------
  // Plain ASCII text

  lemma {:induction false} EscapeCharChars(c: char, x: char)
    ensures x in EscapeChar(c) ==> x == c || IsWordChar(x) || x in "\\{}$"
  {
  }

  lemma {:induction false} EscapeEachChars(s: string, x: char)
    ensures x in EscapeEach(s) ==> x in s || IsWordChar(x) || x in "\\{}$"
  {
    if s != [] {
      EscapeCharChars(s[0], x);
      EscapeEachChars(s[1..], x);
      assert s == [s[0]] + s[1..];
    }
  }

  /** Escaping never introduces a line feed. */
  lemma {:induction false} EscapeKeepsLines(s: string)
    requires '\n' !in s
    ensures '\n' !in EscapeEach(s)
  {
    EscapeEachChars(s, '\n');
    assert "\\{}$"[0] != '\n' && "\\{}$"[1] != '\n' && "\\{}$"[2] != '\n' && "\\{}$"[3] != '\n';
  }

  lemma {:induction false} EscapeEachAscii(s: string)
    requires IsAsciiString(s)
    ensures IsAsciiString(EscapeEach(s))
  {
    var e := EscapeEach(s);
    forall k | 0 <= k < |e| ensures e[k] < 128 as char {
      EscapeEachChars(s, e[k]);
      if e[k] in s {
        var m :| 0 <= m < |s| && s[m] == e[k];
      }
    }
  }

  lemma {:induction false} CiteIdle(s: string, i: nat)
    requires '[' !in s && i <= |s|
    ensures CiteFrom(s, i) == s[i..]
    decreases |s| - i
  {
    if i < |s| {
      assert s[i] in s;
      CiteIdle(s, i + 1);
      assert s[i..] == [s[i]] + s[i + 1..];
    }
  }

  lemma {:induction false} EmphIdle(s: string, d: string, cmd: string, i: nat)
    requires d != [] && d[0] !in s && i <= |s|
    ensures EmphFrom(s, d, cmd, i) == s[i..]
    decreases |s| - i
  {
    if i < |s| {
      OccursFirstChar(s, d, i);
      EmphIdle(s, d, cmd, i + 1);
      assert s[i..] == [s[i]] + s[i + 1..];
    }
  }

  lemma {:induction false} MicroNeedsSign(s: string, units: string, i: nat)
    requires i <= |s|
    ensures MicroMatch(s, units, i).Some? ==> !IsAsciiString(s)
  {
    var r := MicroMatch(s, units, i);
    if r.Some? {
      assert !(s[r.value.1 - 2] < 128 as char);
    }
  }

  lemma {:induction false} MicroIdle(s: string, units: string, unit: char, i: nat)
    requires IsAsciiString(s) && i <= |s|
    ensures MicroFrom(s, units, unit, i) == s[i..]
    decreases |s| - i
  {
    if i < |s| {
      MicroNeedsSign(s, units, i);
      MicroIdle(s, units, unit, i + 1);
      assert s[i..] == [s[i]] + s[i + 1..];
    }
  }

  /** On ASCII text the three tables amount to the per-character escape. */
  lemma {:induction false} TablesOnAscii(s: string)
    requires IsAsciiString(s)
    ensures ApplyRules(SymbolRules, ApplyRules(PolishRules, ApplyRules(EscapeRules, s))) == EscapeEach(s)
  {
    EscapeTableIsCharMap(s);
    var e := EscapeEach(s);
    EscapeEachAscii(s);
    PolishRulesAscii();
    SymbolRulesAscii();
    AsciiRulesIdle(PolishRules, e);
    AsciiRulesIdle(SymbolRules, e);
  }

  lemma {:induction false} EscapedAscii(s: string)
    requires IsAsciiString(s) && '[' !in s && '*' !in s
    ensures IsAsciiString(EscapeEach(s)) && '[' !in EscapeEach(s) && '*' !in EscapeEach(s)
  {
    EscapeEachAscii(s);
    EscapeEachChars(s, '[');
    EscapeEachChars(s, '*');
  }

  /** Citations, emphasis and micro units find nothing in ASCII text
      without `[` or `*`. */
  lemma {:induction false} IdlePasses(e: string)
    requires IsAsciiString(e) && '[' !in e && '*' !in e
    ensures Micro(Italic(Bold(Cite(e)))) == e
  {
    CiteIdle(e, 0);
    assert e[0..] == e;
    EmphIdle(e, "**", "\\textbf", 0);
    EmphIdle(e, "*", "\\textit", 0);
    MicroIdle(e, "mM", 'm', 0);
    MicroIdle(e, "Aa", 'A', 0);
  }

  /** On ASCII text without `[` or `*` the escaper is exactly the
      per-character structural escape. */
  lemma {:induction false} PlainTextOnAscii(s: string)
    requires IsAsciiString(s) && '[' !in s && '*' !in s
    ensures PlainText(s) == EscapeEach(s)
  {
    InertRules(s);
    TablesOnAscii(s);
    EscapedAscii(s);
    IdlePasses(EscapeEach(s));
  }

  lemma {:induction false} EscapeEachPercent(s: string)
    requires s == "70%"
    ensures IsAsciiString(s) && '[' !in s && '*' !in s
    ensures EscapeEach(s) == "70" + "\\textbackslash{}%"
  {
    var p := "\\textbackslash{}%";
    assert "%" == ['%'] + [];
    EscapeEachCons('%', [], p);
    assert EscapeEach("%") == p;
    assert "0%" == ['0'] + "%";
    EscapeEachCons('0', "%", "0");
    assert EscapeEach("0%") == "0" + p;
    assert s == ['7'] + "0%";
    EscapeEachCons('7', "0%", "7");
    assert EscapeEach(s) == "7" + ("0" + p);
    assert "7" + "0" == "70";
  }

  lemma {:induction false} EscapeEachCons(c: char, rest: string, e: string)
    requires EscapeChar(c) == e
    ensures EscapeEach([c] + rest) == e + EscapeEach(rest)
  {
    assert ([c] + rest)[1..] == rest;
  }

  /** The percent sign is escaped by the table as `\textbackslash{}%`; the
      later `(\d+)%` rule that would produce `70\%` never sees a bare `%`. */
  lemma {:induction false} PercentExample(s: string)
    requires s == "70%"
    ensures PlainText(s) == "70" + "\\textbackslash{}%"
  {
    EscapeEachPercent(s);
    PlainTextOnAscii(s);
  }

  lemma {:induction false} EscapeEachDollar(s: string)
    requires s == "$5"
    ensures IsAsciiString(s) && '[' !in s && '*' !in s
    ensures EscapeEach(s) == "\\$5"
  {
    assert EscapeEach(s[1..]) == "5" + EscapeEach([]);
    assert EscapeEach(s) == EscapeChar('$') + EscapeEach(s[1..]);
  }

  /** The dollar entry comes after the backslash entry, so its `\$` survives. */
  lemma {:induction false} DollarExample(s: string)
    requires s == "$5"
    ensures PlainText(s) == "\\$5"
  {
    EscapeEachDollar(s);
    PlainTextOnAscii(s);
  }
}

=== FILE: fragments.dfy ===
/** Which page fragments the compiler's main document includes, and in what
    order: the names in the fragment directory that look like `page_<n>.tex`
    and are not outputs of the encoding fixers, sorted stably by the number
    that the first `page_(\d+)` match captures. */
module Fragments {
  import opened Text

  /** The filter of the fragment listing. */
  predicate Kept(name: string) {
    StartsWith(name, "page_") && EndsWith(name, ".tex")
    && !(EndsWith(name, "_fixed.tex") || EndsWith(name, "_ascii.tex"))
  }

  /** End of the run of digits that starts at `j`. */
  function DigitRun(s: string, j: nat): (e: nat)
    requires j <= |s|
    ensures j <= e <= |s|
    ensures forall k :: j <= k < e ==> IsDigit(s[k])
    ensures e < |s| ==> !IsDigit(s[e])
    decreases |s| - j
  {
    if j < |s| && IsDigit(s[j]) then DigitRun(s, j + 1) else j
  }

  /** The pattern `page_(\d+)` matches at `i`. */
  predicate MatchAt(s: string, i: nat) {
    OccursAt(s, "page_", i) && i + 5 < |s| && IsDigit(s[i + 5])
  }

  /** The digits the match at `i` captures; `\d+` is greedy. */
  function Captured(s: string, i: nat): (d: string)
    requires MatchAt(s, i)
    ensures d != [] && forall k :: 0 <= k < |d| ==> IsDigit(d[k])
  {
    s[i + 5..DigitRun(s, i + 5)]
  }

  /** The number captured by the leftmost match at or after `i`. */
  function FirstPageNumber(s: string, i: nat): Option<nat>
    requires i <= |s|
    decreases |s| - i
  {
    if i == |s| then None
    else if MatchAt(s, i) then Some(DecimalValue(Captured(s, i)))
    else FirstPageNumber(s, i + 1)
  }

  /** There is no key exactly when the pattern matches nowhere. */
  lemma {:induction false} NoMatchNoNumber(s: string, i: nat)
    requires i <= |s|
    ensures FirstPageNumber(s, i).None? <==> forall j: nat :: i <= j ==> !MatchAt(s, j)
    decreases |s| - i
  {
    if i < |s| && !MatchAt(s, i) {
      NoMatchNoNumber(s, i + 1);
    }
  }

  /** The sort key of a name; `None` where the key function raises `IndexError`. */
  function PageNumber(s: string): Option<nat> {
    FirstPageNumber(s, 0)
  }

  /** The key is the number that the leftmost match captures. */
  lemma {:induction false} LeftmostMatch(s: string, i: nat, m: nat)
    requires i <= m && MatchAt(s, m)
    requires forall j: nat :: i <= j < m ==> !MatchAt(s, j)
    ensures FirstPageNumber(s, i) == Some(DecimalValue(Captured(s, m)))
    decreases m - i
  {
    if i < m {
      LeftmostMatch(s, i + 1, m);
    }
  }

  /** The name the assembler writes for page `n` is kept and sorts under `n`;
      the names the two fixers write next to it are not kept. */
  lemma {:induction false} PageFileName(n: nat)
    ensures Kept("page_" + DecimalString(n) + ".tex")
    ensures PageNumber("page_" + DecimalString(n) + ".tex") == Some(n)
    ensures !Kept("page_" + DecimalString(n) + "_fixed.tex")
    ensures !Kept("page_" + DecimalString(n) + "_ascii.tex")
  {
    var d := DecimalString(n);
    var s := "page_" + d + ".tex";
    assert s[..5] == "page_";
    assert s[|s| - 4..] == ".tex";
    assert s[|s| - 5] == d[|d| - 1];
    assert IsDigit(d[|d| - 1]);
    assert MatchAt(s, 0) by {
      assert s[0..5] == "page_";
      assert s[5] == d[0];
    }
    assert DigitRun(s, 5) == 5 + |d| by {
      var e := DigitRun(s, 5);
      forall k | 5 <= k < 5 + |d| ensures IsDigit(s[k]) {
        assert s[k] == d[k - 5];
      }
      assert s[5 + |d|] == '.';
    }
    assert Captured(s, 0) == d;
    DecimalRoundTrip(n);
    LeftmostMatch(s, 0, 0);
    var f := "page_" + d + "_fixed.tex";
    assert f[|f| - 10..] == "_fixed.tex";
    var a := "page_" + d + "_ascii.tex";
    assert a[|a| - 10..] == "_ascii.tex";
  }

  // ---------------------------------------------------------------------
  // Filtering

  function KeptNames(listing: seq<string>): (r: seq<string>)
    ensures forall x :: x in r <==> x in listing && Kept(x)
  {
    if listing == [] then []
    else (if Kept(listing[0]) then [listing[0]] else []) + KeptNames(listing[1..])
  }

  // ---------------------------------------------------------------------
  // Sorting

  predicate Numbered(s: seq<string>) {
    forall k :: 0 <= k < |s| ==> PageNumber(s[k]).Some?
  }

  /** A name with its sort key. */
  datatype Entry = Entry(page: nat, name: string)

  /** The key of every name, computed before sorting starts. */
  function Entries(names: seq<string>): (r: seq<Entry>)
    requires Numbered(names)
    ensures |r| == |names|
    ensures forall k :: 0 <= k < |r| ==> r[k].name == names[k] && Some(r[k].page) == PageNumber(names[k])
  {
    seq(|names|, k requires 0 <= k < |names| => Entry(PageNumber(names[k]).value, names[k]))
  }

  function Names(s: seq<Entry>): (r: seq<string>)
    ensures |r| == |s| && forall k :: 0 <= k < |s| ==> r[k] == s[k].name
  {
    if s == [] then [] else [s[0].name] + Names(s[1..])
  }

  predicate SortedByPage(s: seq<Entry>) {
    forall i, j :: 0 <= i < j < |s| ==> s[i].page <= s[j].page
  }

  /** The entries in `s` whose key is `k`, in their order in `s`. */
  function WithPage(s: seq<Entry>, k: nat): seq<Entry> {
    if s == [] then []
    else (if s[0].page == k then [s[0]] else []) + WithPage(s[1..], k)
  }

  /** Puts `x` before the first entry whose key is not smaller. */
  function Insert(x: Entry, s: seq<Entry>): (r: seq<Entry>)
    ensures multiset(r) == multiset([x] + s)
  {
    if s == [] || x.page <= s[0].page then [x] + s
    else
      var r := [s[0]] + Insert(x, s[1..]);
      assert s == [s[0]] + s[1..];
      r
  }

  /** Python's `sorted` with a key: a stable sort. */
  function SortByPage(s: seq<Entry>): (r: seq<Entry>)
    ensures multiset(r) == multiset(s)
  {
    if s == [] then []
    else
      var r := Insert(s[0], SortByPage(s[1..]));
      assert s == [s[0]] + s[1..];
      r
  }

  lemma {:induction false} InsertSorted(x: Entry, s: seq<Entry>)
    requires SortedByPage(s)
    ensures SortedByPage(Insert(x, s))
  {
    if s == [] || x.page <= s[0].page {
      ConsSorted(x, s);
    } else {
      InsertSorted(x, s[1..]);
      var r := Insert(x, s[1..]);
      InsertAbove(x, s[1..], s[0].page);
      ConsSorted(s[0], r);
      assert [s[0]] + r == Insert(x, s);
    }
  }

  /** Inserting keeps a lower bound on the keys. */
  lemma {:induction false} InsertAbove(x: Entry, s: seq<Entry>, b: nat)
    requires b <= x.page && forall j :: 0 <= j < |s| ==> b <= s[j].page
    ensures forall j :: 0 <= j < |Insert(x, s)| ==> b <= Insert(x, s)[j].page
  {
    var r := Insert(x, s);
    forall j | 0 <= j < |r| ensures b <= r[j].page {
      assert r[j] in multiset([x] + s);
      if r[j] != x {
        assert r[j] in s;
      }
    }
  }

  lemma {:induction false} ConsSorted(h: Entry, r: seq<Entry>)
    requires SortedByPage(r) && forall j :: 0 <= j < |r| ==> h.page <= r[j].page
    ensures SortedByPage([h] + r)
  {
    var t := [h] + r;
    forall i, j | 0 <= i < j < |t| ensures t[i].page <= t[j].page {
      assert t[j] == r[j - 1];
      if i > 0 {
        assert t[i] == r[i - 1];
      }
    }
  }

  lemma {:induction false} InsertWithPage(x: Entry, s: seq<Entry>, k: nat)
    ensures WithPage(Insert(x, s), k) == (if x.page == k then [x] else []) + WithPage(s, k)
  {
    if s == [] || x.page <= s[0].page {
      assert ([x] + s)[1..] == s;
    } else {
      var r := Insert(x, s[1..]);
      InsertWithPage(x, s[1..], k);
      assert ([s[0]] + r)[1..] == r;
      assert x.page != k || s[0].page != k;
    }
  }

  lemma {:induction false} SortSorted(s: seq<Entry>)
    ensures SortedByPage(SortByPage(s))
  {
    if s != [] {
      SortSorted(s[1..]);
      InsertSorted(s[0], SortByPage(s[1..]));
    }
  }

  /** Entries with equal keys keep their order: the sort is stable. */
  lemma {:induction false} SortStable(s: seq<Entry>, k: nat)
    ensures WithPage(SortByPage(s), k) == WithPage(s, k)
  {
    if s != [] {
      SortStable(s[1..], k);
      InsertWithPage(s[0], SortByPage(s[1..]), k);
    }
  }

  lemma {:induction false} WithPageEmpty(s: seq<Entry>, k: nat)
    requires forall j :: 0 <= j < |s| ==> s[j].page != k
    ensures WithPage(s, k) == []
  {
    if s != [] {
      WithPageEmpty(s[1..], k);
    }
  }

  lemma {:induction false} WithPageMember(s: seq<Entry>, k: nat)
    requires WithPage(s, k) != []
    ensures exists j :: 0 <= j < |s| && s[j].page == k
  {
    if s[0].page != k {
      WithPageMember(s[1..], k);
      var j :| 0 <= j < |s[1..]| && s[1..][j].page == k;
      assert s[j + 1].page == k;
    }
  }

  /** Two sorted sequences with the same entries per key start with the same entry. */
  lemma {:induction false} SameFirst(a: seq<Entry>, b: seq<Entry>)
    requires SortedByPage(a) && SortedByPage(b) && a != []
    requires forall k: nat :: WithPage(a, k) == WithPage(b, k)
    ensures b != [] && a[0] == b[0]
  {
    var ka := a[0].page;
    WithPageHead(a);
    WithPageMember(b, ka);
    var jb :| 0 <= jb < |b| && b[jb].page == ka;
    var kb := b[0].page;
    WithPageHead(b);
    WithPageMember(a, kb);
    var ja :| 0 <= ja < |a| && a[ja].page == kb;
    assert kb <= b[jb].page;
    assert ka <= a[ja].page;
    assert WithPage(a, ka)[0] == WithPage(b, kb)[0];
  }

  lemma {:induction false} WithPageHead(s: seq<Entry>)
    requires s != []
    ensures WithPage(s, s[0].page) == [s[0]] + WithPage(s[1..], s[0].page)
  {
  }

  /** A sorted sequence is determined by the order of entries within each
      key, so any stable sort by page number gives the same result as this one. */
  lemma {:induction false} SortedUnique(a: seq<Entry>, b: seq<Entry>)
    requires SortedByPage(a) && SortedByPage(b)
    requires forall k: nat :: WithPage(a, k) == WithPage(b, k)
    ensures a == b
    decreases |a| + |b|
  {
    if a != [] {
      SameFirst(a, b);
      var ka := a[0].page;
      forall k: nat ensures WithPage(a[1..], k) == WithPage(b[1..], k) {
        var p := if ka == k then [a[0]] else [];
        assert WithPage(a, k) == p + WithPage(a[1..], k);
        assert WithPage(b, k) == p + WithPage(b[1..], k);
        assert WithPage(a[1..], k) == WithPage(a, k)[|p|..];
        assert WithPage(b[1..], k) == WithPage(b, k)[|p|..];
      }
      SortedUnique(a[1..], b[1..]);
      assert a == [a[0]] + a[1..] && b == [b[0]] + b[1..];
    } else if b != [] {
      SameFirst(b, a);
    }
  }

  /** Any stable sort by page number, Python's included, gives this order. */
  lemma {:induction false} StableSortUnique(es: seq<Entry>, t: seq<Entry>)
    requires SortedByPage(t)
    requires forall k: nat :: WithPage(t, k) == WithPage(es, k)
    ensures t == SortByPage(es)
  {
    SortSorted(es);
    forall k: nat ensures WithPage(t, k) == WithPage(SortByPage(es), k) {
      SortStable(es, k);
    }
    SortedUnique(t, SortByPage(es));
  }

  // ---------------------------------------------------------------------
  // The fragment list

  /** The fragment list the main document includes; `None` where a kept name
      has no `page_<digits>` and the key function raises `IndexError`. */
  function FragmentOrder(listing: seq<string>): (r: Option<seq<string>>)
    ensures r.None? <==> exists x :: x in listing && Kept(x) && PageNumber(x).None?
  {
    var kept := KeptNames(listing);
    if Numbered(kept) then Some(Names(SortByPage(Entries(kept))))
    else
      var k :| 0 <= k < |kept| && PageNumber(kept[k]).None?;
      assert kept[k] in kept;
      None
  }

  lemma {:induction false} NamesOfEntries(names: seq<string>)
    requires Numbered(names)
    ensures Names(Entries(names)) == names
  {
  }

  /** Every entry of the sorted list carries the key of its own name. */
  lemma {:induction false} SortedKeyAt(names: seq<string>, sorted: seq<Entry>, i: nat)
    requires Numbered(names) && sorted == SortByPage(Entries(names))
    requires i < |sorted|
    ensures PageNumber(sorted[i].name) == Some(sorted[i].page)
  {
    var es := Entries(names);
    assert sorted[i] in multiset(es);
    var k :| 0 <= k < |es| && es[k] == sorted[i];
  }

  /** The list is a permutation of the kept names, so it holds exactly the
      names in the listing that pass the filter. */
  lemma {:induction false} FragmentOrderMembers(listing: seq<string>)
    requires FragmentOrder(listing).Some?
    ensures Numbered(KeptNames(listing))
    ensures multiset(FragmentOrder(listing).value) == multiset(KeptNames(listing))
    ensures forall x :: x in FragmentOrder(listing).value <==> x in listing && Kept(x)
  {
    var kept := KeptNames(listing);
    var r := FragmentOrder(listing).value;
    assert r == Names(SortByPage(Entries(kept)));
    SortNames(Entries(kept));
    NamesOfEntries(kept);
    forall x ensures x in r <==> x in kept {
      assert x in r <==> x in multiset(r);
      assert x in kept <==> x in multiset(kept);
    }
  }

  /** The list ascends by page number. */
  lemma {:induction false} FragmentOrderSorted(listing: seq<string>)
    requires FragmentOrder(listing).Some?
    ensures var r := FragmentOrder(listing).value;
      forall i, j :: 0 <= i < j < |r| ==>
        (PageNumber(r[i]).Some? && PageNumber(r[j]).Some? && PageNumber(r[i]).value <= PageNumber(r[j]).value)
  {
    var kept := KeptNames(listing);
    var sorted := SortByPage(Entries(kept));
    assert FragmentOrder(listing).value == Names(sorted);
    SortSorted(Entries(kept));
    var r := Names(sorted);
    forall i, j | 0 <= i < j < |r|
      ensures PageNumber(r[i]).Some? && PageNumber(r[j]).Some? && PageNumber(r[i]).value <= PageNumber(r[j]).value
    {
      SortedKeyAt(kept, sorted, i);
      SortedKeyAt(kept, sorted, j);
      assert r[i] == sorted[i].name && r[j] == sorted[j].name;
    }
  }

  /** Names with the same page number keep the order the listing gave them. */
  lemma {:induction false} FragmentOrderStable(listing: seq<string>, k: nat)
    requires FragmentOrder(listing).Some?
    ensures Numbered(KeptNames(listing))
    ensures WithPage(SortByPage(Entries(KeptNames(listing))), k) == WithPage(Entries(KeptNames(listing)), k)
  {
    SortStable(Entries(KeptNames(listing)), k);
  }

  lemma {:induction false} InsertNames(x: Entry, s: seq<Entry>)
    ensures multiset(Names(Insert(x, s))) == multiset{x.name} + multiset(Names(s))
  {
    if s == [] || x.page <= s[0].page {
      assert Names([x] + s) == [x.name] + Names(s);
    } else {
      InsertNames(x, s[1..]);
      assert Names([s[0]] + Insert(x, s[1..])) == [s[0].name] + Names(Insert(x, s[1..]));
      assert Names(s) == [s[0].name] + Names(s[1..]);
    }
  }

  lemma {:induction false} SortNames(s: seq<Entry>)
    ensures multiset(Names(SortByPage(s))) == multiset(Names(s))
  {
    if s != [] {
      var r := SortByPage(s[1..]);
      SortNames(s[1..]);
      InsertNames(s[0], r);
      assert SortByPage(s) == Insert(s[0], r);
      var n := Names(s[1..]);
      assert Names(s) == [s[0].name] + n;
      assert multiset([s[0].name] + n) == multiset{s[0].name} + multiset(n);
    }
  }
}

=== FILE: pages.dfy ===
/** A page fragment (`process_page`, assembler.py:470-505) and the
    bibliography gathered from all pages (`collect_bibliography`,
    assembler.py:530-552). */
module Pages {
  import opened Text
  import opened Segmenter
  import opened Blocks

  /** One entry of a page's `references` list. A missing `id` or
      `citation` is the empty string, which is as false as a missing one. */
  datatype Reference = Reference(id: string, citation: string)

  /** The fields of a page's JSON file that the fragment uses. */
  datatype Page = Page(sectionLevel: Option<int>, title: Option<string>, content: seq<Block>, references: seq<Reference>)

  // ---------------------------------------------------------------------
  // The page fragment

  /** The page heading: level 1 unless given, title `Page n` unless given. */
  function PageHeader(pageNumber: nat, page: Page): string {
    var level := if page.sectionLevel.Some? then page.sectionLevel.value else 1;
    var title := Get(page.title, "Page " + DecimalString(pageNumber));
    HeadingCommand(level) + "{" + LatexText(title) + "}\n\n"
  }

  /** The blocks' fragments, in order. */
  function BlocksLatex(blocks: seq<Block>, load: string -> string, resolve: string -> string): string {
    if blocks == [] then []
    else BlocksLatex(blocks[..|blocks| - 1], load, resolve) + ContentBlock(blocks[|blocks| - 1], load, resolve)
  }

  const HeadUsed: string := "% References used in this page:"
  const HeadCollected: string := "% These will be collected" + " into the main bibliography file"
  const CommentHead: string := HeadUsed + "\n" + HeadCollected + "\n"

  function CommentLine(r: Reference): string {
    "% " + r.id + ": " + r.citation + "\n"
  }

  function CommentLines(refs: seq<Reference>): string {
    if refs == [] then [] else CommentLines(refs[..|refs| - 1]) + CommentLine(refs[|refs| - 1])
  }

  /** The references as LaTeX comments; nothing when there are none. */
  function ReferenceComments(refs: seq<Reference>): string {
    if refs == [] then [] else CommentHead + CommentLines(refs)
  }

  /** The whole fragment: heading, blocks in order, then the references. */
  function PageLatex(pageNumber: nat, page: Page, load: string -> string, resolve: string -> string): string {
    PageHeader(pageNumber, page) + BlocksLatex(page.content, load, resolve) + ReferenceComments(page.references)
  }

  /** The writer: the heading, each block's fragment as it is produced,
      then the comment lines, all passed through the file's ASCII encoder. */
  method ProcessPage(pageNumber: nat, page: Page, load: string -> string, resolve: string -> string)
    returns (out: string)
    ensures out == BackslashReplace(PageLatex(pageNumber, page, load, resolve))
  {
    var level := if page.sectionLevel.Some? then page.sectionLevel.value else 1;
    var title := Get(page.title, "Page " + DecimalString(pageNumber));
    var titleSafe := CreateLatexText(title);
    var blocks := WriteBlocks(page.content, load, resolve);
    var comments := WriteReferences(page.references);
    out := BackslashReplace(HeadingCommand(level) + "{" + titleSafe + "}\n\n" + blocks + comments);
  }

  // ---------------------------------------------------------------------
  // The file's encoding: ASCII, with `backslashreplace` for the rest

  function HexDigit(n: nat): (c: char)
    requires n < 16
    ensures IsHexDigit(c) && HexDigitValue(c) == n
  {
    if n < 10 then '0' + n as char else 'a' + (n - 10) as char
  }

  predicate IsHexDigit(c: char) { '0' <= c <= '9' || 'a' <= c <= 'f' }

  function HexDigitValue(c: char): nat
    requires IsHexDigit(c)
  {
    if c <= '9' then c as int - '0' as int else c as int - 'a' as int + 10
  }

  function Pow16(w: nat): nat {
    if w == 0 then 1 else 16 * Pow16(w - 1)
  }

  /** The last `w` hexadecimal digits of `n`, lower case, most significant first. */
  function HexDigits(n: nat, w: nat): (s: string)
    ensures |s| == w
    ensures forall k :: 0 <= k < |s| ==> IsHexDigit(s[k])
  {
    if w == 0 then [] else HexDigits(n / 16, w - 1) + [HexDigit(n % 16)]
  }

  /** The number a string of hexadecimal digits denotes. */
  function HexValue(s: string): nat
    requires forall k :: 0 <= k < |s| ==> IsHexDigit(s[k])
  {
    if s == [] then 0
    else
      assert IsHexDigit(s[|s| - 1]);
      16 * HexValue(s[..|s| - 1]) + HexDigitValue(s[|s| - 1])
  }

  /** Reading back `w` digits gives the number whenever it fits in them. */
  lemma {:induction false} HexRoundTrip(n: nat, w: nat)
    requires n < Pow16(w)
    ensures HexValue(HexDigits(n, w)) == n
  {
    if w > 0 {
      var s := HexDigits(n, w);
      assert n / 16 < Pow16(w - 1);
      HexRoundTrip(n / 16, w - 1);
      assert s[..|s| - 1] == HexDigits(n / 16, w - 1);
    }
  }

  /** What the encoder writes for one character: ASCII as it is, anything
      else as `\xhh`, `\uhhhh` or `\Uhhhhhhhh`. */
  function CharEscape(c: char): string {
    if c < 128 as char then [c]
    else if (c as int) < 0x100 then "\\x" + HexDigits(c as int, 2)
    else if (c as int) < 0x1_0000 then "\\u" + HexDigits(c as int, 4)
    else "\\U" + HexDigits(c as int, 8)
  }

  /** What `encoding='ascii', errors='backslashreplace'` writes for `s`. */
  function BackslashReplace(s: string): string {
    if s == [] then [] else CharEscape(s[0]) + BackslashReplace(s[1..])
  }

  /** A replaced character is a backslash, a width letter and digits that
      denote the character's code point: the escape can be read back. */
  lemma {:induction false} CharEscapeRoundTrip(c: char)
    requires c >= 128 as char
    ensures var e := CharEscape(c);
      |e| >= 4 && e[0] == '\\' && e[1] in "xuU" &&
      (forall k :: 2 <= k < |e| ==> IsHexDigit(e[k])) &&
      HexValue(e[2..]) == c as int
  {
    var e := CharEscape(c);
    if (c as int) < 0x100 {
      assert e[2..] == HexDigits(c as int, 2);
      HexRoundTrip(c as int, 2);
    } else if (c as int) < 0x1_0000 {
      assert e[2..] == HexDigits(c as int, 4);
      HexRoundTrip(c as int, 4);
    } else {
      assert e[2..] == HexDigits(c as int, 8);
      assert Pow16(8) == 0x1_0000_0000;
      HexRoundTrip(c as int, 8);
    }
  }

  lemma {:induction false} CharEscapeAscii(c: char)
    ensures IsAsciiString(CharEscape(c))
  {
  }

  /** Whatever the fragment holds, the file is ASCII. */
  lemma {:induction false} BackslashReplaceIsAscii(s: string)
    ensures IsAsciiString(BackslashReplace(s))
  {
    if s != [] {
      CharEscapeAscii(s[0]);
      BackslashReplaceIsAscii(s[1..]);
    }
  }

  /** A fragment that is already ASCII is written unchanged. */
  lemma {:induction false} BackslashReplaceAscii(s: string)
    requires IsAsciiString(s)
    ensures BackslashReplace(s) == s
  {
    if s != [] {
      BackslashReplaceAscii(s[1..]);
      assert s == [s[0]] + s[1..];
    }
  }

  /** A non-ASCII letter the escaper leaves alone reaches the file as a
      Python escape, which LaTeX typesets literally: `é` becomes `\xe9`. */
  lemma AcuteEExample()
    ensures BackslashReplace("\U{e9}") == "\\xe9"
  {
    assert "\U{e9}"[1..] == [];
    assert HexDigits(0xe9, 2) == "e9";
  }

  method WriteBlocks(blocks: seq<Block>, load: string -> string, resolve: string -> string) returns (out: string)
    ensures out == BlocksLatex(blocks, load, resolve)
  {
    out := [];
    for k := 0 to |blocks|
      invariant out == BlocksLatex(blocks[..k], load, resolve)
    {
      var piece := ProcessContentBlock(blocks[k], load, resolve);
      assert blocks[..k + 1][..k] == blocks[..k];
      out := out + piece;
    }
    assert blocks[..|blocks|] == blocks;
  }

  method WriteReferences(refs: seq<Reference>) returns (out: string)
    ensures out == ReferenceComments(refs)
  {
    out := [];
    if refs != [] {
      out := CommentHead;
      for k := 0 to |refs|
        invariant out == CommentHead + CommentLines(refs[..k])
      {
        assert refs[..k + 1][..k] == refs[..k];
        out := out + CommentLine(refs[k]);
      }
      assert refs[..|refs|] == refs;
    }
  }

  /** Text made of whole lines that all start with `%`: LaTeX ignores it. */
  predicate CommentText(t: string) {
    t == [] || (t[0] == '%' && t[|t| - 1] == '\n' && forall i :: 0 <= i < |t| - 1 && t[i] == '\n' ==> t[i + 1] == '%')
  }

  lemma {:induction false} CommentTextConcat(a: string, b: string)
    requires CommentText(a) && CommentText(b)
    ensures CommentText(a + b)
  {
    var t := a + b;
    if a != [] && b != [] {
      forall i | 0 <= i < |t| - 1 && t[i] == '\n' ensures t[i + 1] == '%' {
        if i < |a| - 1 {
          assert t[i] == a[i] && t[i + 1] == a[i + 1];
        } else if i == |a| - 1 {
          assert t[i + 1] == b[0];
        } else {
          assert t[i] == b[i - |a|] && t[i + 1] == b[i - |a| + 1];
        }
      }
    } else if a == [] {
      assert t == b;
    } else {
      assert t == a;
    }
  }

  /** One line starting with `%` and holding no other line feed. */
  lemma {:induction false} CommentLineText(body: string)
    requires body != [] && body[0] == '%' && '\n' !in body
    ensures CommentText(body + "\n")
  {
    var t := body + "\n";
    assert forall i :: 0 <= i < |t| - 1 ==> t[i] == body[i] && t[i] != '\n';
  }

  lemma {:induction false} CommentLinesText(refs: seq<Reference>)
    requires forall r :: r in refs ==> '\n' !in r.id && '\n' !in r.citation
    ensures CommentText(CommentLines(refs))
    decreases |refs|
  {
    if refs != [] {
      var init := refs[..|refs| - 1];
      var r := refs[|refs| - 1];
      assert forall x :: x in init ==> x in refs;
      CommentLinesText(init);
      var body := "% " + r.id + ": " + r.citation;
      assert body == "% " + r.id + ": " + r.citation;
      assert '\n' !in body by {
        assert forall k :: 0 <= k < |body| ==> body[k] in "% " || body[k] in r.id || body[k] in ": " || body[k] in r.citation by {
          forall k | 0 <= k < |body| ensures body[k] in "% " || body[k] in r.id || body[k] in ": " || body[k] in r.citation {
            if k < 2 { assert body[k] == "% "[k]; }
            else if k < 2 + |r.id| { assert body[k] == r.id[k - 2]; }
            else if k < 4 + |r.id| { assert body[k] == ": "[k - 2 - |r.id|]; }
            else { assert body[k] == r.citation[k - 4 - |r.id|]; }
          }
        }
      }
      CommentLineText(body);
      assert CommentLine(r) == body + "\n";
      CommentTextConcat(CommentLines(init), CommentLine(r));
    }
  }

  lemma {:induction false} FirstHeadLine(s: string)
    requires s == "% References used in this page:"
    ensures '\n' !in s
  {
    assert s == "% Refer" + "ences u" + "sed in " + "this pa" + "ge:";
  }

  lemma {:induction false} SecondHeadFront(s: string)
    requires s == "% These will be collected"
    ensures '\n' !in s
  {
    assert s == "% These" + " will b" + "e colle" + "cted";
  }

  lemma {:induction false} SecondHeadBack(s: string)
    requires s == " into the main bibliography file"
    ensures '\n' !in s
  {
    assert s == " into t" + "he main" + " biblio" + "graphy " + "file";
  }

  /** The two header lines are comments. */
  lemma CommentHeadText()
    ensures CommentText(CommentHead)
  {
    FirstHeadLine(HeadUsed);
    SecondHeadFront("% These will be collected");
    SecondHeadBack(" into the main bibliography file");
    assert HeadUsed[0] == '%' && HeadCollected[0] == '%';
    CommentLineText(HeadUsed);
    CommentLineText(HeadCollected);
    assert CommentHead == (HeadUsed + "\n") + (HeadCollected + "\n");
    CommentTextConcat(HeadUsed + "\n", HeadCollected + "\n");
  }

  /** The reference lines of a fragment are LaTeX comments, whatever the
      references hold, as long as no identifier or citation spans lines. */
  lemma {:induction false} ReferencesAreComments(refs: seq<Reference>)
    requires forall r :: r in refs ==> '\n' !in r.id && '\n' !in r.citation
    ensures CommentText(ReferenceComments(refs))
  {
    if refs != [] {
      CommentHeadText();
      CommentLinesText(refs);
      CommentTextConcat(CommentHead, CommentLines(refs));
    }
  }

  // ---------------------------------------------------------------------
  // The bibliography

  /** `all_references`: the keys in insertion order and the dictionary. */
  datatype Bib = Bib(order: seq<string>, entries: map<string, string>)

  /** A reference counts when both its identifier and its citation are non-empty. */
  predicate Counted(r: Reference) { r.id != [] && r.citation != [] }

  /** The dictionary after the references were stored one by one. */
  function Collect(refs: seq<Reference>): (b: Bib)
    ensures forall i, j :: 0 <= i < j < |b.order| ==> b.order[i] != b.order[j]
    ensures forall id :: id in b.order <==> id in b.entries
  {
    if refs == [] then Bib([], map[])
    else
      var b := Collect(refs[..|refs| - 1]);
      var r := refs[|refs| - 1];
      if !Counted(r) then b
      else if r.id in b.entries then Bib(b.order, b.entries[r.id := r.citation])
      else Bib(b.order + [r.id], b.entries[r.id := r.citation])
  }

  /** The citation of the last counted reference with this identifier. */
  function LastCitation(refs: seq<Reference>, id: string): Option<string> {
    if refs == [] then None
    else if Counted(refs[|refs| - 1]) && refs[|refs| - 1].id == id then Some(refs[|refs| - 1].citation)
    else LastCitation(refs[..|refs| - 1], id)
  }

  /** The last writer wins: an identifier is in the dictionary exactly when
      some counted reference has it, with the citation of the last one. */
  lemma {:induction false} LastWriterWins(refs: seq<Reference>, id: string)
    ensures id in Collect(refs).entries <==> LastCitation(refs, id).Some?
    ensures id in Collect(refs).entries ==> Collect(refs).entries[id] == LastCitation(refs, id).value
  {
    if refs != [] {
      LastWriterWins(refs[..|refs| - 1], id);
    }
  }

  /** Later references never move an identifier already stored: the order
      is that of first insertion. */
  lemma {:induction false} OrderOfFirstInsertion(a: seq<Reference>, b: seq<Reference>)
    ensures |Collect(a).order| <= |Collect(a + b).order|
    ensures Collect(a + b).order[..|Collect(a).order|] == Collect(a).order
    decreases |b|
  {
    if b == [] {
      assert a + b == a;
    } else {
      assert (a + b)[..|a + b| - 1] == a + b[..|b| - 1];
      OrderOfFirstInsertion(a, b[..|b| - 1]);
    }
  }

  /** The loop that fills `all_references`. */
  method CollectReferences(refs: seq<Reference>) returns (order: seq<string>, entries: map<string, string>)
    ensures Bib(order, entries) == Collect(refs)
  {
    order := [];
    entries := map[];
    for k := 0 to |refs|
      invariant Bib(order, entries) == Collect(refs[..k])
    {
      assert refs[..k + 1][..k] == refs[..k];
      var r := refs[k];
      if r.id != [] && r.citation != [] {
        if r.id !in entries {
          order := order + [r.id];
        }
        entries := entries[r.id := r.citation];
      }
    }
    assert refs[..|refs|] == refs;
  }

  /** One `.bib` entry: a citation that is already a BibTeX entry is written
      as it is, anything else becomes a `@misc` entry for the identifier. */
  function BibEntry(id: string, citation: string): (r: string)
    ensures StartsWith(r, "@") && EndsWith(r, "\n\n")
    ensures StartsWith(citation, "@") ==> r == citation + "\n\n"
  {
    if StartsWith(citation, "@") then
      ConcatEnds(citation, "\n\n");
      citation + "\n\n"
    else
      var r := "@misc{" + id + ",\n  title={" + id + "},\n  author={Unknown}\n}\n\n";
      ConcatEnds("@misc{" + id + ",\n  title={" + id + "},\n  author={Unknown}\n}", "\n\n");
      assert r == ("@misc{" + id + ",\n  title={" + id + "},\n  author={Unknown}\n}") + "\n\n";
      assert r[0] == '@';
      r
  }

  function BibEntries(order: seq<string>, entries: map<string, string>): string
    requires forall id :: id in order ==> id in entries
  {
    if order == [] then []
    else BibEntries(order[..|order| - 1], entries) + BibEntry(order[|order| - 1], entries[order[|order| - 1]])
  }

  /** The `.bib` file, or nothing (the source returns false) when no
      reference counted. */
  function Bibliography(refs: seq<Reference>): (r: Option<string>)
    ensures r.None? <==> forall k :: 0 <= k < |refs| ==> !Counted(refs[k])
  {
    var b := Collect(refs);
    NoEntriesWithoutCounted(refs);
    if b.order == [] then None else Some(BibEntries(b.order, b.entries))
  }

  lemma {:induction false} NoEntriesWithoutCounted(refs: seq<Reference>)
    ensures Collect(refs).order == [] <==> forall k :: 0 <= k < |refs| ==> !Counted(refs[k])
  {
    if refs != [] {
      var init := refs[..|refs| - 1];
      NoEntriesWithoutCounted(init);
      assert forall k :: 0 <= k < |init| ==> init[k] == refs[k];
    }
  }
}

=== FILE: png.dfy ===
/** The dependency-free PNG writer used for sample figures: the raw image
    data built scanline by scanline (section 6.1 of RFC 2083), chunk framing
    (section 3.2 of RFC 2083) and the IHDR header (section 4.1.1 of RFC 2083).
    Compression and the CRC are foreign and enter as parameters. */
module Png {
  import opened Text

  const Two32: nat := 0x1_0000_0000

  /** Whether the pixel at column `x`, row `y` is black under the named
      pattern; any name other than the three known ones draws a border. */
  predicate Black(pattern: string, width: nat, height: nat, x: nat, y: nat) {
    if pattern == "grid" then
      x % 20 < 2 || y % 20 < 2
    else if pattern == "cross" then
      (x == width / 2 && y >= height / 4 && y <= 3 * height / 4)
      || (y == height / 2 && x >= width / 4 && x <= 3 * width / 4)
    else if pattern == "frame" then
      x < 10 || x > width - 10 || y < 10 || y > height - 10
      || (x > width / 3 && x < 2 * width / 3 && y > height / 3 && y < 2 * height / 3)
    else
      x == 0 || x == width - 1 || y == 0 || y == height - 1
  }

  const BlackPixel: seq<byte> := [0x00, 0x00, 0x00]
  const WhitePixel: seq<byte> := [0xFF, 0xFF, 0xFF]

  function Pixel(black: bool): seq<byte> {
    if black then BlackPixel else WhitePixel
  }

  /** Filter type 0 (None), the byte every scanline starts with. */
  const FilterNone: byte := 0

  /** The first `x` pixels of row `y`. */
  function RowPixels(pattern: string, width: nat, height: nat, y: nat, x: nat): (r: seq<byte>)
    ensures |r| == 3 * x
  {
    if x == 0 then []
    else RowPixels(pattern, width, height, y, x - 1) + Pixel(Black(pattern, width, height, x - 1, y))
  }

  function Scanline(pattern: string, width: nat, height: nat, y: nat): seq<byte> {
    [FilterNone] + RowPixels(pattern, width, height, y, width)
  }

  /** The first `rows` scanlines. */
  function Rows(pattern: string, width: nat, height: nat, rows: nat): seq<byte> {
    if rows == 0 then []
    else Rows(pattern, width, height, rows - 1) + Scanline(pattern, width, height, rows - 1)
  }

  /** The uncompressed image data. */
  function RawData(pattern: string, width: nat, height: nat): seq<byte> {
    Rows(pattern, width, height, height)
  }

  /** The nested loops that build the image data. */
  method BuildRawData(pattern: string, width: nat, height: nat) returns (raw: seq<byte>)
    ensures raw == RawData(pattern, width, height)
  {
    raw := [];
    for y := 0 to height
      invariant raw == Rows(pattern, width, height, y)
    {
      raw := raw + [FilterNone];
      raw := AppendRow(raw, pattern, width, height, y);
      assert raw == Rows(pattern, width, height, y) + Scanline(pattern, width, height, y);
    }
  }

  /** The inner loop: appends the pixels of row `y`. */
  method AppendRow(start: seq<byte>, pattern: string, width: nat, height: nat, y: nat) returns (raw: seq<byte>)
    ensures raw == start + RowPixels(pattern, width, height, y, width)
  {
    raw := start;
    for x := 0 to width
      invariant raw == start + RowPixels(pattern, width, height, y, x)
    {
      ghost var before := raw;
      ghost var black := Black(pattern, width, height, x, y);
      if pattern == "grid" {
        if x % 20 < 2 || y % 20 < 2 {
          raw := raw + BlackPixel;
        } else {
          raw := raw + WhitePixel;
        }
      } else if pattern == "cross" {
        if (x == width / 2 && y >= height / 4 && y <= 3 * height / 4)
          || (y == height / 2 && x >= width / 4 && x <= 3 * width / 4)
        {
          raw := raw + BlackPixel;
        } else {
          raw := raw + WhitePixel;
        }
      } else if pattern == "frame" {
        if x < 10 || x > width - 10 || y < 10 || y > height - 10
          || (x > width / 3 && x < 2 * width / 3 && y > height / 3 && y < 2 * height / 3)
        {
          raw := raw + BlackPixel;
        } else {
          raw := raw + WhitePixel;
        }
      } else {
        if x == 0 || x == width - 1 || y == 0 || y == height - 1 {
          raw := raw + BlackPixel;
        } else {
          raw := raw + WhitePixel;
        }
      }
      assert raw == before + Pixel(black);
      Append(start, RowPixels(pattern, width, height, y, x), Pixel(black));
    }
  }

  lemma {:induction false} SliceOfSlice(s: seq<byte>, o: nat, n: nat, i: nat, j: nat)
    requires o + n <= |s| && i <= j <= n
    ensures s[o + i..o + j] == s[o..o + n][i..j]
  {
    var a := s[o + i..o + j];
    var b := s[o..o + n][i..j];
    forall k | 0 <= k < |a| ensures a[k] == b[k] {
    }
  }

  lemma {:induction false} Append(a: seq<byte>, b: seq<byte>, c: seq<byte>)
    ensures (a + b) + c == a + (b + c)
  {
  }

  // ---------------------------------------------------------------------
  // The layout of the image data

  /** Bytes per scanline: the filter byte and three bytes per pixel. */
  function Stride(width: nat): nat {
    1 + 3 * width
  }

  lemma {:induction false} RowsLength(pattern: string, width: nat, height: nat, rows: nat)
    ensures |Rows(pattern, width, height, rows)| == rows * Stride(width)
  {
    if rows > 0 {
      RowsLength(pattern, width, height, rows - 1);
      assert |Scanline(pattern, width, height, rows - 1)| == Stride(width);
      MulStep(rows, Stride(width));
    }
  }

  lemma {:induction false} MulStep(r: nat, s: nat)
    requires r > 0
    ensures (r - 1) * s + s == r * s
  {
  }

  /** The image data is `height` scanlines of `1 + 3 * width` bytes. */
  lemma {:induction false} RawDataLength(pattern: string, width: nat, height: nat)
    ensures |RawData(pattern, width, height)| == height * (1 + 3 * width)
  {
    RowsLength(pattern, width, height, height);
  }

  lemma {:induction false} RowPixelAt(pattern: string, width: nat, height: nat, y: nat, n: nat, x: nat)
    requires x < n
    ensures RowPixels(pattern, width, height, y, n)[3 * x..3 * x + 3] == Pixel(Black(pattern, width, height, x, y))
  {
    var r := RowPixels(pattern, width, height, y, n);
    var front := RowPixels(pattern, width, height, y, n - 1);
    if x < n - 1 {
      RowPixelAt(pattern, width, height, y, n - 1, x);
      assert r[3 * x..3 * x + 3] == front[3 * x..3 * x + 3];
    } else {
      assert r[3 * x..3 * x + 3] == r[|front|..];
    }
  }

  lemma {:induction false} RowsPrefix(pattern: string, width: nat, height: nat, a: nat, b: nat)
    requires a <= b
    ensures |Rows(pattern, width, height, a)| <= |Rows(pattern, width, height, b)|
    ensures Rows(pattern, width, height, b)[..|Rows(pattern, width, height, a)|] == Rows(pattern, width, height, a)
    decreases b
  {
    if a < b {
      RowsPrefix(pattern, width, height, a, b - 1);
      var front := Rows(pattern, width, height, b - 1);
      assert Rows(pattern, width, height, b)[..|front|] == front;
    }
  }

  /** Where scanline `y` lies in the first `rows` scanlines: right after
      the scanlines before it. */
  lemma {:induction false} ScanlineAt(pattern: string, width: nat, height: nat, rows: nat, y: nat)
    requires y < rows
    ensures var o := |Rows(pattern, width, height, y)|;
      o + Stride(width) <= |Rows(pattern, width, height, rows)| &&
      Rows(pattern, width, height, rows)[o..o + Stride(width)] == Scanline(pattern, width, height, y)
  {
    var r := Rows(pattern, width, height, rows);
    var p := Rows(pattern, width, height, y + 1);
    var q := Rows(pattern, width, height, y);
    var line := Scanline(pattern, width, height, y);
    RowsPrefix(pattern, width, height, y + 1, rows);
    assert p == q + line;
    PrefixSlice(r, p, q, line);
  }

  /** The part `line` of a prefix `q + line` of `r` sits right after `q` in `r`. */
  lemma {:induction false} PrefixSlice(r: seq<byte>, p: seq<byte>, q: seq<byte>, line: seq<byte>)
    requires |p| <= |r| && r[..|p|] == p && p == q + line
    ensures |q| + |line| <= |r| && r[|q|..|q| + |line|] == line
  {
    assert r[|q|..|q| + |line|] == p[|q|..];
  }

  /** The three bytes of the pixel at column `x`, row `y`. */
  function PixelAt(raw: seq<byte>, width: nat, x: nat, y: nat): seq<byte>
    requires x < width && y * Stride(width) + Stride(width) <= |raw|
  {
    raw[y * Stride(width) + 1 + 3 * x..y * Stride(width) + 4 + 3 * x]
  }

  /** Every scanline starts with filter byte 0, and each pixel holds black or
      white exactly as the pattern says. */
  lemma {:induction false} ImageLayout(pattern: string, width: nat, height: nat, x: nat, y: nat)
    requires x < width && y < height
    ensures var raw := RawData(pattern, width, height);
      && y * Stride(width) + Stride(width) <= |raw|
      && raw[y * Stride(width)] == FilterNone
      && PixelAt(raw, width, x, y) == Pixel(Black(pattern, width, height, x, y))
  {
    RowsLength(pattern, width, height, y);
    PixelLayout(pattern, width, height, x, y);
  }

  /** The layout, with the offset of scanline `y` given by the scanlines before it. */
  lemma {:induction false} PixelLayout(pattern: string, width: nat, height: nat, x: nat, y: nat)
    requires x < width && y < height
    ensures var raw := RawData(pattern, width, height);
      var o := |Rows(pattern, width, height, y)|;
      && o + Stride(width) <= |raw|
      && raw[o] == FilterNone
      && raw[o + 1 + 3 * x..o + 4 + 3 * x] == Pixel(Black(pattern, width, height, x, y))
  {
    ScanlineAt(pattern, width, height, height, y);
    ScanlineShape(pattern, width, height, y);
    RowPixelAt(pattern, width, height, y, width, x);
    LinePixel(RawData(pattern, width, height), |Rows(pattern, width, height, y)|,
      Scanline(pattern, width, height, y), RowPixels(pattern, width, height, y, width),
      x, Pixel(Black(pattern, width, height, x, y)));
  }

  /** A scanline is the filter byte followed by the row's pixels. */
  lemma {:induction false} ScanlineShape(pattern: string, width: nat, height: nat, y: nat)
    ensures Scanline(pattern, width, height, y) == [FilterNone] + RowPixels(pattern, width, height, y, width)
    ensures |Scanline(pattern, width, height, y)| == Stride(width)
  {
  }

  /** A pixel of a scanline found at offset `o`. */
  lemma {:induction false} LinePixel(raw: seq<byte>, o: int, line: seq<byte>, pixels: seq<byte>, x: nat, p: seq<byte>)
    requires 0 <= o && o + |line| <= |raw| && raw[o..o + |line|] == line
    requires line == [FilterNone] + pixels && 3 * x + 3 <= |pixels| && pixels[3 * x..3 * x + 3] == p
    ensures raw[o] == FilterNone
    ensures raw[o + 1 + 3 * x..o + 4 + 3 * x] == p
  {
    SliceOfSlice(raw, o, |line|, 1 + 3 * x, 4 + 3 * x);
    assert line[1 + 3 * x..4 + 3 * x] == pixels[3 * x..3 * x + 3];
  }

  /** Every byte of the image data is 0x00 or 0xFF. */
  lemma {:induction false} OnlyBlackAndWhite(pattern: string, width: nat, height: nat, rows: nat)
    ensures forall k :: 0 <= k < |Rows(pattern, width, height, rows)| ==>
      Rows(pattern, width, height, rows)[k] in {0x00, 0xFF}
  {
    if rows > 0 {
      OnlyBlackAndWhite(pattern, width, height, rows - 1);
      PixelsBlackOrWhite(pattern, width, height, rows - 1, width);
    }
  }

  lemma {:induction false} PixelsBlackOrWhite(pattern: string, width: nat, height: nat, y: nat, x: nat)
    ensures forall k :: 0 <= k < |RowPixels(pattern, width, height, y, x)| ==>
      RowPixels(pattern, width, height, y, x)[k] in {0x00, 0xFF}
  {
    if x > 0 {
      PixelsBlackOrWhite(pattern, width, height, y, x - 1);
    }
  }

  // The four patterns, stated on the bytes of the image.

  lemma {:induction false} GridImage(width: nat, height: nat, x: nat, y: nat)
    requires x < width && y < height
    ensures var raw := RawData("grid", width, height);
      y * Stride(width) + Stride(width) <= |raw|
      && (PixelAt(raw, width, x, y) == BlackPixel <==> x % 20 < 2 || y % 20 < 2)
  {
    ImageLayout("grid", width, height, x, y);
  }

  lemma {:induction false} CrossImage(width: nat, height: nat, x: nat, y: nat)
    requires x < width && y < height
    ensures var raw := RawData("cross", width, height);
      y * Stride(width) + Stride(width) <= |raw|
      && (PixelAt(raw, width, x, y) == BlackPixel <==>
            (x == width / 2 && height / 4 <= y <= 3 * height / 4)
            || (y == height / 2 && width / 4 <= x <= 3 * width / 4))
  {
    ImageLayout("cross", width, height, x, y);
  }

  lemma {:induction false} FrameImage(width: nat, height: nat, x: nat, y: nat)
    requires x < width && y < height
    ensures var raw := RawData("frame", width, height);
      y * Stride(width) + Stride(width) <= |raw|
      && (PixelAt(raw, width, x, y) == BlackPixel <==>
            x < 10 || x + 10 > width || y < 10 || y + 10 > height
            || (width / 3 < x < 2 * width / 3 && height / 3 < y < 2 * height / 3))
  {
    ImageLayout("frame", width, height, x, y);
  }

  lemma {:induction false} BorderImage(pattern: string, width: nat, height: nat, x: nat, y: nat)
    requires pattern != "grid" && pattern != "cross" && pattern != "frame"
    requires x < width && y < height
    ensures var raw := RawData(pattern, width, height);
      y * Stride(width) + Stride(width) <= |raw|
      && (PixelAt(raw, width, x, y) == BlackPixel <==>
            x == 0 || x + 1 == width || y == 0 || y + 1 == height)
  {
    ImageLayout(pattern, width, height, x, y);
  }

  // ---------------------------------------------------------------------
  // Chunks and the header

  /** `struct.pack(">I", n)`. */
  function BigEndian32(n: nat): (r: seq<byte>)
    requires n < Two32
    ensures |r| == 4
  {
    [n / 0x100_0000, (n / 0x1_0000) % 0x100, (n / 0x100) % 0x100, n % 0x100]
  }

  function FromBigEndian32(b: seq<byte>): nat
    requires |b| == 4
  {
    b[0] as nat * 0x100_0000 + b[1] as nat * 0x1_0000 + b[2] as nat * 0x100 + b[3] as nat
  }

  lemma {:induction false} BigEndianRoundTrip(n: nat)
    requires n < Two32
    ensures FromBigEndian32(BigEndian32(n)) == n
  {
    var a := n / 0x100;
    var b := a / 0x100;
    var c := b / 0x100;
    assert n == a * 0x100 + n % 0x100;
    assert a == b * 0x100 + a % 0x100;
    assert b == c * 0x100 + b % 0x100;
    assert (n / 0x100) % 0x100 == a % 0x100;
    assert n / 0x1_0000 == b;
    assert n / 0x100_0000 == c;
  }

  /** A chunk: the data length, the type, the data and the CRC of type and
      data, both numbers as unsigned big-endian 32-bit integers. */
  function Chunk(kind: seq<byte>, data: seq<byte>, crc32: seq<byte> -> nat): (r: seq<byte>)
    requires |data| < Two32
    ensures |r| == 8 + |kind| + |data|
  {
    BigEndian32(|data|) + kind + data + BigEndian32(crc32(kind + data) % Two32)
  }

  /** The fields of a chunk read back as written. */
  lemma {:induction false} ChunkFields(kind: seq<byte>, data: seq<byte>, crc32: seq<byte> -> nat)
    requires |data| < Two32
    ensures var r := Chunk(kind, data, crc32);
      && FromBigEndian32(r[..4]) == |data|
      && r[4..4 + |kind|] == kind
      && r[4 + |kind|..4 + |kind| + |data|] == data
      && FromBigEndian32(r[|r| - 4..]) == crc32(kind + data) % Two32
  {
    var r := Chunk(kind, data, crc32);
    BigEndianRoundTrip(|data|);
    BigEndianRoundTrip(crc32(kind + data) % Two32);
    assert r[..4] == BigEndian32(|data|);
    assert r[|r| - 4..] == BigEndian32(crc32(kind + data) % Two32);
  }

  /** The IHDR payload: width, height, bit depth 8, colour type 2 (RGB),
      and compression, filter and interlace methods 0. */
  function Ihdr(width: nat, height: nat): (r: seq<byte>)
    requires width < Two32 && height < Two32
    ensures |r| == 13
  {
    BigEndian32(width) + BigEndian32(height) + [8, 2, 0, 0, 0]
  }

  lemma {:induction false} IhdrFields(width: nat, height: nat)
    requires width < Two32 && height < Two32
    ensures var r := Ihdr(width, height);
      && FromBigEndian32(r[..4]) == width
      && FromBigEndian32(r[4..8]) == height
      && r[8] == 8 && r[9] == 2 && r[10..] == [0, 0, 0]
  {
    var r := Ihdr(width, height);
    BigEndianRoundTrip(width);
    BigEndianRoundTrip(height);
    assert r[..4] == BigEndian32(width);
    assert r[4..8] == BigEndian32(height);
  }
}

=== FILE: segmenter.dfy ===
/** The protected-span segmenter (`create_latex_text`, assembler.py:44-98).
    `\ref{...}` and `$...$` spans are found by two left-to-right scans, merged
    by start offset, and the text is cut into plain segments, which are
    escaped, and protected segments, which are copied verbatim. */
module Segmenter {
  import opened Text
  import opened Escaper

  datatype Kind = Ref | Math

  /** One `re.finditer` match: its pattern and the half-open range it covers. */
  datatype Span = Span(kind: Kind, start: nat, end: nat)

  datatype Segment = Plain(content: string) | Protected(kind: Kind, content: string)

  const RefOpen: string := "\\ref{"

  /** `s[i..e]` is `open`, one or more characters other than `close`, then
      `close`: the shape of `\\ref\{[^}]+\}` (open `\ref{`, close `}`) and of
      `\$[^$]+?\$` (open `$`, close `$`; the lazy group cannot contain `$`
      anyway, so it stops at the first `$`). */
  ghost predicate IsDelimitedAt(s: string, open: string, close: char, i: nat, e: nat) {
    OccursAt(s, open, i) && i + |open| < e - 1 && e <= |s| && s[e - 1] == close &&
    forall k :: i + |open| <= k < e - 1 ==> s[k] != close
  }

  /** First index at or after `j` holding `c`, or `|s|`. */
  function FindChar(s: string, c: char, j: nat): (e: nat)
    requires j <= |s|
    ensures j <= e <= |s|
    ensures forall k :: j <= k < e ==> s[k] != c
    ensures e < |s| ==> s[e] == c
    decreases |s| - j
  {
    if j == |s| || s[j] == c then j else FindChar(s, c, j + 1)
  }

  /** The end of the match starting at `i`, if there is one. */
  function DelimMatch(s: string, open: string, close: char, i: nat): (r: Option<nat>)
    requires i <= |s|
    ensures r.Some? ==> IsDelimitedAt(s, open, close, i, r.value)
    ensures forall e: nat :: IsDelimitedAt(s, open, close, i, e) ==> r == Some(e)
  {
    if OccursAt(s, open, i) then
      var c := FindChar(s, close, i + |open|);
      if i + |open| < c < |s| then Some(c + 1) else None
    else None
  }

  /** Consecutive spans, none starting before `last` or before the end of
      the previous one, each non-empty. */
  ghost predicate ChainFrom(ms: seq<Span>, last: nat) {
    ms == [] || (last <= ms[0].start < ms[0].end && ChainFrom(ms[1..], ms[0].end))
  }

  /** `re.finditer` from index `i`: after a match the search resumes at its end. */
  function Scan(s: string, open: string, close: char, kind: Kind, i: nat): (r: seq<Span>)
    requires i <= |s|
    ensures forall k :: 0 <= k < |r| ==> r[k].kind == kind && IsDelimitedAt(s, open, close, r[k].start, r[k].end)
    ensures ChainFrom(r, i)
    decreases |s| - i
  {
    if i == |s| then []
    else match DelimMatch(s, open, close, i)
      case Some(e) => [Span(kind, i, e)] + Scan(s, open, close, kind, e)
      case None => Scan(s, open, close, kind, i + 1)
  }

  function RefSpans(s: string): seq<Span> { Scan(s, RefOpen, '}', Ref, 0) }

  function MathSpans(s: string): seq<Span> { Scan(s, "$", '$', Math, 0) }

  ghost predicate SortedByStart(ms: seq<Span>) {
    forall j, k :: 0 <= j < k < |ms| ==> ms[j].start <= ms[k].start
  }

  /** The stable sort by start offset of two lists that are each sorted by
      start offset; on equal starts the first list's span comes first. */
  function Merge(a: seq<Span>, b: seq<Span>): seq<Span>
    decreases |a| + |b|
  {
    if a == [] then b
    else if b == [] then a
    else if a[0].start <= b[0].start then [a[0]] + Merge(a[1..], b)
    else [b[0]] + Merge(a, b[1..])
  }

  /** `all_matches` after the sort: reference matches and math matches by
      start offset. */
  function Spans(s: string): seq<Span> { Merge(RefSpans(s), MathSpans(s)) }

  lemma {:induction false} MergeIsPermutation(a: seq<Span>, b: seq<Span>)
    ensures multiset(Merge(a, b)) == multiset(a) + multiset(b)
    decreases |a| + |b|
  {
    if a != [] && b != [] {
      if a[0].start <= b[0].start {
        MergeIsPermutation(a[1..], b);
        assert Merge(a, b) == [a[0]] + Merge(a[1..], b);
        assert a == [a[0]] + a[1..];
        assert multiset(a) == multiset([a[0]]) + multiset(a[1..]);
      } else {
        MergeIsPermutation(a, b[1..]);
        assert Merge(a, b) == [b[0]] + Merge(a, b[1..]);
        assert b == [b[0]] + b[1..];
        assert multiset(b) == multiset([b[0]]) + multiset(b[1..]);
      }
    }
  }

  lemma {:induction false} MergeFirst(a: seq<Span>, b: seq<Span>, lo: nat)
    requires forall x :: x in a ==> lo <= x.start
    requires forall x :: x in b ==> lo <= x.start
    ensures forall x :: x in Merge(a, b) ==> lo <= x.start
  {
    MergeIsPermutation(a, b);
    forall x | x in Merge(a, b) ensures lo <= x.start {
      assert x in multiset(Merge(a, b));
    }
  }

  lemma {:induction false} MergeSorted(a: seq<Span>, b: seq<Span>)
    requires SortedByStart(a) && SortedByStart(b)
    ensures SortedByStart(Merge(a, b))
    decreases |a| + |b|
  {
    if a != [] && b != [] {
      if a[0].start <= b[0].start {
        MergeSorted(a[1..], b);
        MergeFirst(a[1..], b, a[0].start);
        ConsSorted(a[0], Merge(a[1..], b));
      } else {
        MergeSorted(a, b[1..]);
        MergeFirst(a, b[1..], b[0].start);
        ConsSorted(b[0], Merge(a, b[1..]));
      }
    }
  }

  lemma {:induction false} ConsSorted(x: Span, r: seq<Span>)
    requires SortedByStart(r) && forall y :: y in r ==> x.start <= y.start
    ensures SortedByStart([x] + r)
  {
    var t := [x] + r;
    forall j, k | 0 <= j < k < |t| ensures t[j].start <= t[k].start {
      assert t[k] == r[k - 1];
      if j > 0 { assert t[j] == r[j - 1]; } else { assert r[k - 1] in r; }
    }
  }

  lemma {:induction false} ChainSorted(ms: seq<Span>, last: nat)
    requires ChainFrom(ms, last)
    ensures SortedByStart(ms) && forall x :: x in ms ==> last <= x.start
  {
    if ms != [] {
      ChainSorted(ms[1..], ms[0].end);
      ConsSorted(ms[0], ms[1..]);
      assert ms == [ms[0]] + ms[1..];
    }
  }

  /** `all_matches` is sorted by start offset and holds exactly the
      reference and math matches. */
  lemma {:induction false} SpansSorted(s: string)
    ensures SortedByStart(Spans(s))
    ensures multiset(Spans(s)) == multiset(RefSpans(s)) + multiset(MathSpans(s))
  {
    ChainSorted(RefSpans(s), 0);
    ChainSorted(MathSpans(s), 0);
    MergeSorted(RefSpans(s), MathSpans(s));
    MergeIsPermutation(RefSpans(s), MathSpans(s));
  }

  /** No span of `a` overlaps a span of `b`. */
  ghost predicate Disjoint(a: seq<Span>, b: seq<Span>) {
    forall x, y :: x in a && y in b ==> x.end <= y.start || y.end <= x.start
  }

  lemma {:induction false} ChainRebaseUp(ms: seq<Span>, last: nat, last': nat)
    requires ChainFrom(ms, last) && (ms != [] ==> last' <= ms[0].start)
    ensures ChainFrom(ms, last')
  {
  }

  /** Merging two chains whose spans do not overlap gives a chain. */
  lemma {:induction false} MergeChain(a: seq<Span>, b: seq<Span>, last: nat)
    requires ChainFrom(a, last) && ChainFrom(b, last) && Disjoint(a, b)
    ensures ChainFrom(Merge(a, b), last)
    decreases |a| + |b|
  {
    if a != [] && b != [] {
      if a[0].start <= b[0].start {
        assert a[0] in a && b[0] in b;
        assert a[0].end <= b[0].start;
        ChainRebaseUp(b, last, a[0].end);
        DisjointTail(a, b);
        MergeChain(a[1..], b, a[0].end);
      } else {
        assert a[0] in a && b[0] in b;
        assert b[0].end <= a[0].start;
        ChainRebaseUp(a, last, b[0].end);
        DisjointTail(b, a);
        DisjointSym(a, b[1..]);
        MergeChain(a, b[1..], b[0].end);
      }
    }
  }

  lemma {:induction false} DisjointTail(a: seq<Span>, b: seq<Span>)
    requires a != [] && Disjoint(a, b)
    ensures Disjoint(a[1..], b) && Disjoint(b, a[1..])
  {
    forall x, y | x in a[1..] && y in b ensures x.end <= y.start || y.end <= x.start {
      assert x in a;
    }
  }

  lemma {:induction false} DisjointSym(a: seq<Span>, b: seq<Span>)
    requires Disjoint(b, a)
    ensures Disjoint(a, b)
  {
  }

  // ---------------------------------------------------------------------
  // Segments

  ghost predicate InText(s: string, ms: seq<Span>) {
    forall k :: 0 <= k < |ms| ==> ms[k].start <= ms[k].end <= |s|
  }

  lemma {:induction false} ScanInText(s: string, open: string, close: char, kind: Kind)
    ensures InText(s, Scan(s, open, close, kind, 0))
  {
  }

  lemma {:induction false} SpansInText(s: string)
    ensures InText(s, Spans(s))
  {
    var a := RefSpans(s);
    var b := MathSpans(s);
    MergeIsPermutation(a, b);
    var m := Spans(s);
    forall k | 0 <= k < |m| ensures m[k].start <= m[k].end <= |s| {
      assert m[k] in multiset(m);
      assert m[k] in a || m[k] in b;
    }
  }

  /** The segments built from `last_end == last` on: the text before each
      match when the match starts after `last_end`, then the match itself;
      finally the text after the last `last_end`. */
  function Segs(s: string, ms: seq<Span>, last: nat): seq<Segment>
    requires InText(s, ms)
    decreases |ms|
  {
    if ms == [] then (if last < |s| then [Plain(s[last..])] else [])
    else
      var m := ms[0];
      (if m.start > last then [Plain(s[last..m.start])] else []) +
      [Protected(m.kind, s[m.start..m.end])] + Segs(s, ms[1..], m.end)
  }

  /** Step 2 of the source: the loop that grows `segments` while moving
      `last_end` to the end of each match. */
  method BuildSegments(s: string, ms: seq<Span>) returns (segs: seq<Segment>)
    requires InText(s, ms)
    ensures segs == Segs(s, ms, 0)
  {
    segs := [];
    var last: nat := 0;
    assert ms[0..] == ms;
    for k := 0 to |ms|
      invariant InText(s, ms[k..])
      invariant segs + Segs(s, ms[k..], last) == Segs(s, ms, 0)
    {
      var m := ms[k];
      ghost var before := segs;
      ghost var emitted := (if m.start > last then [Plain(s[last..m.start])] else []) +
        [Protected(m.kind, s[m.start..m.end])];
      SegsStep(s, ms, k, last);
      if m.start > last {
        segs := segs + [Plain(s[last..m.start])];
      }
      segs := segs + [Protected(m.kind, s[m.start..m.end])];
      assert segs == before + emitted;
      SegsRegroup(before, emitted, Segs(s, ms[k + 1..], m.end), Segs(s, ms[k..], last));
      last := m.end;
    }
    assert ms[|ms|..] == [];
    if last < |s| {
      segs := segs + [Plain(s[last..])];
    }
  }

  /** One turn of the loop: what the match at `k` contributes. */
  lemma {:induction false} SegsStep(s: string, ms: seq<Span>, k: nat, last: nat)
    requires k < |ms| && InText(s, ms[k..])
    ensures InText(s, ms[k + 1..])
    ensures var m := ms[k];
      Segs(s, ms[k..], last) ==
        (if m.start > last then [Plain(s[last..m.start])] else []) +
        [Protected(m.kind, s[m.start..m.end])] + Segs(s, ms[k + 1..], m.end)
  {
    assert ms[k..][0] == ms[k];
    assert ms[k..][1..] == ms[k + 1..];
  }

  lemma {:induction false} SegsRegroup(before: seq<Segment>, emitted: seq<Segment>, after: seq<Segment>, remaining: seq<Segment>)
    requires remaining == emitted + after
    ensures (before + emitted) + after == before + remaining
  {
  }

  /** `''.join` of the segments' contents as they are. */
  function Raw(segs: seq<Segment>): string {
    if segs == [] then [] else segs[0].content + Raw(segs[1..])
  }

  /** The protected segments, in order. */
  function Kept(segs: seq<Segment>): seq<string> {
    if segs == [] then []
    else (if segs[0].Protected? then [segs[0].content] else []) + Kept(segs[1..])
  }

  /** What each span covers. */
  function Covered(s: string, ms: seq<Span>): seq<string>
    requires InText(s, ms)
  {
    if ms == [] then [] else [s[ms[0].start..ms[0].end]] + Covered(s, ms[1..])
  }

  /** Step 3 of the source: plain segments are escaped, the others kept. */
  function Render(seg: Segment): string {
    match seg
    case Plain(t) => PlainText(t)
    case Protected(_, t) => t
  }

  function Rendered(segs: seq<Segment>): string {
    if segs == [] then [] else Render(segs[0]) + Rendered(segs[1..])
  }

  const ParBreak: string := "\n\\par\n"

  /** `create_latex_text`. */
  function LatexText(s: string): string {
    SpansInText(s);
    Replace(Rendered(Segs(s, Spans(s), 0)), "\n\n", ParBreak)
  }

  lemma {:induction false} RenderedStep(segs: seq<Segment>, k: nat)
    requires k < |segs|
    ensures Rendered(segs[k..]) == Render(segs[k]) + Rendered(segs[k + 1..])
  {
    assert segs[k..][1..] == segs[k + 1..];
  }

  /** `create_latex_text` as the source writes it. */
  method CreateLatexText(s: string) returns (r: string)
    ensures r == LatexText(s)
  {
    SpansInText(s);
    var segs := BuildSegments(s, Merge(RefSpans(s), MathSpans(s)));
    var out := RenderSegments(segs);
    LatexTextOf(s, segs);
    r := Replace(out, "\n\n", ParBreak);
  }

  /** Steps 3 and 4 of the source: `processed_segments` joined. */
  method RenderSegments(segs: seq<Segment>) returns (out: string)
    ensures out == Rendered(segs)
  {
    out := "";
    assert segs[0..] == segs;
    for k := 0 to |segs|
      invariant out + Rendered(segs[k..]) == Rendered(segs)
    {
      RenderedStep(segs, k);
      var piece := RenderSegment(segs[k]);
      out := out + piece;
    }
  }

  /** Step 3 for one segment. */
  method RenderSegment(seg: Segment) returns (piece: string)
    ensures piece == Render(seg)
  {
    if seg.Plain? {
      piece := ProcessPlainText(seg.content);
    } else {
      piece := seg.content;
    }
  }

  lemma {:induction false} LatexTextOf(s: string, segs: seq<Segment>)
    requires InText(s, Spans(s)) && segs == Segs(s, Spans(s), 0)
    ensures LatexText(s) == Replace(Rendered(segs), "\n\n", ParBreak)
  {
  }

  lemma {:induction false} KeptAreCovered(s: string, ms: seq<Span>, last: nat)
    requires InText(s, ms)
    ensures Kept(Segs(s, ms, last)) == Covered(s, ms)
    decreases |ms|
  {
    if ms != [] {
      var m := ms[0];
      var pre := if m.start > last then [Plain(s[last..m.start])] else [];
      var segs := Segs(s, ms, last);
      KeptAreCovered(s, ms[1..], m.end);
      KeptAppend(pre + [Protected(m.kind, s[m.start..m.end])], Segs(s, ms[1..], m.end));
      KeptAppend(pre, [Protected(m.kind, s[m.start..m.end])]);
    } else if last < |s| {
      assert Kept([Plain(s[last..])]) == [];
    }
  }

  lemma {:induction false} KeptAppend(a: seq<Segment>, b: seq<Segment>)
    ensures Kept(a + b) == Kept(a) + Kept(b)
  {
    if a == [] {
      assert a + b == b;
    } else {
      var h := if a[0].Protected? then [a[0].content] else [];
      assert (a + b)[0] == a[0] && (a + b)[1..] == a[1..] + b;
      assert Kept(a + b) == h + Kept(a[1..] + b);
      KeptAppend(a[1..], b);
      assert Kept(a) == h + Kept(a[1..]);
    }
  }

  lemma {:induction false} RawAppend(a: seq<Segment>, b: seq<Segment>)
    ensures Raw(a + b) == Raw(a) + Raw(b)
  {
    if a == [] {
      assert a + b == b;
    } else {
      assert (a + b)[1..] == a[1..] + b;
      RawAppend(a[1..], b);
    }
  }

  lemma {:induction false} SegsUnfold(s: string, ms: seq<Span>, last: nat)
    requires InText(s, ms) && ms != []
    ensures var m := ms[0];
      Raw(Segs(s, ms, last)) ==
        (if m.start > last then s[last..m.start] else []) + s[m.start..m.end] + Raw(Segs(s, ms[1..], m.end))
  {
    var m := ms[0];
    var pre := if m.start > last then [Plain(s[last..m.start])] else [];
    var mid := [Protected(m.kind, s[m.start..m.end])];
    assert Segs(s, ms, last) == pre + mid + Segs(s, ms[1..], m.end);
    RawAppend(pre + mid, Segs(s, ms[1..], m.end));
    RawAppend(pre, mid);
    assert Raw(mid) == s[m.start..m.end] + Raw([]);
    if m.start > last {
      assert Raw(pre) == s[last..m.start] + Raw([]);
    }
  }

  /** Cutting at a chain of spans and joining the pieces again gives back
      the text from `last` on. */
  lemma {:induction false} SegsRoundTrip(s: string, ms: seq<Span>, last: nat)
    requires InText(s, ms) && ChainFrom(ms, last) && last <= |s|
    ensures Raw(Segs(s, ms, last)) == s[last..]
    decreases |ms|
  {
    if ms == [] {
      if last < |s| {
        assert Raw([Plain(s[last..])]) == s[last..] + Raw([]);
      }
    } else {
      var m := ms[0];
      SegsUnfold(s, ms, last);
      SegsRoundTrip(s, ms[1..], m.end);
      if m.start > last {
        assert s[last..] == s[last..m.start] + s[m.start..m.end] + s[m.end..];
      } else {
        assert s[last..] == s[m.start..m.end] + s[m.end..];
      }
    }
  }

  /** When no reference match overlaps a math match, joining the segments
      as they are reproduces the input exactly. */
  lemma {:induction false} SegmentsRoundTrip(s: string)
    requires Disjoint(RefSpans(s), MathSpans(s))
    ensures InText(s, Spans(s)) && Raw(Segs(s, Spans(s), 0)) == s
  {
    SpansInText(s);
    MergeChain(RefSpans(s), MathSpans(s), 0);
    SegsRoundTrip(s, Spans(s), 0);
  }

  /** Every match yields exactly one protected segment holding the text it
      covers, in merged order, overlaps included: nothing is dropped. */
  lemma {:induction false} ProtectedSegmentsAreMatches(s: string)
    ensures InText(s, Spans(s)) && Kept(Segs(s, Spans(s), 0)) == Covered(s, Spans(s))
  {
    SpansInText(s);
    KeptAreCovered(s, Spans(s), 0);
  }

  /** Text without any match is escaped as one piece. */
  lemma {:induction false} NoSpansEscapesAll(s: string)
    requires s != [] && Spans(s) == []
    ensures LatexText(s) == Replace(PlainText(s), "\n\n", ParBreak)
  {
    SpansInText(s);
    assert Segs(s, Spans(s), 0) == [Plain(s[0..])];
    assert s[0..] == s;
    RenderedSingle(s);
  }

  lemma {:induction false} RenderedSingle(t: string)
    ensures Rendered([Plain(t)]) == PlainText(t)
  {
    assert Rendered([Plain(t)]) == Render(Plain(t)) + Rendered([]);
  }

  // ---------------------------------------------------------------------
  // Paragraph breaks

  /** The replacement starts with a line feed exactly when the text does. */
  lemma {:induction false} ParBreaksHead(t: string)
    requires t != []
    ensures Replace(t, "\n\n", ParBreak) != [] && (Replace(t, "\n\n", ParBreak)[0] == '\n' <==> t[0] == '\n')
    decreases |t|
  {
    if |t| >= 2 && t[..2] != "\n\n" && |t| > 1 {
      ParBreaksHead(t[1..]);
    }
  }

  /** Without three line feeds in a row, no blank line survives the
      rewrite of paragraph breaks. */
  lemma {:induction false} NoBlankLineAfterParBreaks(t: string)
    requires forall i: nat :: !OccursAt(t, "\n\n\n", i)
    ensures forall i: nat :: !OccursAt(Replace(t, "\n\n", ParBreak), "\n\n", i)
    decreases |t|
  {
    var r := Replace(t, "\n\n", ParBreak);
    if |t| < 2 {
      forall i: nat ensures !OccursAt(r, "\n\n", i) {
      }
    } else if t[..2] == "\n\n" {
      var rest := t[2..];
      forall i: nat ensures !OccursAt(rest, "\n\n\n", i) {
        ShiftOccurs(t, 2, "\n\n\n", i);
      }
      NoBlankLineAfterParBreaks(rest);
      var rr := Replace(rest, "\n\n", ParBreak);
      if rest != [] {
        ParBreaksHead(rest);
        assert !OccursAt(t, "\n\n\n", 0);
        assert t[2] != '\n' by { assert t[..3] != "\n\n\n"; assert t[..3] == "\n\n" + [t[2]]; }
      }
      ParBreakHasNoBlankLine();
      NoPairAcross(ParBreak, rr);
    } else {
      var rest := t[1..];
      forall i: nat ensures !OccursAt(rest, "\n\n\n", i) {
        ShiftOccurs(t, 1, "\n\n\n", i);
      }
      NoBlankLineAfterParBreaks(rest);
      var rr := Replace(rest, "\n\n", ParBreak);
      if t[0] == '\n' && rest != [] {
        ParBreaksHead(rest);
        assert t[1] != '\n' by { assert t[..2] == [t[0], t[1]]; }
      }
      NoPairAcross([t[0]], rr);
    }
  }

  lemma {:induction false} ShiftOccurs(t: string, d: nat, pat: string, i: nat)
    requires d <= |t|
    ensures OccursAt(t[d..], pat, i) ==> OccursAt(t, pat, i + d)
  {
    if OccursAt(t[d..], pat, i) {
      assert t[d..][i..i + |pat|] == t[i + d..i + d + |pat|];
    }
  }

  /** `a + b` holds no blank line when neither part does and they do not
      meet in two line feeds. */
  lemma {:induction false} NoPairAcross(a: string, b: string)
    requires a != []
    requires forall i: nat :: !OccursAt(a, "\n\n", i)
    requires forall i: nat :: !OccursAt(b, "\n\n", i)
    requires b != [] && a[|a| - 1] == '\n' ==> b[0] != '\n'
    ensures forall i: nat :: !OccursAt(a + b, "\n\n", i)
  {
    var ab := a + b;
    forall i: nat ensures !OccursAt(ab, "\n\n", i) {
      if i + 2 > |ab| {
      } else if i + 1 < |a| {
        assert a[i..i + 2] == ab[i..i + 2];
        assert !OccursAt(a, "\n\n", i);
      } else if i >= |a| {
        assert b[i - |a|..i - |a| + 2] == ab[i..i + 2];
        assert !OccursAt(b, "\n\n", i - |a|);
      } else {
        assert ab[i..i + 2] == [a[|a| - 1], b[0]];
      }
    }
  }

  lemma ParBreakHasNoBlankLine()
    ensures forall i: nat :: !OccursAt(ParBreak, "\n\n", i)
  {
    forall i: nat ensures !OccursAt(ParBreak, "\n\n", i) {
      if i + 2 <= |ParBreak| {
        assert ParBreak[i + 1] != '\n' || ParBreak[i] != '\n';
      }
    }
  }

  // ---------------------------------------------------------------------
  // An overlapping pair of matches

  lemma {:induction false} OverlapSpans(s: string)
    requires s == "$\\ref{a}$"
    ensures RefSpans(s) == [Span(Ref, 1, 8)] && MathSpans(s) == [Span(Math, 0, 9)]
  {
    assert IsDelimitedAt(s, "$", '$', 0, 9);
    assert Scan(s, "$", '$', Math, 9) == [];
    assert s[0..5][0] != RefOpen[0];
    assert IsDelimitedAt(s, RefOpen, '}', 1, 8);
    assert !OccursAt(s, RefOpen, 8);
    assert Scan(s, RefOpen, '}', Ref, 9) == [];
    assert Scan(s, RefOpen, '}', Ref, 8) == [];
    assert Scan(s, RefOpen, '}', Ref, 1) == [Span(Ref, 1, 8)];
  }

  lemma {:induction false} OverlapSegments(s: string)
    requires s == "$\\ref{a}$"
    ensures InText(s, Spans(s))
    ensures Segs(s, Spans(s), 0) == [Protected(Math, s), Protected(Ref, "\\ref{a}"), Plain(s[8..])]
    ensures s[8..] == "$"
  {
    OverlapSpans(s);
    SpansInText(s);
    var ms := Spans(s);
    var a, b := [Span(Ref, 1, 8)], [Span(Math, 0, 9)];
    assert Merge(a, b[1..]) == a;
    assert ms == Merge(a, b) == [b[0]] + Merge(a, b[1..]);
    assert ms[1..] == [Span(Ref, 1, 8)];
    assert Segs(s, ms[1..][1..], 8) == [Plain(s[8..])];
    assert s[0..9] == s && s[1..8] == "\\ref{a}" && s[8..] == "$";
  }

  lemma {:induction false} EscapeEachLoneDollar(t: string)
    requires t == "$"
    ensures IsAsciiString(t) && '[' !in t && '*' !in t
    ensures EscapeEach(t) == "\\$"
  {
    assert EscapeEach(t) == EscapeChar('$') + EscapeEach([]);
  }

  lemma {:induction false} EscapeLoneDollar(t: string)
    requires t == "$"
    ensures PlainText(t) == "\\$"
  {
    EscapeEachLoneDollar(t);
    PlainTextOnAscii(t);
  }

  /** Protected segments are copied as they are, ahead of whatever follows. */
  lemma {:induction false} RenderedProtected(kind: Kind, t: string, rest: seq<Segment>)
    ensures Rendered([Protected(kind, t)] + rest) == t + Rendered(rest)
  {
    var segs := [Protected(kind, t)] + rest;
    assert segs[0] == Protected(kind, t) && segs[1..] == rest;
  }

  lemma {:induction false} RenderedOverlap(s: string, r: string, t: string)
    ensures Rendered([Protected(Math, s), Protected(Ref, r), Plain(t)]) == s + r + PlainText(t)
  {
    RenderedSingle(t);
    RenderedProtected(Ref, r, [Plain(t)]);
    RenderedProtected(Math, s, [Protected(Ref, r), Plain(t)]);
    assert [Protected(Ref, r)] + [Plain(t)] == [Protected(Ref, r), Plain(t)];
    assert [Protected(Math, s)] + [Protected(Ref, r), Plain(t)] == [Protected(Math, s), Protected(Ref, r), Plain(t)];
  }

  lemma {:induction false} OverlapOutput(s: string, r: string, d: string)
    requires s == "$\\ref{a}$" && r == "\\ref{a}" && d == "\\$"
    ensures s + r + d == "$\\ref{a}$\\ref{a}\\$" && '\n' !in s + r + d
  {
  }

  /** `$\ref{a}$`: the math match covers the reference match.  Both are
      emitted, `last_end` moves back from 9 to 8, and the closing `$` is
      emitted again as escaped plain text. */
  lemma {:induction false} OverlapIsDuplicated(s: string)
    requires s == "$\\ref{a}$"
    ensures LatexText(s) == "$\\ref{a}$\\ref{a}\\$"
  {
    OverlapSegments(s);
    var t := s[8..];
    var r := "\\ref{a}";
    var segs := [Protected(Math, s), Protected(Ref, r), Plain(t)];
    LatexTextOf(s, segs);
    EscapeLoneDollar(t);
    RenderedOverlap(s, r, t);
    OverlapOutput(s, r, PlainText(t));
    ReplaceFirstCharAbsent(Rendered(segs), "\n\n", ParBreak);
  }
}

=== FILE: text.dfy ===
/** String helpers shared by the conversion engine: character classes, Python's
    `str.replace`, `str.strip`, `str.split('\n')` and `'\n'.join`, and the
    small facts about them that the rest of the model relies on. */
module Text {

  datatype Option<+T> = None | Some(value: T)

  /** An octet, as the elements of a Python `bytes` object. */
  type byte = b: int | 0 <= b < 256

  /** `\d` restricted to ASCII. */
  predicate IsDigit(c: char) { '0' <= c <= '9' }

  /** `\w` restricted to ASCII. */
  predicate IsWordChar(c: char) {
    'a' <= c <= 'z' || 'A' <= c <= 'Z' || IsDigit(c) || c == '_'
  }

  /** `\s` and the characters `str.strip()` removes, restricted to ASCII:
      tab, line feed, vertical tab, form feed, carriage return, the four
      information separators and the space. */
  predicate IsSpace(c: char) {
    c == ' ' || '\t' <= c <= '\r' || '\U{1c}' <= c <= '\U{1f}'
  }

  predicate StartsWith(s: string, p: string) {
    |p| <= |s| && s[..|p|] == p
  }

  predicate EndsWith(s: string, p: string) {
    |p| <= |s| && s[|s| - |p|..] == p
  }

  lemma {:induction false} StartsWithConcat(a: string, b: string, p: string)
    requires StartsWith(a, p)
    ensures StartsWith(a + b, p)
  {
    assert (a + b)[..|p|] == a[..|p|];
  }

  lemma {:induction false} EndsWithConcat(a: string, b: string, p: string)
    requires EndsWith(b, p)
    ensures EndsWith(a + b, p)
  {
    assert (a + b)[|a + b| - |p|..] == b[|b| - |p|..];
  }

  lemma {:induction false} ConcatEnds(a: string, b: string)
    ensures StartsWith(a + b, a) && EndsWith(a + b, b)
  {
    assert (a + b)[..|a|] == a;
    assert (a + b)[|a + b| - |b|..] == b;
  }

  /** The middle part of a concatenation of three sits right after the first. */
  lemma {:induction false} Middle(a: string, b: string, c: string)
    ensures |a + b + c| == |a| + |b| + |c| && OccursAt(a + b + c, b, |a|)
  {
    assert (a + b + c)[|a|..|a| + |b|] == b;
  }

  /** `s.replace(c, r)` for a one-character pattern. */
  function ReplaceChar(s: string, c: char, r: string): (t: string)
  {
    if s == [] then [] else (if s[0] == c then r else [s[0]]) + ReplaceChar(s[1..], c, r)
  }

  /** A character that does not occur is not replaced. */
  lemma {:induction false} ReplaceCharAbsent(s: string, c: char, r: string)
    requires c !in s
    ensures ReplaceChar(s, c, r) == s
  {
    if s != [] {
      assert s[0] != c && c !in s[1..];
      ReplaceCharAbsent(s[1..], c, r);
      assert [s[0]] + s[1..] == s;
    }
  }

  lemma {:induction false} ReplaceCharConcat(a: string, b: string, c: char, r: string)
    ensures ReplaceChar(a + b, c, r) == ReplaceChar(a, c, r) + ReplaceChar(b, c, r)
  {
    if a == [] {
      assert a + b == b;
    } else {
      ReplaceCharHead(a, b, c, r);
      ReplaceCharConcat(a[1..], b, c, r);
    }
  }

  lemma {:induction false} ReplaceCharHead(a: string, b: string, c: char, r: string)
    requires a != []
    ensures var h := if a[0] == c then r else [a[0]];
      ReplaceChar(a + b, c, r) == h + ReplaceChar(a[1..] + b, c, r) &&
      ReplaceChar(a, c, r) == h + ReplaceChar(a[1..], c, r)
  {
    assert (a + b)[0] == a[0] && (a + b)[1..] == a[1..] + b;
  }

  /** Every character of the result comes from `s` (and is not `c`) or from `r`. */
  lemma {:induction false} ReplaceCharChars(s: string, c: char, r: string, x: char)
    ensures x in ReplaceChar(s, c, r) ==> (x in s && x != c) || x in r
  {
    if s != [] {
      ReplaceCharChars(s[1..], c, r, x);
      assert s == [s[0]] + s[1..];
    }
  }

  lemma {:induction false} ReplaceCharSingle(x: char, c: char, r: string)
    ensures ReplaceChar([x], c, r) == if x == c then r else [x]
  {
    assert [x][1..] == [];
  }

  /** `s.replace(pat, rep)`: the leftmost occurrence is replaced first and
      scanning resumes after the replaced text, so occurrences never overlap. */
  function Replace(s: string, pat: string, rep: string): (t: string)
    requires pat != []
    decreases |s|
  {
    if |s| < |pat| then s
    else if s[..|pat|] == pat then rep + Replace(s[|pat|..], pat, rep)
    else [s[0]] + Replace(s[1..], pat, rep)
  }

  /** `pat` occurs in `s` starting at index `i`. */
  predicate OccursAt(s: string, pat: string, i: nat) {
    i + |pat| <= |s| && s[i..i + |pat|] == pat
  }

  lemma {:induction false} ReplaceAbsent(s: string, pat: string, rep: string)
    requires pat != []
    requires forall i: nat :: !OccursAt(s, pat, i)
    ensures Replace(s, pat, rep) == s
  {
    if |s| >= |pat| {
      assert !OccursAt(s, pat, 0);
      forall i: nat ensures !OccursAt(s[1..], pat, i) {
        OccursShift(s, pat, i);
      }
      ReplaceAbsent(s[1..], pat, rep);
    }
  }

  /** A pattern whose first character is missing from `s` never occurs. */
  lemma {:induction false} ReplaceFirstCharAbsent(s: string, pat: string, rep: string)
    requires pat != [] && pat[0] !in s
    ensures Replace(s, pat, rep) == s
  {
    forall i: nat ensures !OccursAt(s, pat, i) {
      OccursFirstChar(s, pat, i);
    }
    ReplaceAbsent(s, pat, rep);
  }

  lemma {:induction false} OccursShift(s: string, pat: string, i: nat)
    requires s != []
    ensures OccursAt(s[1..], pat, i) <==> OccursAt(s, pat, i + 1)
  {
    if i + |pat| <= |s[1..]| {
      assert s[1..][i..i + |pat|] == s[i + 1..i + 1 + |pat|];
    }
  }

  lemma {:induction false} OccursFirstChar(s: string, pat: string, i: nat)
    requires pat != []
    ensures OccursAt(s, pat, i) ==> pat[0] in s
  {
    if OccursAt(s, pat, i) {
      assert s[i..i + |pat|][0] == s[i];
    }
  }

  /** Index of the first character at or after `j` that is not a space. */
  function SkipSpaces(s: string, j: nat): (e: nat)
    requires j <= |s|
    ensures j <= e <= |s|
    ensures forall k :: j <= k < e ==> IsSpace(s[k])
    ensures e < |s| ==> !IsSpace(s[e])
    decreases |s| - j
  {
    if j == |s| || !IsSpace(s[j]) then j else SkipSpaces(s, j + 1)
  }

  /** Index just past the last non-space character, searching down from `j`. */
  function TrimEnd(s: string, j: nat): (e: nat)
    requires j <= |s|
    ensures e <= j
    ensures forall k :: e <= k < j ==> IsSpace(s[k])
    ensures e > 0 ==> !IsSpace(s[e - 1])
  {
    if j == 0 || !IsSpace(s[j - 1]) then j else TrimEnd(s, j - 1)
  }

  /** `s.strip()`. */
  function Strip(s: string): (t: string)
    ensures |t| <= |s|
    ensures t != [] ==> !IsSpace(t[0]) && !IsSpace(t[|t| - 1])
  {
    var a := SkipSpaces(s, 0);
    var b := TrimEnd(s, |s|);
    if a < b then s[a..b] else []
  }

  /** Text without surrounding white space is its own stripped form. */
  lemma {:induction false} StripUnchanged(s: string)
    requires s != [] && !IsSpace(s[0]) && !IsSpace(s[|s| - 1])
    ensures Strip(s) == s
  {
    assert SkipSpaces(s, 0) == 0;
    assert TrimEnd(s, |s|) == |s|;
  }

  /** `s.split(sep)` for a one-character separator. */
  function Split(s: string, sep: char): (parts: seq<string>)
    ensures |parts| >= 1
    ensures forall p :: p in parts ==> sep !in p
  {
    if s == [] then [[]]
    else
      var rest := Split(s[1..], sep);
      if s[0] == sep then [[]] + rest else [[s[0]] + rest[0]] + rest[1..]
  }

  /** `sep.join(parts)` for a one-character separator. */
  function Join(parts: seq<string>, sep: char): string {
    if parts == [] then []
    else if |parts| == 1 then parts[0]
    else parts[0] + [sep] + Join(parts[1..], sep)
  }

  /** Splitting and joining again gives back the text. */
  lemma {:induction false} JoinSplit(s: string, sep: char)
    ensures Join(Split(s, sep), sep) == s
  {
    if s != [] {
      var rest := Split(s[1..], sep);
      JoinSplit(s[1..], sep);
      if s[0] == sep {
        assert Split(s, sep) == [[]] + rest;
        assert ([[]] + rest)[1..] == rest;
      } else {
        var parts := [[s[0]] + rest[0]] + rest[1..];
        assert Split(s, sep) == parts;
        if |rest| == 1 {
          assert s == [s[0]] + s[1..];
        } else {
          assert parts[1..] == rest[1..];
          assert Join(rest, sep) == rest[0] + [sep] + Join(rest[1..], sep);
        }
      }
    }
  }

  /** Joining lines that hold no separator and splitting again gives back the lines. */
  lemma {:induction false} SplitJoin(parts: seq<string>, sep: char)
    requires |parts| >= 1
    requires forall p :: p in parts ==> sep !in p
    ensures Split(Join(parts, sep), sep) == parts
  {
    if |parts| == 1 {
      SplitNoSep(parts[0], sep);
    } else {
      SplitJoin(parts[1..], sep);
      SplitPrefix(parts[0], Join(parts[1..], sep), sep);
      assert Join(parts, sep) == parts[0] + ([sep] + Join(parts[1..], sep));
    }
  }

  lemma {:induction false} SplitNoSep(s: string, sep: char)
    requires sep !in s
    ensures Split(s, sep) == [s]
  {
    if s != [] {
      SplitNoSep(s[1..], sep);
      assert [s[0]] + s[1..] == s;
    }
  }

  lemma {:induction false} SplitPrefix(p: string, rest: string, sep: char)
    requires sep !in p
    ensures Split(p + ([sep] + rest), sep) == [p] + Split(rest, sep)
  {
    if p == [] {
      assert p + ([sep] + rest) == [sep] + rest;
      assert ([sep] + rest)[1..] == rest;
    } else {
      assert (p + ([sep] + rest))[1..] == p[1..] + ([sep] + rest);
      SplitPrefix(p[1..], rest, sep);
      assert [p[0]] + p[1..] == p;
    }
  }

  /** Concatenation of a sequence of strings (`''.join`). */
  function Concat(parts: seq<string>): string {
    if parts == [] then [] else Concat(parts[..|parts| - 1]) + parts[|parts| - 1]
  }

  lemma {:induction false} ConcatAppend(a: seq<string>, b: seq<string>)
    ensures Concat(a + b) == Concat(a) + Concat(b)
  {
    if b == [] {
      assert a + b == a;
    } else {
      assert (a + b)[..|a + b| - 1] == a + b[..|b| - 1];
      ConcatAppend(a, b[..|b| - 1]);
    }
  }

  predicate IsAsciiString(s: string) {
    forall k :: 0 <= k < |s| ==> s[k] < 128 as char
  }

  /** Decimal notation of a natural number (`str(n)`). */
  function DecimalString(n: nat): (s: string)
    ensures s != [] && forall k :: 0 <= k < |s| ==> IsDigit(s[k])
  {
    if n < 10 then ['0' + n as char] else DecimalString(n / 10) + ['0' + (n % 10) as char]
  }

  /** The number a string of decimal digits denotes (`int(s)`). */
  function DecimalValue(s: string): nat
    requires forall k :: 0 <= k < |s| ==> IsDigit(s[k])
  {
    if s == [] then 0
    else
      assert IsDigit(s[|s| - 1]);
      10 * DecimalValue(s[..|s| - 1]) + (s[|s| - 1] as int - '0' as int)
  }

  /** Reading back the decimal notation gives the number. */
  lemma {:induction false} DecimalRoundTrip(n: nat)
    ensures DecimalValue(DecimalString(n)) == n
  {
    var s := DecimalString(n);
    if n >= 10 {
      DecimalRoundTrip(n / 10);
      assert s[..|s| - 1] == DecimalString(n / 10);
    }
  }
}

=== FILE: transliterate.dfy ===
/** The two byte loops that turn a UTF-8 LaTeX fragment into pure ASCII: the
    one the compiler runs on every page fragment and the one the ASCII thesis
    builder runs on every page file. Both recognise the two-byte UTF-8 forms
    of the Polish letters (section 3 of RFC 3629) and differ only in what a
    lead byte outside 0xC4/0xC5 becomes. */
module Transliterate {
  import opened Text

  /** LaTeX for the letters whose UTF-8 form starts with 0xC4. */
  function C4Letter(second: byte): Option<string> {
    if second == 0x85 then Some("\\k{a}")
    else if second == 0x84 then Some("\\k{A}")
    else if second == 0x87 then Some("\\'c")
    else if second == 0x86 then Some("\\'C")
    else if second == 0x99 then Some("\\k{e}")
    else if second == 0x98 then Some("\\k{E}")
    else None
  }

  /** LaTeX for the letters whose supposed UTF-8 form starts with 0xC5. */
  function C5Letter(second: byte): Option<string> {
    if second == 0x82 then Some("\\l{}")
    else if second == 0x81 then Some("\\L{}")
    else if second == 0x84 then Some("\\'n")
    else if second == 0x83 then Some("\\'N")
    else if second == 0xB3 then Some("\\'o")
    else if second == 0x93 then Some("\\'O")
    else if second == 0x9B then Some("\\'s")
    else if second == 0x9A then Some("\\'S")
    else if second == 0xBA then Some("\\'z")
    else if second == 0xB9 then Some("\\'Z")
    else if second == 0xBC then Some("\\.z")
    else if second == 0xBB then Some("\\.Z")
    else None
  }

  /** The table both loops share, looked up by lead and second byte. */
  function PolishLetter(lead: byte, second: byte): (r: Option<string>)
    ensures r.Some? ==> (lead == 0xC4 || lead == 0xC5) && r.value != [] && IsAsciiString(r.value)
  {
    if lead == 0xC4 then C4Letter(second)
    else if lead == 0xC5 then C5Letter(second)
    else None
  }

  /** What one turn of either loop does with the bytes at its index. */
  datatype Action =
    | Copy(b: byte)          // an ASCII byte, copied
    | Letter(latex: string)  // a listed 0xC4/0xC5 pair
    | Unlisted               // 0xC4/0xC5 followed by an unlisted byte
    | OtherLead              // any other byte >= 128 that is not last
    | Trailing               // a byte >= 128 in the last position

  function ActionAt(content: seq<byte>): (a: Action)
    requires content != []
    ensures a.Copy? <==> content[0] < 128
    ensures Width(a) <= |content|
  {
    var b := content[0];
    if b < 128 then Copy(b)
    else if 1 < |content| then
      if b == 0xC4 || b == 0xC5 then
        match PolishLetter(b, content[1])
        case Some(t) => Letter(t)
        case None => Unlisted
      else OtherLead
    else Trailing
  }

  /** How many bytes the turn consumes: the index advances by 1 or 2. */
  function Width(a: Action): nat {
    if a.Letter? || a.Unlisted? then 2 else 1
  }

  /** The text the turn emits; `other` is what a lead byte outside 0xC4/0xC5 becomes. */
  function Emit(a: Action, other: string): string {
    match a
    case Copy(b) => [b as char]
    case Letter(t) => t
    case Unlisted => "?"
    case OtherLead => other
    case Trailing => "?"
  }

  function Decode(content: seq<byte>, other: string): string
    decreases |content|
  {
    if content == [] then []
    else
      var a := ActionAt(content);
      Emit(a, other) + Decode(content[Width(a)..], other)
  }

  /** What the compiler emits for a fragment. */
  function FixFragment(content: seq<byte>): string {
    Decode(content, "?")
  }

  /** What the ASCII thesis builder emits for a page file. */
  function FixPage(content: seq<byte>): string {
    Decode(content, "\\textbf{?}")
  }

  /** One turn of the loop at index `i`, in terms of the bytes there. */
  lemma {:induction false} TurnAt(content: seq<byte>, i: nat, other: string)
    requires i < |content|
    ensures var a := ActionAt(content[i..]);
      && (content[i] < 128 ==> a == Copy(content[i]))
      && (content[i] >= 128 && i + 1 < |content| && (content[i] == 0xC4 || content[i] == 0xC5) ==>
            a == match PolishLetter(content[i], content[i + 1])
                 case Some(t) => Letter(t)
                 case None => Unlisted)
      && (content[i] >= 128 && i + 1 < |content| && content[i] != 0xC4 && content[i] != 0xC5 ==>
            a == OtherLead)
      && (content[i] >= 128 && i + 1 == |content| ==> a == Trailing)
      && Decode(content[i..], other) == Emit(a, other) + Decode(content[i + Width(a)..], other)
  {
    var c := content[i..];
    assert c[0] == content[i];
    assert i + 1 < |content| ==> c[1] == content[i + 1];
    var a := ActionAt(c);
    assert c[Width(a)..] == content[i + Width(a)..];
  }

  /** The text a 0xC4/0xC5 pair becomes, whether listed or not. */
  function PairText(lead: byte, second: byte): string {
    match PolishLetter(lead, second)
    case Some(t) => t
    case None => "?"
  }

  lemma {:induction false} Advance(done: string, emitted: string, remaining: string, after: string)
    requires remaining == emitted + after
    ensures (done + emitted) + after == done + remaining
  {
  }

  /** The compiler's loop over the fragment's bytes. */
  method FixFragmentEncoding(content: seq<byte>) returns (ascii: string)
    ensures ascii == FixFragment(content)
  {
    ascii := "";
    var i := 0;
    assert content[i..] == content;
    while i < |content|
      invariant i <= |content|
      invariant ascii + Decode(content[i..], "?") == FixFragment(content)
      decreases |content| - i
    {
      TurnAt(content, i, "?");
      ghost var a := ActionAt(content[i..]);
      ghost var before := ascii;
      ghost var start := i;
      if content[i] < 128 {
        ascii := ascii + [content[i] as char];
      } else if i + 1 < |content| {
        if content[i] == 0xC4 || content[i] == 0xC5 {
          ascii := ascii + PairText(content[i], content[i + 1]);
          i := i + 1;
        } else {
          ascii := ascii + "?";
        }
      } else {
        ascii := ascii + "?";
      }
      i := i + 1;
      assert ascii == before + Emit(a, "?");
      assert i == start + Width(a);
      Advance(before, Emit(a, "?"), Decode(content[start..], "?"), Decode(content[i..], "?"));
    }
    assert content[i..] == [];
  }

  /** The ASCII thesis builder's loop over a page file's bytes. */
  method FixPageFile(content: seq<byte>) returns (result: string)
    ensures result == FixPage(content)
  {
    result := "";
    var i := 0;
    assert content[i..] == content;
    while i < |content|
      invariant i <= |content|
      invariant result + Decode(content[i..], "\\textbf{?}") == FixPage(content)
      decreases |content| - i
    {
      TurnAt(content, i, "\\textbf{?}");
      ghost var a := ActionAt(content[i..]);
      ghost var before := result;
      ghost var start := i;
      var b := content[i];
      if b < 128 {
        result := result + [b as char];
      } else if i + 1 < |content| {
        if b == 0xC4 || b == 0xC5 {
          result := result + PairText(b, content[i + 1]);
          i := i + 1;
        } else {
          result := result + "\\textbf{?}";
        }
      } else {
        result := result + "?";
      }
      i := i + 1;
      assert result == before + Emit(a, "\\textbf{?}");
      assert i == start + Width(a);
      Advance(before, Emit(a, "\\textbf{?}"), Decode(content[start..], "\\textbf{?}"),
        Decode(content[i..], "\\textbf{?}"));
    }
    assert content[i..] == [];
  }

  // ---------------------------------------------------------------------
  // Per-byte rules

  /** The bytes as characters, one for one. */
  function AsChars(a: seq<byte>): (s: string)
    ensures |s| == |a|
  {
    seq(|a|, k requires 0 <= k < |a| => a[k] as char)
  }

  /** ASCII bytes are copied unchanged and in order, whatever follows them. */
  lemma {:induction false} AsciiPrefix(a: seq<byte>, b: seq<byte>, other: string)
    requires forall k :: 0 <= k < |a| ==> a[k] < 128
    ensures Decode(a + b, other) == AsChars(a) + Decode(b, other)
  {
    if a == [] {
      assert a + b == b;
    } else {
      DecodeAsciiCons(a, b, other);
      AsciiPrefix(a[1..], b, other);
      AsCharsHead(a);
    }
  }

  lemma {:induction false} DecodeAsciiCons(a: seq<byte>, b: seq<byte>, other: string)
    requires a != [] && a[0] < 128
    ensures Decode(a + b, other) == [a[0] as char] + Decode(a[1..] + b, other)
  {
    var c := a + b;
    assert c[0] == a[0];
    DecodeAsciiHead(c, other);
    assert c[1..] == a[1..] + b;
  }

  lemma {:induction false} AsCharsHead(a: seq<byte>)
    requires a != []
    ensures AsChars(a) == [a[0] as char] + AsChars(a[1..])
  {
  }

  lemma {:induction false} DecodeAsciiHead(c: seq<byte>, other: string)
    requires c != [] && c[0] < 128
    ensures Decode(c, other) == [c[0] as char] + Decode(c[1..], other)
  {
    assert ActionAt(c) == Copy(c[0]);
  }

  /** Pure ASCII input comes out unchanged from both loops. */
  lemma {:induction false} AsciiUnchanged(a: seq<byte>)
    requires forall k :: 0 <= k < |a| ==> a[k] < 128
    ensures FixFragment(a) == AsChars(a) && FixPage(a) == AsChars(a)
  {
    AsciiPrefix(a, [], "?");
    AsciiPrefix(a, [], "\\textbf{?}");
    assert a + [] == a;
  }

  /** A listed pair becomes its LaTeX letter and both bytes are consumed. */
  lemma {:induction false} ListedPair(lead: byte, second: byte, rest: seq<byte>, other: string)
    requires PolishLetter(lead, second).Some?
    ensures Decode([lead, second] + rest, other) == PolishLetter(lead, second).value + Decode(rest, other)
  {
    assert ([lead, second] + rest)[2..] == rest;
  }

  /** 0xC4 or 0xC5 before an unlisted byte, even an ASCII one, gives one `?`
      and the following byte is lost. */
  lemma {:induction false} UnlistedPair(lead: byte, second: byte, rest: seq<byte>, other: string)
    requires lead == 0xC4 || lead == 0xC5
    requires PolishLetter(lead, second).None?
    ensures Decode([lead, second] + rest, other) == "?" + Decode(rest, other)
  {
    assert ([lead, second] + rest)[2..] == rest;
  }

  /** A lead byte followed by the ASCII letter `a` loses the letter. */
  lemma {:induction false} LeadSwallowsAscii(rest: seq<byte>)
    ensures FixFragment([0xC4, 0x61] + rest) == "?" + FixFragment(rest)
  {
    UnlistedPair(0xC4, 0x61, rest, "?");
  }

  /** Any other byte from 128 up that is not last consumes only itself: the
      compiler emits `?`, the ASCII builder `\textbf{?}`. */
  lemma {:induction false} OtherLeadByte(b: byte, rest: seq<byte>)
    requires b >= 128 && b != 0xC4 && b != 0xC5 && rest != []
    ensures FixFragment([b] + rest) == "?" + FixFragment(rest)
    ensures FixPage([b] + rest) == "\\textbf{?}" + FixPage(rest)
  {
    assert ([b] + rest)[1..] == rest;
  }

  /** A byte from 128 up in the last position gives `?` in both loops. */
  lemma {:induction false} TrailingHighByte(a: seq<byte>, b: byte)
    requires forall k :: 0 <= k < |a| ==> a[k] < 128
    requires b >= 128
    ensures FixFragment(a + [b]) == AsChars(a) + "?"
    ensures FixPage(a + [b]) == AsChars(a) + "?"
  {
    AsciiPrefix(a, [b], "?");
    AsciiPrefix(a, [b], "\\textbf{?}");
  }

  /** Both loops emit only ASCII. */
  lemma {:induction false} DecodeIsAscii(content: seq<byte>, other: string)
    requires IsAsciiString(other)
    ensures IsAsciiString(Decode(content, other))
    decreases |content|
  {
    if content != [] {
      var a := ActionAt(content);
      DecodeIsAscii(content[Width(a)..], other);
      var e := Emit(a, other);
      assert IsAsciiString(e) by {
        if a.Unlisted? || a.Trailing? {
          assert e == "?";
        }
      }
    }
  }

  lemma {:induction false} OutputIsAscii(content: seq<byte>)
    ensures IsAsciiString(FixFragment(content)) && IsAsciiString(FixPage(content))
  {
    assert "?"[0] == '?';
    var t := "\\textbf{?}";
    assert t == "\\textb" + "f{?}";
    DecodeIsAscii(content, "?");
    DecodeIsAscii(content, t);
  }

  // ---------------------------------------------------------------------
  // The two loops compared

  /** How many turns take the branch for another lead byte. */
  function OtherLeads(content: seq<byte>): nat
    decreases |content|
  {
    if content == [] then 0
    else
      var a := ActionAt(content);
      (if a.OtherLead? then 1 else 0) + OtherLeads(content[Width(a)..])
  }

  /** The two outputs differ exactly at the other-lead turns, where the ASCII
      builder writes nine characters more. */
  lemma {:induction false} PageLonger(content: seq<byte>)
    ensures |FixPage(content)| == |FixFragment(content)| + 9 * OtherLeads(content)
    decreases |content|
  {
    if content != [] {
      var a := ActionAt(content);
      PageLonger(content[Width(a)..]);
    }
  }

  lemma {:induction false} SameWithoutOtherLeads(content: seq<byte>)
    requires OtherLeads(content) == 0
    ensures FixPage(content) == FixFragment(content)
    decreases |content|
  {
    if content != [] {
      var a := ActionAt(content);
      SameWithoutOtherLeads(content[Width(a)..]);
    }
  }

  /** The two loops agree on a file exactly when no byte from 128 up other
      than 0xC4/0xC5 ever stands where a character begins. */
  lemma {:induction false} LoopsAgree(content: seq<byte>)
    ensures FixPage(content) == FixFragment(content) <==> OtherLeads(content) == 0
  {
    PageLonger(content);
    if OtherLeads(content) == 0 {
      SameWithoutOtherLeads(content);
    }
  }

  // ---------------------------------------------------------------------
  // Polish text

  /** A character of Polish text as the loops anticipate it: an ASCII byte or a
      listed two-byte letter. */
  datatype Glyph = Ascii(b: byte) | Pair(lead: byte, second: byte)

  predicate WellFormed(g: Glyph) {
    match g
    case Ascii(b) => b < 128
    case Pair(l, s) => PolishLetter(l, s).Some?
  }

  function Encode(gs: seq<Glyph>): seq<byte> {
    if gs == [] then []
    else
      (match gs[0] case Ascii(b) => [b] case Pair(l, s) => [l, s]) + Encode(gs[1..])
  }

  /** The LaTeX the text stands for. */
  function Render(gs: seq<Glyph>): string
    requires forall k :: 0 <= k < |gs| ==> WellFormed(gs[k])
  {
    if gs == [] then []
    else
      var g := gs[0];
      assert WellFormed(g);
      (match g case Ascii(b) => [b as char] case Pair(l, s) => PolishLetter(l, s).value)
      + Render(gs[1..])
  }

  /** Text made of ASCII and listed letters comes out as its LaTeX rendering,
      the same from both loops. */
  lemma {:induction false} DecodeEncoded(gs: seq<Glyph>, other: string)
    requires forall k :: 0 <= k < |gs| ==> WellFormed(gs[k])
    ensures Decode(Encode(gs), other) == Render(gs)
  {
    if gs != [] {
      DecodeEncoded(gs[1..], other);
      match gs[0]
      case Ascii(b) =>
        assert Encode(gs) == [b] + Encode(gs[1..]);
        assert ([b] + Encode(gs[1..]))[1..] == Encode(gs[1..]);
      case Pair(l, s) =>
        assert Encode(gs) == [l, s] + Encode(gs[1..]);
        ListedPair(l, s, Encode(gs[1..]), other);
    }
  }

  lemma {:induction false} PolishTextSameInBoth(gs: seq<Glyph>)
    requires forall k :: 0 <= k < |gs| ==> WellFormed(gs[k])
    ensures FixFragment(Encode(gs)) == Render(gs) && FixPage(Encode(gs)) == Render(gs)
  {
    DecodeEncoded(gs, "?");
    DecodeEncoded(gs, "\\textbf{?}");
  }

  // ---------------------------------------------------------------------
  // The table against UTF-8

  /** The code point of a two-byte UTF-8 sequence (section 3 of RFC 3629). */
  function Utf8Pair(lead: byte, second: byte): int {
    (lead - 0xC0) * 64 + (second - 0x80)
  }

  /** The code point of the Polish letter each LaTeX form stands for. */
  function PolishCodePoint(latex: string): int {
    if latex == "\\k{a}" then 0x105 else if latex == "\\k{A}" then 0x104
    else if latex == "\\'c" then 0x107 else if latex == "\\'C" then 0x106
    else if latex == "\\k{e}" then 0x119 else if latex == "\\k{E}" then 0x118
    else if latex == "\\l{}" then 0x142 else if latex == "\\L{}" then 0x141
    else if latex == "\\'n" then 0x144 else if latex == "\\'N" then 0x143
    else if latex == "\\'o" then 0xF3 else if latex == "\\'O" then 0xD3
    else if latex == "\\'s" then 0x15B else if latex == "\\'S" then 0x15A
    else if latex == "\\'z" then 0x17A else if latex == "\\'Z" then 0x179
    else if latex == "\\.z" then 0x17C else if latex == "\\.Z" then 0x17B
    else -1
  }

  /** Every listed pair is the UTF-8 form of the letter it becomes, except the
      two entries for `ó` and `Ó`: 0xC5 0xB3 and 0xC5 0x93 encode U+0173 and
      U+0153, not U+00F3 and U+00D3. */
  lemma {:induction false} TableAgainstUtf8(lead: byte, second: byte)
    requires PolishLetter(lead, second).Some?
    ensures var t := PolishLetter(lead, second).value;
      Utf8Pair(lead, second) == PolishCodePoint(t) <==> t != "\\'o" && t != "\\'O"
  {
  }

  /** The genuine UTF-8 `ó`, 0xC3 0xB3, is not recognised and becomes `??`. */
  lemma {:induction false} GenuineOAcute(rest: seq<byte>)
    ensures Utf8Pair(0xC3, 0xB3) == PolishCodePoint("\\'o")
    ensures FixFragment([0xC3, 0xB3] + rest) == "??" + FixFragment(rest)
  {
    var c := [0xC3, 0xB3] + rest;
    assert ActionAt(c) == OtherLead;
    assert c[1..] == [0xB3] + rest;
    if rest != [] {
      OtherLeadByte(0xB3, rest);
    } else {
      assert c[1..] == [0xB3];
      assert ActionAt([0xB3]) == Trailing;
      assert [0xB3][1..] == [];
      assert FixFragment([0xB3]) == "?";
    }
    assert "?" + "?" == "??";
  }
}
